=== FILE: README.md ===
# In-memory CMIS object store, service validator and basic user manager

This project models three parts of a lightweight CMIS server in Dafny:

- **The in-memory object store.** It has one map from keys to stored objects. Every object is entered under its id. Every fileable object (folder, document, item, versioned document) is also entered under its path. The store also holds an append-only, de-duplicating table of ACLs, and each object refers to its ACL by an integer handle. The model covers:
  - storing and removing objects;
  - the ACL engine (`getAclId`, `addAcl`, `hasAcl`, `hasAccess`, `getAllAclsForUser`);
  - folder paths (`getFolderPath`, `insertPathSegment`);
  - the children listings (`getChildren`, `getFolderChildren`, `hasChild`, `sortFolderList`);
  - object creation (`createDocument`, `createItem`, `createVersionedDocument`, `createFolder`, `createRootFolder`);
  - `rename` and `move`;
  - deletion (`deleteObject`, `deleteFolder`, `deleteVersion`);
  - `updateObject` and `clear`.
- **The base service validator.** It holds the parameter checks every service call starts with, and the rules a type definition must follow when it is created or updated.
- **The basic user manager.** This is the login table and its `authenticate` checks.

## How the model is built

- The store is `Store(index, heap, acls, rootId)`.
  - `index` is the Java map, from a key (an id, or a path starting with `/`) to the id of the object entered under it.
  - `heap` holds every object ever stored, by id. All the keys of one object reach the same record, so a change made through one key is seen through the others, as Java aliasing makes it. A key left behind by a removal still reaches its object.
- Java exceptions become `Result`/`Outcome` failures carrying the CMIS exception kind: `ObjectNotFound`, `InvalidArgument`, `NameConstraintViolation`, `ConstraintViolation` or `PermissionDenied`.
  - A null dereference, a failed cast and an iterator that runs out are all `RuntimeFailure`.
  - A failure is modelled as leaving the store as it was. The source agrees except for the cases listed for StoreEdits.Move, StoreDeletes.DeleteAllVersions and StoreDeletes.DeleteOneVersion under "Left out", where it fails part-way through a change.
- Nulls are `Option`s.
- Object ids are generated from a counter or a clock in the source. Here they are parameters, with the precondition that the store has never handed them out.
- A path walk that could loop forever through a parent cycle is given fuel. The fuel is the number of records in the store, which is enough for any acyclic walk.

## Model

| member | source | states |
|---|---|---|
| Ordinal.NoLaterIsLexicographic | src/main/java/org/apache/chemistry/opencmis/inmemory/storedobj/impl/ObjectStoreImpl.java:1157-1170 | The name comparison used to sort folder lists (`String.compareTo <= 0`) is the lexicographic order: either a prefix, or smaller at the first differing character |
| Ordinal.NoLaterReflexive | src/main/java/org/apache/chemistry/opencmis/inmemory/storedobj/impl/ObjectStoreImpl.java:1157-1170 | Every name sorts no later than itself |
| Ordinal.NoLaterTotal | src/main/java/org/apache/chemistry/opencmis/inmemory/storedobj/impl/ObjectStoreImpl.java:1157-1170 | Any two names are comparable, so the sort is well defined |
| Ordinal.NoLaterTransitive | src/main/java/org/apache/chemistry/opencmis/inmemory/storedobj/impl/ObjectStoreImpl.java:1157-1170 | The name order is transitive |
| Ordinal.NoLaterAntisymmetric | src/main/java/org/apache/chemistry/opencmis/inmemory/storedobj/impl/ObjectStoreImpl.java:1157-1170 | Two names that each sort no later than the other are equal |
| StoredObjects.RemoveFirst | src/main/java/org/apache/chemistry/opencmis/inmemory/storedobj/impl/ObjectStoreImpl.java:1153-1155 | Removing a parent id takes exactly one occurrence out of the list (as a multiset), and changes nothing when the id is absent |
| StoredObjects.RemoveFirstCutsFirstOccurrence | src/main/java/org/apache/chemistry/opencmis/inmemory/storedobj/impl/ObjectStoreImpl.java:1153-1155 | The occurrence removed is the first one; everything before and after it keeps its order |
| AclEngine.FindAcl | src/main/java/org/apache/chemistry/opencmis/inmemory/storedobj/impl/ObjectStoreImpl.java:963-971 | getInMemoryAcl finds nothing exactly when no entry carries the handle; otherwise it returns the first entry that does |
| AclEngine.FindAclInValidTable | src/main/java/org/apache/chemistry/opencmis/inmemory/storedobj/impl/ObjectStoreImpl.java:963-971 | In a table built by addAcl, handle h finds entry h, and handles outside the table find nothing |
| AclEngine.FindHandle | src/main/java/org/apache/chemistry/opencmis/inmemory/storedobj/impl/ObjectStoreImpl.java:991-998 | hasAcl gives -1 when no registered set is equal; otherwise it gives the handle of the first equal set |
| AclEngine.AddAcl | src/main/java/org/apache/chemistry/opencmis/inmemory/storedobj/impl/ObjectStoreImpl.java:1000-1019 | A null ACL gets handle 0. A known set keeps its handle and the table stays as it was. A new set is appended under the next handle. The table stays duplicate-free with handle i at position i |
| AclEngine.AddAclDeduplicates | src/main/java/org/apache/chemistry/opencmis/inmemory/storedobj/impl/ObjectStoreImpl.java:1000-1019 | Registering the same set twice gives the same handle and leaves the table as the first registration left it |
| AclEngine.AddAclKeepsSeeded | src/main/java/org/apache/chemistry/opencmis/inmemory/storedobj/impl/ObjectStoreImpl.java:1000-1019 | Adding a set that is the default ACL, or that lacks the default ACE, keeps handle 0 as the only open ACL |
| AclEngine.AddEach | src/main/java/org/apache/chemistry/opencmis/inmemory/storedobj/impl/ObjectStoreImpl.java:701-711 | The add loop gives up (returns handle 0) exactly when the default ACE is among the ACEs to add; otherwise it adds all of them |
| AclEngine.RemoveEach | src/main/java/org/apache/chemistry/opencmis/inmemory/storedobj/impl/ObjectStoreImpl.java:713-719 | The remove loop takes every listed ACE out of the set |
| AclEngine.StartWithDefault | src/main/java/org/apache/chemistry/opencmis/inmemory/storedobj/impl/ObjectStoreImpl.java:669-681 | In a seeded table, only an object holding handle 0 starts from a set that contains the default ACE |
| AclEngine.EffectiveLacksDefault | src/main/java/org/apache/chemistry/opencmis/inmemory/storedobj/impl/ObjectStoreImpl.java:683-719 | When no short cut applies, the computed set never contains the default ACE |
| AclEngine.RegisterWithoutDefault | src/main/java/org/apache/chemistry/opencmis/inmemory/storedobj/impl/ObjectStoreImpl.java:1000-1019 | A set without the default ACE never receives the open handle 0 |
| AclEngine.RegisterEffective | src/main/java/org/apache/chemistry/opencmis/inmemory/storedobj/impl/ObjectStoreImpl.java:713-725 | The tail of getAclId: an empty result gets handle 0 and leaves the table alone; otherwise the table only grows and the handle names the computed set |
| AclEngine.GetAclId | src/main/java/org/apache/chemistry/opencmis/inmemory/storedobj/impl/ObjectStoreImpl.java:664-726 | The handle is 0 exactly when a short cut applies or the computed set is empty; otherwise the table only grows and the handle's entry is the start set plus the added ACEs minus the removed ones |
| AclEngine.GetAclIdRegistersEffective | src/main/java/org/apache/chemistry/opencmis/inmemory/storedobj/impl/ObjectStoreImpl.java:664-726 | Without a short cut and with a non-empty result, getAclId is addAcl of the computed set |
| AclEngine.SameAcesSameHandle | src/main/java/org/apache/chemistry/opencmis/inmemory/storedobj/impl/ObjectStoreImpl.java:664-726 | A later computation that yields the same ACE set reuses the earlier handle and leaves the table alone |
| AclEngine.ReapplyToOpenHandle | src/main/java/org/apache/chemistry/opencmis/inmemory/storedobj/impl/ObjectStoreImpl.java:683-699 | Lists that gave handle 0 give handle 0 again when applied to an object holding it |
| AclEngine.EffectiveOfEffective | src/main/java/org/apache/chemistry/opencmis/inmemory/storedobj/impl/ObjectStoreImpl.java:701-719 | Adding and then removing the same lists a second time yields the same set |
| AclEngine.ReapplyToRegisteredHandle | src/main/java/org/apache/chemistry/opencmis/inmemory/storedobj/impl/ObjectStoreImpl.java:664-726 | Lists that gave a registered handle give that handle again, and the table does not grow |
| AclEngine.ReapplyIsIdempotent | src/main/java/org/apache/chemistry/opencmis/inmemory/storedobj/impl/ObjectStoreImpl.java:664-726 | Applying the same add and remove lists twice gives the same handle and table as applying them once |
| AclEngine.AclsForUser | src/main/java/org/apache/chemistry/opencmis/inmemory/storedobj/impl/ObjectStoreImpl.java:647-656 | A handle is listed exactly when some entry carrying it grants the permission to the principal, directly or through "anyone" |
| AclEngine.HasAccess | src/main/java/org/apache/chemistry/opencmis/inmemory/storedobj/impl/ObjectStoreImpl.java:954-961 | The administrator always passes. A null object never passes for anyone else. Otherwise access is granted exactly when the object's handle is among the handles granting the permission |
| AclEngine.HasAccessByHandle | src/main/java/org/apache/chemistry/opencmis/inmemory/storedobj/impl/ObjectStoreImpl.java:954-971 | In a valid table the access check reads the one entry behind the object's handle |
| AclEngine.OpenHandleGrantsEveryone | src/main/java/org/apache/chemistry/opencmis/inmemory/storedobj/impl/ObjectStoreImpl.java:328-342 | Under the `hasPermission` rule named in "Left out", handle 0, the root's default ACL, grants every permission to every principal |
| AclEngine.AllCoversReadAndWrite | src/main/java/org/apache/chemistry/opencmis/inmemory/storedobj/impl/ObjectStoreImpl.java:920-961 | Under the `hasPermission` rule named in "Left out" (READ < WRITE < ALL), whoever has ALL access also has READ and WRITE access |
| ObjectStore.GetObjectById | src/main/java/org/apache/chemistry/opencmis/inmemory/storedobj/impl/ObjectStoreImpl.java:209-213 | An object is found exactly when the key is in the map; an id key reaches the object carrying that id, as currently stored |
| ObjectStore.GetObjectByPath | src/main/java/org/apache/chemistry/opencmis/inmemory/storedobj/impl/ObjectStoreImpl.java:177-183 | "/" always gives the root folder; any other path is found exactly when it is a key of the map |
| ObjectStore.InsertPathSegment | src/main/java/org/apache/chemistry/opencmis/inmemory/storedobj/impl/ObjectStoreImpl.java:613-624 | The walk only ever writes in front of the buffer, so the buffer is a suffix of the result; the result is a path whenever the buffer started empty or as a path |
| ObjectStore.InsertPathSegmentRenders | src/main/java/org/apache/chemistry/opencmis/inmemory/storedobj/impl/ObjectStoreImpl.java:613-624 | The walk writes exactly "/a/b/c" (the ancestor names below the root, top down) in front of the buffer, or "/" for the root with an empty buffer |
| ObjectStore.GetFolderPath | src/main/java/org/apache/chemistry/opencmis/inmemory/storedobj/impl/ObjectStoreImpl.java:607-611 | A folder path always starts with the separator |
| ObjectStore.GetFolderPathRenders | src/main/java/org/apache/chemistry/opencmis/inmemory/storedobj/impl/ObjectStoreImpl.java:607-624 | getFolderPath is "/" for the root and "/" followed by the names from below the root down to the folder, separated by "/" |
| ObjectStore.InsertPathSegmentMonotone | src/main/java/org/apache/chemistry/opencmis/inmemory/storedobj/impl/ObjectStoreImpl.java:613-624 | A walk that ends gives the same path for any larger fuel, so the fuel bound does not affect results |
| ObjectStore.PathOf | src/main/java/org/apache/chemistry/opencmis/inmemory/storedobj/impl/ObjectStoreImpl.java:279-284 | Only fileable objects have a path, and every path starts with the separator |
| ObjectStore.PathOfFolderIsFolderPath | src/main/java/org/apache/chemistry/opencmis/inmemory/storedobj/impl/ObjectStoreImpl.java:607-624 | A stored folder's own path is its getFolderPath |
| ObjectStore.WalkSurvivesGrowth | src/main/java/org/apache/chemistry/opencmis/inmemory/storedobj/impl/ObjectStoreImpl.java:613-624 | A path computed in a store stays the same in any store that keeps every folder it had |
| ObjectStore.WalkIgnoresPathKeys | src/main/java/org/apache/chemistry/opencmis/inmemory/storedobj/impl/ObjectStoreImpl.java:613-624 | Path walks follow parent ids only, so adding or dropping path keys never changes a computed path |
| ObjectStore.PathOfIgnoresPathKeys | src/main/java/org/apache/chemistry/opencmis/inmemory/storedobj/impl/ObjectStoreImpl.java:279-284 | An object's path depends only on the records and live ids, not on path keys |
| ObjectStore.StoreObject | src/main/java/org/apache/chemistry/opencmis/inmemory/storedobj/impl/ObjectStoreImpl.java:254-287 | After storeObject, the id reaches the object and so does its path when it has one. The map gains exactly those keys, and every other key keeps its target. The store stays valid |
| ObjectStore.StoreUnfiled | src/main/java/org/apache/chemistry/opencmis/inmemory/storedobj/impl/ObjectStoreImpl.java:276-284 | An object that cannot be filed is entered under its id alone |
| ObjectStore.PutPath | src/main/java/org/apache/chemistry/opencmis/inmemory/storedobj/impl/ObjectStoreImpl.java:278-284 | Entering a stored object under a path changes no id entry |
| ObjectStore.StoreKeepsFolders | src/main/java/org/apache/chemistry/opencmis/inmemory/storedobj/impl/ObjectStoreImpl.java:254-287 | Storing a new object keeps every stored folder under its id |
| ObjectStore.StoreKeepsPaths | src/main/java/org/apache/chemistry/opencmis/inmemory/storedobj/impl/ObjectStoreImpl.java:254-287 | Storing a new object leaves every folder path that could be computed before unchanged |
| ObjectStore.RemoveObject | src/main/java/org/apache/chemistry/opencmis/inmemory/storedobj/impl/ObjectStoreImpl.java:293-303 | removeObject drops exactly the id key and, for a fileable object, the path computed before the removal; every other key keeps its target. It fails (a null dereference or null key) exactly when the id is unknown or a fileable object has no path |
| ObjectStore.StoreThenRemove | src/main/java/org/apache/chemistry/opencmis/inmemory/storedobj/impl/ObjectStoreImpl.java:254-303 | Storing a new object and then removing it restores the map as it was |
| ObjectStore.InitialStore | src/main/java/org/apache/chemistry/opencmis/inmemory/storedobj/impl/ObjectStoreImpl.java:328-342 | createRootFolder registers the default ACL as handle 0, gives the root that handle, and enters the root under its id and under "/" |
| ObjectStore.Clear | src/main/java/org/apache/chemistry/opencmis/inmemory/storedobj/impl/ObjectStoreImpl.java:314-319 | clear leaves exactly the root's id entry and, when the root has a path, its path entry, with the root reachable under both; records, table and root id are kept |
| ObjectStore.ClearEntersRootPath | src/main/java/org/apache/chemistry/opencmis/inmemory/storedobj/impl/ObjectStoreImpl.java:314-319 | For a parentless root folder, clear leaves exactly the map {root id, "/"}, both reaching the root |
| ObjectStore.ClearIdempotent | src/main/java/org/apache/chemistry/opencmis/inmemory/storedobj/impl/ObjectStoreImpl.java:314-319 | Clearing twice is the same as clearing once |
| Children.PathKeysAddNothing | src/main/java/org/apache/chemistry/opencmis/inmemory/storedobj/impl/ObjectStoreImpl.java:777-811 | When every key reaches a live object, going over path keys as well as ids adds no child the ids do not already give |
| Children.VisibleChildrenAreChildren | src/main/java/org/apache/chemistry/opencmis/inmemory/storedobj/impl/ObjectStoreImpl.java:784-785 | A user sees a subset of the unrestricted (null-user) listing |
| Children.AdminSeesAllChildren | src/main/java/org/apache/chemistry/opencmis/inmemory/storedobj/impl/ObjectStoreImpl.java:784-785 | The administrator sees every child |
| Children.VersionedDocumentListedByRepresentative | src/main/java/org/apache/chemistry/opencmis/inmemory/storedobj/impl/ObjectStoreImpl.java:786-798 | A versioned document in the folder is listed exactly as its working copy (when asked for and present) or else its latest version; with neither it contributes nothing (the source lists a null, see "Left out") |
| Children.HasChildIsNamedChild | src/main/java/org/apache/chemistry/opencmis/inmemory/storedobj/impl/ObjectStoreImpl.java:893-901 | hasChild holds exactly when some member of the unrestricted children listing carries the name |
| Children.LiveObjectIsChild | src/main/java/org/apache/chemistry/opencmis/inmemory/storedobj/impl/ObjectStoreImpl.java:777-811 | A live fileable object (not a versioned document) filed in the folder is listed, and its name is taken there |
| Children.FirstNameExists | src/main/java/org/apache/chemistry/opencmis/inmemory/storedobj/impl/ObjectStoreImpl.java:1157-1170 | Every non-empty set of children has a member whose name sorts first |
| Children.SortByName | src/main/java/org/apache/chemistry/opencmis/inmemory/storedobj/impl/ObjectStoreImpl.java:1157-1170 | sortFolderList yields every member of the set exactly once, in non-decreasing name order |
| Children.Window | src/main/java/org/apache/chemistry/opencmis/inmemory/storedobj/impl/ObjectStoreImpl.java:762-769 | The page starts at the skip count, capped by the list size (0 when negative). It holds maxItems entries, or all the rest when maxItems is negative, capped by what is left |
| Children.FullWindow | src/main/java/org/apache/chemistry/opencmis/inmemory/storedobj/impl/ObjectStoreImpl.java:762-769 | Negative maxItems and skipCount give the whole list |
| Children.ConsecutivePages | src/main/java/org/apache/chemistry/opencmis/inmemory/storedobj/impl/ObjectStoreImpl.java:762-769 | Pages of a fixed size, each skipping what came before, meet without gap or overlap |
| Children.AddInt32 | src/main/java/org/apache/chemistry/opencmis/inmemory/storedobj/impl/ObjectStoreImpl.java:766 | Java int addition: the result lies in the 32-bit range, agrees with the true sum modulo 2^32, and equals it when the sum fits |
| Children.WindowAsWritten | src/main/java/org/apache/chemistry/opencmis/inmemory/storedobj/impl/ObjectStoreImpl.java:762-769 | The page bounds as the source computes them: the start is the intended one |
| Children.WindowAsWrittenWithoutOverflow | src/main/java/org/apache/chemistry/opencmis/inmemory/storedobj/impl/ObjectStoreImpl.java:762-769 | Whenever `maxItems + from` fits in 32 bits, the computed page is the intended one |
| Children.WindowAsWrittenOverflows | src/main/java/org/apache/chemistry/opencmis/inmemory/storedobj/impl/ObjectStoreImpl.java:766 | Two children with maxItems 2^31-1 and skipCount 1: the computed end falls before the start, where the intended page is the second child |
| Children.GetChildren | src/main/java/org/apache/chemistry/opencmis/inmemory/storedobj/impl/ObjectStoreImpl.java:757-771 | Corrected: the page end is computed without the 32-bit overflow of line 766 (see "Findings"). The total is the number of distinct children. The page is the window of the children sorted by name |
| Children.FolderChildCountAsWritten | src/main/java/org/apache/chemistry/opencmis/inmemory/storedobj/impl/ObjectStoreImpl.java:813-828 | As written, the number of listed folders is the number of keys reaching a child folder, never less than the number of distinct child folders |
| Children.ImageNoLarger | src/main/java/org/apache/chemistry/opencmis/inmemory/storedobj/impl/ObjectStoreImpl.java:816-824 | The folders collected from a set of keys are no more than the keys |
| Children.ImageSmaller | src/main/java/org/apache/chemistry/opencmis/inmemory/storedobj/impl/ObjectStoreImpl.java:816-824 | When two keys reach the same folder, fewer distinct folders than keys are collected |
| Children.FolderListedTwiceAsWritten | src/main/java/org/apache/chemistry/opencmis/inmemory/storedobj/impl/ObjectStoreImpl.java:813-828 | As written, a readable child folder entered under both its id and its path is counted more often than there are distinct child folders |
| Children.GetFolderChildren | src/main/java/org/apache/chemistry/opencmis/inmemory/storedobj/impl/ObjectStoreImpl.java:813-833 | Corrected: the total is the number of distinct readable child folders, and the page is the window of them sorted by name. The window is computed without the 32-bit overflow of `maxItems + from` at line 827, the same one as at line 766 (see "Findings") |
| Children.PathBelowRoot | src/main/java/org/apache/chemistry/opencmis/inmemory/storedobj/impl/ObjectStoreImpl.java:613-624 | A folder filed in a parentless folder has the path "/" followed by its name |
| Children.NewFolderBelowRoot | src/main/java/org/apache/chemistry/opencmis/inmemory/storedobj/impl/ObjectStoreImpl.java:254-287 | A folder stored into a parentless folder gets the path "/name" |
| Children.OneFolderStored | src/main/java/org/apache/chemistry/opencmis/inmemory/storedobj/impl/ObjectStoreImpl.java:254-287 | The smallest store with one folder "a" below the root is valid and holds "a" under its id |
| Children.OneFolderPath | src/main/java/org/apache/chemistry/opencmis/inmemory/storedobj/impl/ObjectStoreImpl.java:607-624 | That folder's path is "/a" |
| Children.OneFolderAtPath | src/main/java/org/apache/chemistry/opencmis/inmemory/storedobj/impl/ObjectStoreImpl.java:276-284 | That folder is also entered under "/a" |
| Children.OneFolderListedTwice | src/main/java/org/apache/chemistry/opencmis/inmemory/storedobj/impl/ObjectStoreImpl.java:813-828 | As written, getFolderChildren on that root lists 2 entries for its one child folder |
| StoreOps.ApplyAcl | src/main/java/org/apache/chemistry/opencmis/inmemory/storedobj/impl/ObjectStoreImpl.java:1026-1030 | The object's handle becomes the one getAclId computes from its current handle; nothing else in the store changes |
| StoreOps.WithHandle | src/main/java/org/apache/chemistry/opencmis/inmemory/storedobj/impl/ObjectStoreImpl.java:1026-1030 | Setting an object's handle together with a new valid table keeps the store valid and changes only that record |
| StoreOps.ApplyAclAgainIsNoOp | src/main/java/org/apache/chemistry/opencmis/inmemory/storedobj/impl/ObjectStoreImpl.java:1026-1030 | Applying the lists again to an object whose handle they just produced changes nothing |
| StoreOps.StoreNew | src/main/java/org/apache/chemistry/opencmis/inmemory/storedobj/impl/ObjectStoreImpl.java:344-375 | A new object is stored after the table has been extended by getAclId from its folder's handle |
| StoreOps.NameTaken | src/main/java/org/apache/chemistry/opencmis/inmemory/storedobj/impl/ObjectStoreImpl.java:893-901 | A live object filed in the folder it was created in takes its name there |
| StoreOps.VersionNameTaken | src/main/java/org/apache/chemistry/opencmis/inmemory/storedobj/impl/ObjectStoreImpl.java:786-798 | After createVersionedDocument, the first version's name is taken in the folder |
| StoreOps.CreateDocument | src/main/java/org/apache/chemistry/opencmis/inmemory/storedobj/impl/ObjectStoreImpl.java:344-375 | A document without a name property is a null dereference; an empty name value list is refused the same way (see "Left out"). It is refused (name constraint) exactly when the folder already has a child of that name. Otherwise the document is stored under the fresh id with the folder as its parent and the handle getAclId gives, and its name is then taken. The table is the one getAclId returns, and the map gains exactly the document's id and path; every other key keeps its target |
| StoreOps.CreateItem | src/main/java/org/apache/chemistry/opencmis/inmemory/storedobj/impl/ObjectStoreImpl.java:377-403 | createItem fails exactly when the folder already has a child of the name. Otherwise the item is stored with the computed handle and its name is then taken. The table is the one getAclId returns, and the map gains exactly the item's id and path; every other key keeps its target |
| StoreOps.CreateDocumentTwiceFails | src/main/java/org/apache/chemistry/opencmis/inmemory/storedobj/impl/ObjectStoreImpl.java:344-375 | After a first document is created, the folder is still stored and a second fresh id is still fresh, and a second document of the same name in the same folder is refused with a name-constraint violation |
| StoreOps.CompleteShell | src/main/java/org/apache/chemistry/opencmis/inmemory/storedobj/impl/ObjectStoreImpl.java:405-440 | Replacing the stored versioned document's record keeps the map and leaves the new record reachable |
| StoreOps.StoreShell | src/main/java/org/apache/chemistry/opencmis/inmemory/storedobj/impl/ObjectStoreImpl.java:405-440 | The versioned document is stored first, without versions and with handle 0 |
| StoreOps.AttachFirstVersion | src/main/java/org/apache/chemistry/opencmis/inmemory/storedobj/impl/ObjectStoreImpl.java:405-440 | After the first version is attached, both the document and its version are reachable by id |
| StoreOps.StoreVersioned | src/main/java/org/apache/chemistry/opencmis/inmemory/storedobj/impl/ObjectStoreImpl.java:405-440 | The document and its first version share the name and the handle computed from the folder's, and the document lists exactly that version. The map gains the document's id and path (computed when the document is stored, before its version) and the version's id; every other key keeps its target |
| StoreOps.CreateVersionedDocument | src/main/java/org/apache/chemistry/opencmis/inmemory/storedobj/impl/ObjectStoreImpl.java:405-440 | It fails exactly when the folder already has a child of the name. Otherwise a versioned document with one version is stored, under the table getAclId returns; the map gains exactly the document's id and path and the version's id |
| StoreOps.CreateVersionedDocumentTakesName | src/main/java/org/apache/chemistry/opencmis/inmemory/storedobj/impl/ObjectStoreImpl.java:405-440 | After createVersionedDocument the name is taken in the folder |
| StoreOps.VersionedDocumentIsChild | src/main/java/org/apache/chemistry/opencmis/inmemory/storedobj/impl/ObjectStoreImpl.java:786-798 | A live versioned document with no working copy takes its latest version's name in its folders |
| StoreOps.CreateFolder | src/main/java/org/apache/chemistry/opencmis/inmemory/storedobj/impl/ObjectStoreImpl.java:442-480 | A null parent is an invalid argument. When the name is taken, nothing is created: the folder at the child path is returned, a non-folder there is a failed cast, and nothing there returns null. Otherwise a new folder is stored with the parent's handle run through getAclId, under the table getAclId returns; the map gains exactly the folder's id and path, and every other key keeps its target |
| StoreOps.CreateFolderTakesName | src/main/java/org/apache/chemistry/opencmis/inmemory/storedobj/impl/ObjectStoreImpl.java:442-480 | A folder createFolder stores takes its name in the parent |
| StoreOps.ChildPathIsNotRoot | src/main/java/org/apache/chemistry/opencmis/inmemory/storedobj/impl/ObjectStoreImpl.java:607-624 | A child with a non-empty name never has the root's path |
| StoreOps.NewObjectKeepsChildPath | src/main/java/org/apache/chemistry/opencmis/inmemory/storedobj/impl/ObjectStoreImpl.java:254-287 | Storing a new object leaves the path a child of a folder would have unchanged |
| StoreOps.NewFolderAtChildPath | src/main/java/org/apache/chemistry/opencmis/inmemory/storedobj/impl/ObjectStoreImpl.java:442-480 | The folder createFolder stores is reached under the child path its parent gives it |
| StoreOps.NewFolderTakesName | src/main/java/org/apache/chemistry/opencmis/inmemory/storedobj/impl/ObjectStoreImpl.java:442-480 | A stored new folder makes hasChild true for its name in the parent |
| StoreOps.NewObjectKeepsFolder | src/main/java/org/apache/chemistry/opencmis/inmemory/storedobj/impl/ObjectStoreImpl.java:254-287 | Storing a new object leaves every stored folder stored |
| StoreOps.CreateFolderFindsFolder | src/main/java/org/apache/chemistry/opencmis/inmemory/storedobj/impl/ObjectStoreImpl.java:442-480 | When the name is taken and its path reaches a folder, createFolder returns that folder and leaves the store alone |
| StoreOps.CreateFolderTwiceReturnsFirst | src/main/java/org/apache/chemistry/opencmis/inmemory/storedobj/impl/ObjectStoreImpl.java:442-480 | createFolder is idempotent: asking again for the same name in the same parent returns the folder created first and stores nothing |
| StoreEdits.CheckParents | src/main/java/org/apache/chemistry/opencmis/inmemory/storedobj/impl/ObjectStoreImpl.java:871-881 | rename's loop passes exactly when every parent is a stored folder without a child of the new name. A clash is a name-constraint violation, and a missing or non-folder parent is a failed cast |
| StoreEdits.Unkey | src/main/java/org/apache/chemistry/opencmis/inmemory/storedobj/impl/ObjectStoreImpl.java:882-887 | Dropping the old path and replacing the record keeps the store valid |
| StoreEdits.Rekey | src/main/java/org/apache/chemistry/opencmis/inmemory/storedobj/impl/ObjectStoreImpl.java:851-855 | The old path entry goes, the record is replaced, and the object is entered under its new path; without a path this fails |
| StoreEdits.Rename | src/main/java/org/apache/chemistry/opencmis/inmemory/storedobj/impl/ObjectStoreImpl.java:864-891 | The root cannot be renamed. A name clash in any parent is refused. A fileable object leaves its old path and is entered under the new one; an object that cannot be filed only changes its name |
| StoreEdits.RenameToOwnNameFails | src/main/java/org/apache/chemistry/opencmis/inmemory/storedobj/impl/ObjectStoreImpl.java:864-891 | Renaming a live filed object to its own name clashes with itself and is refused |
| StoreEdits.RenameReentersObject | src/main/java/org/apache/chemistry/opencmis/inmemory/storedobj/impl/ObjectStoreImpl.java:882-887 | After a successful rename, the object is reachable by id and under its new path with its new name |
| StoreEdits.MovedParents | src/main/java/org/apache/chemistry/opencmis/inmemory/storedobj/impl/ObjectStoreImpl.java:1149-1155 | The new parent list is the old one plus the new parent minus one occurrence of the old parent |
| StoreEdits.Refile | src/main/java/org/apache/chemistry/opencmis/inmemory/storedobj/impl/ObjectStoreImpl.java:845-850 | Changing a multi-filed object's parents leaves the map untouched |
| StoreEdits.Move | src/main/java/org/apache/chemistry/opencmis/inmemory/storedobj/impl/ObjectStoreImpl.java:835-862 | A name clash in the new parent is an invalid argument. A multi-filed object is re-filed. A folder is re-entered under its new path. Anything else is left alone |
| StoreEdits.MoveFilesInNewParent | src/main/java/org/apache/chemistry/opencmis/inmemory/storedobj/impl/ObjectStoreImpl.java:845-855 | After a move to another folder, the new parent is among the object's parents |
| StoreEdits.MoveTakesNameInNewParent | src/main/java/org/apache/chemistry/opencmis/inmemory/storedobj/impl/ObjectStoreImpl.java:835-862 | After a move, the object's name is taken in the new parent |
| StoreDeletes.DeleteFolder | src/main/java/org/apache/chemistry/opencmis/inmemory/storedobj/impl/ObjectStoreImpl.java:728-755 | A missing key or a non-folder is an invalid argument. A folder with any child the user sees (working copies counted) is a constraint violation. Otherwise its path and id entries go |
| StoreDeletes.DeleteFolderRemovesBothKeys | src/main/java/org/apache/chemistry/opencmis/inmemory/storedobj/impl/ObjectStoreImpl.java:749-752 | A successful deleteFolder leaves neither the key nor the folder's path in the map |
| StoreDeletes.DeleteFolderWithChildRefused | src/main/java/org/apache/chemistry/opencmis/inmemory/storedobj/impl/ObjectStoreImpl.java:741-747 | A folder holding a live child the user may read cannot be deleted: a constraint violation |
| StoreDeletes.DeleteVersion | src/main/java/org/apache/chemistry/opencmis/inmemory/storedobj/impl/ObjectStoreImpl.java:530-538 | deleteVersion fails exactly for a version that is not entered; otherwise only its id entry goes |
| StoreDeletes.RemoveAll | src/main/java/org/apache/chemistry/opencmis/inmemory/storedobj/impl/ObjectStoreImpl.java:232-235 | Removing every version in turn only drops keys and fails only as removeObject does |
| StoreDeletes.RemoveAllClears | src/main/java/org/apache/chemistry/opencmis/inmemory/storedobj/impl/ObjectStoreImpl.java:232-235 | After removing all the versions, none of their ids is entered |
| StoreDeletes.WithoutVersion | src/main/java/org/apache/chemistry/opencmis/inmemory/storedobj/impl/ObjectStoreImpl.java:236-238 | The deleted version leaves the document's version list once and is no longer its working copy; any other working copy is kept, and the document keeps its id and parents |
| StoreDeletes.DeletedVersionNotListed | src/main/java/org/apache/chemistry/opencmis/inmemory/storedobj/impl/ObjectStoreImpl.java:236-238 | After a version listed once is deleted, its document is never again listed as that version, whether or not the working copy is asked for |
| StoreDeletes.DeleteObject | src/main/java/org/apache/chemistry/opencmis/inmemory/storedobj/impl/ObjectStoreImpl.java:215-248 | An unknown id is not found. A folder goes through deleteFolder. A version goes through the version branch. Anything else is removed. On success only keys are dropped, including the id itself unless all versions were asked for |
| StoreDeletes.DeleteVersionObject | src/main/java/org/apache/chemistry/opencmis/inmemory/storedobj/impl/ObjectStoreImpl.java:226-244 | A version whose document is not a stored versioned document is a null dereference. With allVersions every version goes; otherwise just this one |
| StoreDeletes.DeleteAllVersions | src/main/java/org/apache/chemistry/opencmis/inmemory/storedobj/impl/ObjectStoreImpl.java:230-244 | With allVersions, every version id and the document's id are gone afterwards |
| StoreDeletes.DeleteOneVersion | src/main/java/org/apache/chemistry/opencmis/inmemory/storedobj/impl/ObjectStoreImpl.java:236-244 | The version's key goes and it leaves its document's list. The document goes too when no version is left; otherwise nothing else changes |
| StoreDeletes.Rerecord | src/main/java/org/apache/chemistry/opencmis/inmemory/storedobj/impl/ObjectStoreImpl.java:236-238 | Replacing the versioned document's record keeps the store valid and every key in place |
| PropertyUpdate.Merged | src/main/java/org/apache/chemistry/opencmis/inmemory/storedobj/impl/ObjectStoreImpl.java:543-559 | Reference merge: the secondary-type list is never kept; a mentioned key is present exactly when its new value has a first value, and then holds it; an unmentioned key keeps its old value |
| PropertyUpdate.MergedByPoints | src/main/java/org/apache/chemistry/opencmis/inmemory/storedobj/impl/ObjectStoreImpl.java:543-559 | Any property map meeting those pointwise rules is the merge |
| PropertyUpdate.UpdateProperties | src/main/java/org/apache/chemistry/opencmis/inmemory/storedobj/impl/ObjectStoreImpl.java:543-559 | The loop over the new properties, in any iteration order, computes exactly the reference merge |
| PropertyUpdate.UpdateObject | src/main/java/org/apache/chemistry/opencmis/inmemory/storedobj/impl/ObjectStoreImpl.java:540-562 | updateObject changes only the object's properties, to the merge; no key, handle or other record changes |
| PropertyUpdate.MergeIdempotent | src/main/java/org/apache/chemistry/opencmis/inmemory/storedobj/impl/ObjectStoreImpl.java:543-559 | Applying the same update twice gives what applying it once gives |
| PropertyUpdate.EmptyUpdateDropsSecondaryTypes | src/main/java/org/apache/chemistry/opencmis/inmemory/storedobj/impl/ObjectStoreImpl.java:559 | An update naming nothing only drops the secondary-type list |
| PropertyUpdate.SingleUpdate | src/main/java/org/apache/chemistry/opencmis/inmemory/storedobj/impl/ObjectStoreImpl.java:547-555 | Updating one property sets it when the value has a first value, removes it otherwise, and keeps the rest |
| UserManager.TrimStart | src/main/java/org/apache/chemistry/opencmis/utils/BasicUserManager.java:60 | Leading characters up to the space are cut, and the result does not start with one |
| UserManager.TrimEnd | src/main/java/org/apache/chemistry/opencmis/utils/BasicUserManager.java:60 | Trailing characters up to the space are cut, and the result does not end with one |
| UserManager.Trim | src/main/java/org/apache/chemistry/opencmis/utils/BasicUserManager.java:60 | The trimmed name is a slice of the input with only control or space characters cut off either side, and none at its ends |
| UserManager.TrimIdempotent | src/main/java/org/apache/chemistry/opencmis/utils/BasicUserManager.java:60 | Trimming twice is trimming once |
| UserManager.AddLogin | src/main/java/org/apache/chemistry/opencmis/utils/BasicUserManager.java:55-61 | A null name or password leaves the table alone. Otherwise the trimmed name maps to the password, replacing any earlier entry, and no other entry changes |
| UserManager.CheckCredentials | src/main/java/org/apache/chemistry/opencmis/utils/BasicUserManager.java:79-92 | The name as given must be entered. In basic mode (no mode, or "basic") the password must equal the stored one. In any other mode a known name suffices |
| UserManager.Authenticate | src/main/java/org/apache/chemistry/opencmis/utils/BasicUserManager.java:67-74 | It succeeds, returning the caller's name, exactly when the credential check passes; otherwise permission is denied |
| UserManager.AddedLoginAuthenticates | src/main/java/org/apache/chemistry/opencmis/utils/BasicUserManager.java:55-92 | A login just added authenticates under its trimmed name: with its password in basic mode, with any password otherwise |
| UserManager.WrongPasswordRefused | src/main/java/org/apache/chemistry/opencmis/utils/BasicUserManager.java:79-92 | In basic mode a wrong password is refused, even for a name just added |
| UserManager.UntrimmedNameNotFound | src/main/java/org/apache/chemistry/opencmis/utils/BasicUserManager.java:55-92 | A login added as " bob" is stored as "bob", so authenticating as " bob" is refused |
| UserManager.IgnoredLoginChangesNothing | src/main/java/org/apache/chemistry/opencmis/utils/BasicUserManager.java:55-61 | Adding a login with a null part changes no later authentication outcome |
| ParamChecks.CheckStandardParameters | src/main/java/org/apache/chemistry/opencmis/inmemory/server/BaseServiceValidatorImpl.java:121-143 | A null repository or object id is an invalid argument. An unknown repository or object is not found. Otherwise the object under that key is returned |
| ParamChecks.CheckStandardParametersFor | src/main/java/org/apache/chemistry/opencmis/inmemory/server/BaseServiceValidatorImpl.java:88-108 | Any action but deleteTree takes the strict check. deleteTree succeeds for any known repository and returns the lookup's result, possibly null |
| ParamChecks.CheckStandardParametersByPath | src/main/java/org/apache/chemistry/opencmis/inmemory/server/BaseServiceValidatorImpl.java:167-189 | The same as the id check, with getObjectByPath as the lookup |
| ParamChecks.CheckStandardParametersByPathFor | src/main/java/org/apache/chemistry/opencmis/inmemory/server/BaseServiceValidatorImpl.java:145-165 | The path check is lenient for deleteTree only |
| ParamChecks.CheckStandardParametersAllowNull | src/main/java/org/apache/chemistry/opencmis/inmemory/server/BaseServiceValidatorImpl.java:191-215 | A null repository id is invalid. A null object id returns null without looking at the repository. Otherwise it behaves as the strict check |
| ParamChecks.DeleteTreeOnlyForgivesMissingObject | src/main/java/org/apache/chemistry/opencmis/inmemory/server/BaseServiceValidatorImpl.java:88-143 | The lenient check differs from the strict one only by returning null where the strict one reports a missing object |
| ParamChecks.CheckedObjectCarriesId | src/main/java/org/apache/chemistry/opencmis/inmemory/server/BaseServiceValidatorImpl.java:121-143 | An object the strict check returns for an id carries that id |
| TypeChecks.CheckCreatablePropertyTypes | src/main/java/org/apache/chemistry/opencmis/inmemory/server/BaseServiceValidatorImpl.java:267-289 | The definitions pass exactly when each one's property type is creatable and no definition is required without a default value; otherwise it is a constraint violation |
| TypeChecks.CreatableOrderIrrelevant | src/main/java/org/apache/chemistry/opencmis/inmemory/server/BaseServiceValidatorImpl.java:267-289 | The order in which the definitions come does not change the outcome |
| TypeChecks.AttributeOrderComplete | src/main/java/org/apache/chemistry/opencmis/inmemory/server/BaseServiceValidatorImpl.java:291-367 | checkSettableAttributes goes through every settable type attribute |
| TypeChecks.CheckAttributes | src/main/java/org/apache/chemistry/opencmis/inmemory/server/BaseServiceValidatorImpl.java:291-367 | The attributes pass exactly when every one that changes may be set; otherwise it is a constraint violation |
| TypeChecks.OrderedCheckIsRule | src/main/java/org/apache/chemistry/opencmis/inmemory/server/BaseServiceValidatorImpl.java:291-367 | Checking attribute by attribute in the source's order is the rule "every changed attribute is settable" |
| TypeChecks.CheckSettableAttributes | src/main/java/org/apache/chemistry/opencmis/inmemory/server/BaseServiceValidatorImpl.java:291-367 | Without a capability nothing is restricted. With one, an update passes exactly when every attribute it changes may be set |
| TypeChecks.UnchangedTypeAlwaysSettable | src/main/java/org/apache/chemistry/opencmis/inmemory/server/BaseServiceValidatorImpl.java:291-367 | Leaving a type as it is always passes |
| TypeChecks.CheckUpdateType | src/main/java/org/apache/chemistry/opencmis/inmemory/server/BaseServiceValidatorImpl.java:492-499 | An update passes only when it keeps the type's id and base type; otherwise it is a constraint violation |
| TypeChecks.CheckUpdateTypeSymmetric | src/main/java/org/apache/chemistry/opencmis/inmemory/server/BaseServiceValidatorImpl.java:492-499 | checkUpdateType is symmetric and passes whenever id and base type agree |
| TypeChecks.CheckChoices | src/main/java/org/apache/chemistry/opencmis/inmemory/server/BaseServiceValidatorImpl.java:404-424 | The choices pass exactly when each old choice's values are all in the new choice at the same position. Running out of new choices is an iterator failure; a lost value is a constraint violation |
| TypeChecks.CheckBounds | src/main/java/org/apache/chemistry/opencmis/inmemory/server/BaseServiceValidatorImpl.java:427-477 | The restrictions pass exactly when each bound the old definition's kind carries only widens: a new minimum needs an old one no smaller, a new maximum or length needs an old one no larger |
| TypeChecks.CheckPropertyUpdate | src/main/java/org/apache/chemistry/opencmis/inmemory/server/BaseServiceValidatorImpl.java:374-477 | One property update passes exactly when the reference rule allows it. That rule requires: not inherited; required not newly set; same type and cardinality; open choice kept; closed choices present and widened; bounds widened |
| TypeChecks.UpdateToSelf | src/main/java/org/apache/chemistry/opencmis/inmemory/server/BaseServiceValidatorImpl.java:374-425 | A definition updated to itself passes exactly when it is not inherited and is either open or carries choices |
| TypeChecks.CheckNewDefinitionAsWritten | src/main/java/org/apache/chemistry/opencmis/inmemory/server/BaseServiceValidatorImpl.java:372-376 | As written, a new definition without an old one is a null dereference |
| TypeChecks.CheckNewDefinition | src/main/java/org/apache/chemistry/opencmis/inmemory/server/BaseServiceValidatorImpl.java:372-477 | Corrected: a new definition passes exactly when it is new or its update from the old one is allowed |
| TypeChecks.CheckUpdatePropertyDefinitions | src/main/java/org/apache/chemistry/opencmis/inmemory/server/BaseServiceValidatorImpl.java:369-490 | Corrected: a new property the type did not have is checked instead of dereferencing a null at lines 374-376 (see "Findings"). Over both maps, in any iteration order, checkUpdatePropertyDefinitions passes exactly when every new definition is allowed and no old property is dropped |
| TypeChecks.RemovedPropertyRefused | src/main/java/org/apache/chemistry/opencmis/inmemory/server/BaseServiceValidatorImpl.java:480-489 | Dropping a property is always refused |
| TypeChecks.AddedPropertyAllowed | src/main/java/org/apache/chemistry/opencmis/inmemory/server/BaseServiceValidatorImpl.java:369-490 | Corrected: adding a property to definitions that may be kept as they are is allowed |
| TypeChecks.AddedPropertyFailsAsWritten | src/main/java/org/apache/chemistry/opencmis/inmemory/server/BaseServiceValidatorImpl.java:372-376 | As written, any new property id fails with a null dereference where the corrected check passes |
| TypeChecks.EmptyTypeGainsPropertyAsWritten | src/main/java/org/apache/chemistry/opencmis/inmemory/server/BaseServiceValidatorImpl.java:372-376 | A type without properties gaining a string property "p": it fails as written and passes corrected |
| TypeChecks.CheckPolicies | src/main/java/org/apache/chemistry/opencmis/inmemory/server/BaseServiceValidatorImpl.java:253-265 | A null list passes. Otherwise it passes exactly when every id names a known type whose base type is policy; any other is an invalid argument |
| TypeChecks.CheckPolicyList | src/main/java/org/apache/chemistry/opencmis/inmemory/server/BaseServiceValidatorImpl.java:254-264 | The loop passes exactly when every listed id is a known policy type |
| TypeChecks.PoliciesSplit | src/main/java/org/apache/chemistry/opencmis/inmemory/server/BaseServiceValidatorImpl.java:254-264 | A list passes exactly when both of its halves pass |

## Left out

- Persistence: saving, moving and deleting files on disk are no-ops here. The persistence manager's id choice is also left out, as ids are parameters.
- Locking and `synchronized`: the model is sequential.
- Content streams, renditions, `createPolicy`, `createRelationship`, `getRelationships`, `getCheckedOutDocuments` and `isTypeInUse` are outside the modelled core.
- The public `applyAcl` with propagation, `applyAclRecursive` and `setAcl`: only the private add/remove `applyAcl` used by creation is modelled.
- `findObjectWithPathInDescendents` is not called by the modelled operations and is left out.
- `updateSystemBasePropertiesWhenModified` is not modelled. It sets the system properties (modification date, last modifier) and also the object's secondary object type ids from the list put into the properties at line 548. The model does not update the secondary type ids.
- The secondary-type list is put into the properties and then dropped at the end. The model drops it directly, so a null value for it is simply absent.
- The store manager: the repositories are a map from repository id to store. The type registry for policies is a map from type id to type definition.
- AclEngine.AddAcl, AclEngine.FindHandle and AclEngine.GetAclId: `InMemoryAcl` and `InMemoryAce` are not part of this model. An ACL is taken to be a set of (principal, permission) pairs. `addAce` and `removeAce` are taken to be set insertion and deletion. `new InMemoryAce(ace)` is taken to give exactly one pair, and `InMemoryAcl.equals` (used by `hasAcl`, line 993) to compare the pair sets, ignoring the handle. AclEngine.AddAclDeduplicates, AclEngine.SameAcesSameHandle, AclEngine.ReapplyToRegisteredHandle, AclEngine.ReapplyIsIdempotent and StoreOps.ApplyAclAgainIsNoOp hold under these assumptions.
- The `InMemoryAcl.hasPermission` rule is modelled as "the principal or anyone holds a grant of at least the requested level", with READ < WRITE < ALL.
- Fileable objects compute their own path elsewhere. Here a path is the folder walk of `insertPathSegment`, started at the object's first parent.
- `DocumentVersion` is treated as non-fileable: listings skip it and it has no path entry.
- The model uses value equality where the source compares references: `path == "/"` in getObjectByPath, `!=` on the id and base type in checkUpdateType, and `!=` on the id, description, display name, local name, local namespace and query name in checkSettableAttributes. With interned strings and enums the two agree. TypeChecks.CheckSettableAttributes, TypeChecks.UnchangedTypeAlwaysSettable and TypeChecks.CheckUpdateType rest on this.
- Null Boolean flags in property definitions (the source would unbox them to an exception) are not modelled: every flag is a Boolean.
- Choice entries are always `Choice` objects, so the two "not of class Choice" errors cannot arise. Nested choices are not compared, as the source does not compare them either.
- Integer and decimal bounds are both modelled as reals. The kind of bound checked is chosen by the property type rather than by the definition's class.
- Multi-filed objects keep the path entries they had when moved, and a folder move does not re-enter its descendants under their new paths. Both are as in the source.
- `deleteVersion` and `addParentId`/`removeParentId` of the stored objects are not part of this model. They are taken to remove the version from its document's list (and to drop the working copy when that is the version deleted), to append a parent, and to remove the first occurrence of a parent.
- StoreEdits.Rename: for an object that cannot be filed, the source sets the new name and then fails its cast to a fileable object at line 887. The model records the new name and reports success instead of the failure.
- Children.GetFolderChildren: requires non-negative maxItems and skipCount, because the source (unlike getChildren) does not clamp them and a negative bound fails inside `subList`.
- Children.GetChildren: the order among children with equal names is left open, as in the source.
- Ordinal.NoLaterIsLexicographic: a Dafny `char` is a Unicode scalar value, while Java's `String.compareTo` compares UTF-16 code units. The two orders differ when a character outside the Basic Multilingual Plane meets one in U+E000 to U+FFFF. For example, Java sorts "😀" (surrogates D83D DE00) before "\uE000", and the model sorts it after. The children listings inherit this difference.
- StoreEdits.Move: when the moved folder's new path cannot be computed (the new parent lies below the folder, so the walk runs round a cycle, or a folder on the way is missing), the model fails with the store unchanged. The source, at lines 853-855, has by then removed the folder's old path entry and set its new parent id, so it is left with the cyclic parent and without the old path when the path computation fails.
- StoreDeletes.DeleteAllVersions: when removing one version fails, the model fails with the store unchanged. The source's loop at lines 232-235 has by then removed the versions before it. Likewise, when removing the document itself at line 243 fails (an unfiled document has no path, and the map refuses the null key at line 297), the source has already removed every version's entry, and the model again reports the failure with the store unchanged.
- StoreDeletes.DeleteOneVersion: when removing the document at line 243 fails (again an unfiled document without a path), the model fails with the store unchanged. The source has by then removed the version's entry (line 237) and taken it out of the document's list (line 238).
- Children.VersionedDocumentListedByRepresentative: a versioned document with no version (and no working copy when one is asked for) contributes nothing to a listing in the model. The source adds a null child at line 798, which `hasChild` then dereferences at line 896 and the name sort at lines 1161-1162. The model does not exclude such documents from a valid store, because the creation stores the document before its first version.
- StoreOps.CreateDocument: a name property with an empty value list gives the source a null name (line 347), and the source goes on to store a document without a name. The model cannot represent a null name and refuses such a document with a runtime failure, as for a missing name property.
- StoreOps.StoreVersioned: the versioning state argument is ignored. `addVersion` (VersionedDocumentImpl is not part of this model) is taken to add one version that shares the document's name and handle, with no private working copy. Under the CHECKEDOUT state, CMIS makes the first version a private working copy; the model has no such case, whatever `addVersion` does with the state.
- StoreOps.CreateFolder: when the name is taken, the source finds the existing folder through the persistence manager's file for the parent, made relative to its root path. The model takes that relative path to be the store's own folder walk (`ChildPath`), which assumes a persistence root path is set and that its folder layout mirrors the store. With no root path the source dereferences a null at line 452 instead. StoreOps.CreateFolderFindsFolder and StoreOps.CreateFolderTwiceReturnsFirst rest on the same assumption. The `cmis:path` property set at lines 472-475 is not modelled.

## Findings

| source | as written | input that shows it | evidently intended | confidence | as-written member | corrected member |
|---|---|---|---|---|---|---|
| src/main/java/org/apache/chemistry/opencmis/inmemory/storedobj/impl/ObjectStoreImpl.java:813-833 | getFolderChildren goes over every key of the map. A child folder is entered under its id and its path, so it is added twice, and the total counts both | A root "100" with one folder "a": the listing has 2 entries and total 2 | Each child folder listed once, as getChildren does with its set; total 1 | not executed | Children.FolderListedTwiceAsWritten, Children.OneFolderListedTwice | Children.GetFolderChildren |
| src/main/java/org/apache/chemistry/opencmis/inmemory/storedobj/impl/ObjectStoreImpl.java:766 | `Math.min(maxItems + from, size)` adds in 32-bit ints. getFolderChildren repeats the same sum at line 827 | 2 children, maxItems 2^31-1, skipCount 1: the sum wraps to a negative end below the start, and `subList` throws. In getFolderChildren one child folder (listed twice, so 2 entries) with the same bounds does the same | The rest of the list from the skip count (the second child) | not executed | Children.WindowAsWritten, Children.WindowAsWrittenOverflows | Children.Window |
| src/main/java/org/apache/chemistry/opencmis/inmemory/server/BaseServiceValidatorImpl.java:374-376 | The old definition is looked up by the new one's id and dereferenced without a null check | Old definitions {} and new definitions {"p": a string property}: a null dereference | A property the type did not have is accepted, or refused with a constraint violation | not executed | TypeChecks.CheckNewDefinitionAsWritten, TypeChecks.AddedPropertyFailsAsWritten | TypeChecks.CheckNewDefinition |

=== FILE: acl_engine.dfy ===
/** The ACL engine of the object store (ObjectStoreImpl's `fAcls` table with
    getAclId, addAcl, hasAcl, getAllAclsForUser and hasAccess): an append-only,
    de-duplicating table of ACE sets, each addressed by an integer handle. */
module AclEngine {
  import opened Wrappers

  /** Access levels; a grant of a level covers every request of a lower one. */
  datatype Permission = Read | Write | All

  function Rank(p: Permission): nat {
    match p
    case Read => 1
    case Write => 2
    case All => 3
  }

  datatype Ace = Ace(principal: string, permission: Permission)

  type AceSet = set<Ace>

  /** The principal every user matches. */
  const Anyone: string := "anyone"
  /** The administrator, who passes every access check. */
  const Admin: string := "Admin"
  /** "Everyone may do everything": the ACE whose presence means "unrestricted". */
  const DefaultAce: Ace := Ace(Anyone, All)
  const DefaultAcl: AceSet := {DefaultAce}

  predicate Grants(ace: Ace, principal: string, permission: Permission) {
    && (ace.principal == principal || ace.principal == Anyone)
    && Rank(permission) <= Rank(ace.permission)
  }

  /** Some ACE of the set grants `permission` (or more) to `principal`. */
  predicate HasPermission(aces: AceSet, principal: string, permission: Permission) {
    exists ace :: ace in aces && Grants(ace, principal, permission)
  }

  datatype AclEntry = AclEntry(id: int, aces: AceSet)

  /** The registered ACE sets, in registration order, and the next unused handle. */
  datatype AclTable = AclTable(entries: seq<AclEntry>, nextId: int)

  /** The table of a fresh store: the handle counter starts at 0. */
  const EmptyTable: AclTable := AclTable([], 0)

  /** Handles are handed out from 0 upwards, so entry i carries handle i, and no
      ACE set is registered twice. */
  ghost predicate Valid(t: AclTable) {
    && t.nextId == |t.entries|
    && (forall i :: 0 <= i < |t.entries| ==> t.entries[i].id == i)
    && (forall i, j :: 0 <= i < j < |t.entries| ==> t.entries[i].aces != t.entries[j].aces)
  }

  /** Handle 0 denotes the root's default ACL, and no other registered set holds
      the default ACE (adding that ACE always collapses to handle 0). */
  ghost predicate Seeded(t: AclTable) {
    && |t.entries| > 0
    && t.entries[0].aces == DefaultAcl
    && (forall i :: 1 <= i < |t.entries| ==> DefaultAce !in t.entries[i].aces)
  }

  ghost predicate Registered(t: AclTable, aces: AceSet) {
    exists i :: 0 <= i < |t.entries| && t.entries[i].aces == aces
  }

  /** getInMemoryAcl: the ACE set of the first entry carrying handle `id`. */
  function FindAcl(entries: seq<AclEntry>, id: int): (r: Option<AceSet>)
    ensures r.None? <==> forall i :: 0 <= i < |entries| ==> entries[i].id != id
    ensures r.Some? ==>
      exists i :: 0 <= i < |entries| && entries[i].id == id && entries[i].aces == r.value
  {
    if |entries| == 0 then None
    else if entries[0].id == id then Some(entries[0].aces)
    else FindAcl(entries[1..], id)
  }

  lemma FindAclInValidTable(t: AclTable, id: int)
    requires Valid(t)
    ensures FindAcl(t.entries, id) ==
      if 0 <= id < |t.entries| then Some(t.entries[id].aces) else None
  {
    if 0 <= id < |t.entries| {
      assert t.entries[id].id == id;
    }
  }

  /** hasAcl: the handle of the first entry holding exactly `aces`, or -1. */
  function FindHandle(entries: seq<AclEntry>, aces: AceSet): (r: int)
    ensures (forall i :: 0 <= i < |entries| ==> entries[i].aces != aces) ==> r == -1
    ensures (exists i :: 0 <= i < |entries| && entries[i].aces == aces) ==>
      exists i :: && 0 <= i < |entries| && entries[i].aces == aces && entries[i].id == r
                  && forall j :: 0 <= j < i ==> entries[j].aces != aces
  {
    if |entries| == 0 then -1
    else if entries[0].aces == aces then entries[0].id
    else
      var r := FindHandle(entries[1..], aces);
      assert forall i :: 1 <= i < |entries| ==> entries[i] == entries[1..][i - 1];
      r
  }

  /** addAcl: the handle of an already registered equal set, or a new handle for
      a set seen for the first time; a null ACL maps to the open handle 0. */
  function AddAcl(t: AclTable, acl: Option<AceSet>): (r: (AclTable, int))
    requires Valid(t)
    ensures Valid(r.0)
    ensures acl.None? ==> r == (t, 0)
    ensures acl.Some? ==> 0 <= r.1 < |r.0.entries| && r.0.entries[r.1].aces == acl.value
    ensures acl.Some? && Registered(t, acl.value) ==> r.0 == t
    ensures acl.Some? && !Registered(t, acl.value) ==>
      r.0.entries == t.entries + [AclEntry(t.nextId, acl.value)] && r.1 == t.nextId
  {
    if acl.None? then (t, 0)
    else
      var h := FindHandle(t.entries, acl.value);
      if h < 0 then
        (AclTable(t.entries + [AclEntry(t.nextId, acl.value)], t.nextId + 1), t.nextId)
      else
        (t, h)
  }

  lemma AddAclKeepsSeeded(t: AclTable, aces: AceSet)
    requires Valid(t) && Seeded(t)
    requires aces == DefaultAcl || DefaultAce !in aces
    ensures Seeded(AddAcl(t, Some(aces)).0)
  {
  }

  /** Registering a set twice yields the same handle and leaves the table alone. */
  lemma {:induction false} AddAclDeduplicates(t: AclTable, aces: AceSet)
    requires Valid(t)
    ensures var (t1, h1) := AddAcl(t, Some(aces));
            AddAcl(t1, Some(aces)) == (t1, h1)
  {
    var (t1, h1) := AddAcl(t, Some(aces));
    assert t1.entries[h1].aces == aces;
    assert Registered(t1, aces);
    var h2 := FindHandle(t1.entries, aces);
    var i :| 0 <= i < |t1.entries| && t1.entries[i].aces == aces && t1.entries[i].id == h2;
    assert i == h1;
  }

  function Elems(aces: seq<Ace>): AceSet {
    set a | a in aces
  }

  function ElemsOr(aces: Option<seq<Ace>>): AceSet {
    if aces.None? then {} else Elems(aces.value)
  }

  /** The add loop of getAclId: adds every ACE, but gives up (None) on meeting the
      default ACE, since then the result is the open handle anyway. */
  function AddEach(acc: AceSet, aces: seq<Ace>): (r: Option<AceSet>)
    ensures r.None? <==> DefaultAce in aces
    ensures r.Some? ==> r.value == acc + Elems(aces)
    decreases |aces|
  {
    if |aces| == 0 then Some(acc)
    else if aces[0] == DefaultAce then None
    else
      var r := AddEach(acc + {aces[0]}, aces[1..]);
      assert aces == [aces[0]] + aces[1..];
      r
  }

  /** The remove loop of getAclId. */
  function RemoveEach(acc: AceSet, aces: seq<Ace>): (r: AceSet)
    ensures r == acc - Elems(aces)
    decreases |aces|
  {
    if |aces| == 0 then acc
    else
      var r := RemoveEach(acc - {aces[0]}, aces[1..]);
      assert aces == [aces[0]] + aces[1..];
      r
  }

  /** The ACE set an object with handle `current` starts from: the registered set,
      or empty for no object or an unknown handle. */
  function StartAces(t: AclTable, current: Option<int>): AceSet {
    if current.None? then {} else FindAcl(t.entries, current.value).GetOr({})
  }

  /** The set getAclId computes when it takes no short cut: adds, then removes. */
  function EffectiveAces(t: AclTable, current: Option<int>, add: Option<seq<Ace>>,
                         remove: Option<seq<Ace>>): AceSet
  {
    (StartAces(t, current) + ElemsOr(add)) - ElemsOr(remove)
  }

  predicate RevokesDefault(remove: Option<seq<Ace>>) {
    remove.Some? && DefaultAce in remove.value
  }

  /** The three short cuts of getAclId to the open handle 0: nothing to start from
      and nothing to apply; an open object whose "everyone: ALL" grant is not
      revoked; an added "everyone: ALL" grant. */
  ghost predicate KeepsOpen(t: AclTable, current: Option<int>, add: Option<seq<Ace>>,
                            remove: Option<seq<Ace>>)
  {
    || (StartAces(t, current) == {} && add.None? && remove.None?)
    || (current == Some(0) && !RevokesDefault(remove))
    || (add.Some? && DefaultAce in add.value)
  }

  /** In a seeded table only the open handle 0 starts from the default ACE. */
  lemma StartWithDefault(t: AclTable, current: Option<int>)
    requires Valid(t) && Seeded(t)
    requires DefaultAce in StartAces(t, current)
    ensures current == Some(0)
  {
    FindAclInValidTable(t, current.value);
  }

  /** Without a short cut the default ACE never survives into the result. */
  lemma EffectiveLacksDefault(t: AclTable, current: Option<int>, add: Option<seq<Ace>>,
                              remove: Option<seq<Ace>>)
    requires Valid(t) && Seeded(t)
    requires !KeepsOpen(t, current, add, remove)
    ensures DefaultAce !in EffectiveAces(t, current, add, remove)
  {
    if DefaultAce in StartAces(t, current) {
      StartWithDefault(t, current);
    }
  }

  /** A set without the default ACE never receives the open handle. */
  lemma RegisterWithoutDefault(t: AclTable, aces: AceSet)
    requires Valid(t) && Seeded(t)
    requires DefaultAce !in aces
    ensures AddAcl(t, Some(aces)).1 != 0
    ensures Seeded(AddAcl(t, Some(aces)).0)
  {
    AddAclKeepsSeeded(t, aces);
  }

  /** The tail of getAclId once no short cut applied: the remove loop over the
      added set, then registration of a non-empty result. */
  function RegisterEffective(t: AclTable, current: Option<int>, add: Option<seq<Ace>>,
                             remove: Option<seq<Ace>>, added: AceSet): (r: (AclTable, int))
    requires Valid(t) && Seeded(t)
    requires !KeepsOpen(t, current, add, remove)
    requires added == StartAces(t, current) + ElemsOr(add)
    ensures Valid(r.0) && Seeded(r.0)
    ensures t.entries <= r.0.entries
    ensures r.1 == 0 <==> EffectiveAces(t, current, add, remove) == {}
    ensures r.1 == 0 ==> r.0 == t
    ensures r.1 != 0 ==>
      0 < r.1 < |r.0.entries| && r.0.entries[r.1].aces == EffectiveAces(t, current, add, remove)
  {
    var result := RemoveEach(added, remove.GetOr([]));
    assert result == EffectiveAces(t, current, add, remove);
    if |result| > 0 then
      EffectiveLacksDefault(t, current, add, remove);
      RegisterWithoutDefault(t, result);
      AddAcl(t, Some(result))
    else
      (t, 0)
  }

  /** getAclId: the handle of the ACE set obtained from the object's current set
      (`current` is None for a null object) by the add and remove lists. */
  function GetAclId(t: AclTable, current: Option<int>, add: Option<seq<Ace>>,
                    remove: Option<seq<Ace>>): (r: (AclTable, int))
    requires Valid(t) && Seeded(t)
    ensures Valid(r.0) && Seeded(r.0)
    ensures t.entries <= r.0.entries
    ensures r.1 == 0 <==> KeepsOpen(t, current, add, remove) || EffectiveAces(t, current, add, remove) == {}
    ensures r.1 == 0 ==> r.0 == t
    ensures r.1 != 0 ==>
      0 < r.1 < |r.0.entries| && r.0.entries[r.1].aces == EffectiveAces(t, current, add, remove)
  {
    var start := StartAces(t, current);
    if |start| == 0 && add.None? && remove.None? then (t, 0)
    else
      var removeDefault := RevokesDefault(remove);
      if current.Some? && current.value == 0 && !removeDefault then (t, 0)
      else
        match AddEach(start, add.GetOr([]))
        case None => (t, 0)
        case Some(added) =>
          RegisterEffective(t, current, add, remove, added)
  }

  /** getAllAclsForUser: the handles of all entries granting `permission` to
      `principal`, in table order. */
  function AclsForUser(entries: seq<AclEntry>, principal: string, permission: Permission): (r: seq<int>)
    ensures forall h :: h in r <==>
      exists i :: 0 <= i < |entries| && entries[i].id == h && HasPermission(entries[i].aces, principal, permission)
  {
    if |entries| == 0 then []
    else
      var rest := AclsForUser(entries[1..], principal, permission);
      assert forall i :: 1 <= i < |entries| ==> entries[i] == entries[1..][i - 1];
      (if HasPermission(entries[0].aces, principal, permission) then [entries[0].id] else []) + rest
  }

  /** hasAccess: the administrator always passes; a null object (`aclId` None)
      never does; otherwise the object's handle must be among the granting ones. */
  function HasAccess(t: AclTable, principal: string, aclId: Option<int>, permission: Permission): (r: bool)
    ensures r <==>
      || principal == Admin
      || (&& aclId.Some?
          && exists i :: && 0 <= i < |t.entries| && t.entries[i].id == aclId.value
                         && HasPermission(t.entries[i].aces, principal, permission))
  {
    if principal == Admin then true
    else
      var ids := AclsForUser(t.entries, principal, permission);
      if aclId.None? then false else aclId.value in ids
  }

  /** In a valid table the access check reads the one entry behind the handle. */
  lemma HasAccessByHandle(t: AclTable, principal: string, h: int, permission: Permission)
    requires Valid(t)
    ensures HasAccess(t, principal, Some(h), permission) <==>
      principal == Admin || (0 <= h < |t.entries| && HasPermission(t.entries[h].aces, principal, permission))
  {
    if 0 <= h < |t.entries| {
      assert t.entries[h].id == h;
    }
  }

  /** Handle 0 is open to everyone, for every permission. */
  lemma OpenHandleGrantsEveryone(t: AclTable, principal: string, permission: Permission)
    requires Valid(t) && Seeded(t)
    ensures HasAccess(t, principal, Some(0), permission)
  {
    assert Grants(DefaultAce, principal, permission);
    HasAccessByHandle(t, principal, 0, permission);
  }

  /** ALL implies READ and WRITE. */
  lemma AllCoversReadAndWrite(t: AclTable, principal: string, aclId: Option<int>)
    requires HasAccess(t, principal, aclId, All)
    ensures HasAccess(t, principal, aclId, Read) && HasAccess(t, principal, aclId, Write)
  {
    if principal != Admin {
      var i :| 0 <= i < |t.entries| && t.entries[i].id == aclId.value
               && HasPermission(t.entries[i].aces, principal, All);
      var ace :| ace in t.entries[i].aces && Grants(ace, principal, All);
      assert Grants(ace, principal, Read) && Grants(ace, principal, Write);
    }
  }

  /** Without a short cut, getAclId registers exactly the effective set. */
  lemma GetAclIdRegistersEffective(t: AclTable, current: Option<int>, add: Option<seq<Ace>>,
                                   remove: Option<seq<Ace>>)
    requires Valid(t) && Seeded(t)
    requires !KeepsOpen(t, current, add, remove)
    requires EffectiveAces(t, current, add, remove) != {}
    ensures GetAclId(t, current, add, remove) == AddAcl(t, Some(EffectiveAces(t, current, add, remove)))
  {
    var added := AddEach(StartAces(t, current), add.GetOr([]));
    assert added.Some?;
    assert RemoveEach(added.value, remove.GetOr([])) == EffectiveAces(t, current, add, remove);
  }

  /** De-duplication across objects: once a set has a handle, any later getAclId
      that arrives at the same set without a short cut returns that same handle
      and leaves the table unchanged. */
  lemma SameAcesSameHandle(t: AclTable, c1: Option<int>, a1: Option<seq<Ace>>, r1: Option<seq<Ace>>,
                           c2: Option<int>, a2: Option<seq<Ace>>, r2: Option<seq<Ace>>)
    requires Valid(t) && Seeded(t)
    requires GetAclId(t, c1, a1, r1).1 != 0
    requires !KeepsOpen(GetAclId(t, c1, a1, r1).0, c2, a2, r2)
    requires EffectiveAces(GetAclId(t, c1, a1, r1).0, c2, a2, r2) == EffectiveAces(t, c1, a1, r1)
    ensures GetAclId(GetAclId(t, c1, a1, r1).0, c2, a2, r2) == GetAclId(t, c1, a1, r1)
  {
    var e := EffectiveAces(t, c1, a1, r1);
    GetAclIdRegistersEffective(t, c1, a1, r1);
    var t1 := GetAclId(t, c1, a1, r1).0;
    GetAclIdRegistersEffective(t1, c2, a2, r2);
    AddAclDeduplicates(t, e);
  }

  /** Re-applying lists that gave the open handle gives it again. */
  lemma ReapplyToOpenHandle(t: AclTable, current: Option<int>, add: Option<seq<Ace>>, remove: Option<seq<Ace>>)
    requires Valid(t) && Seeded(t)
    requires GetAclId(t, current, add, remove).1 == 0
    ensures GetAclId(t, Some(0), add, remove) == (t, 0)
  {
    if RevokesDefault(remove) && !(add.Some? && DefaultAce in add.value) {
      FindAclInValidTable(t, 0);
      assert StartAces(t, Some(0)) == DefaultAcl;
      assert EffectiveAces(t, current, add, remove) == {};
      assert EffectiveAces(t, Some(0), add, remove) <= EffectiveAces(t, current, add, remove);
    }
  }

  /** Adding and removing the same lists twice is the same as doing it once. */
  lemma EffectiveOfEffective(t: AclTable, current: Option<int>, t1: AclTable, h1: int,
                             add: Option<seq<Ace>>, remove: Option<seq<Ace>>)
    requires StartAces(t1, Some(h1)) == EffectiveAces(t, current, add, remove)
    ensures EffectiveAces(t1, Some(h1), add, remove) == EffectiveAces(t, current, add, remove)
  {
  }

  /** Re-applying lists that gave a registered handle finds that handle again. */
  lemma ReapplyToRegisteredHandle(t: AclTable, current: Option<int>, add: Option<seq<Ace>>, remove: Option<seq<Ace>>)
    requires Valid(t) && Seeded(t)
    requires GetAclId(t, current, add, remove).1 != 0
    ensures var (t1, h1) := GetAclId(t, current, add, remove);
            GetAclId(t1, Some(h1), add, remove) == (t1, h1)
  {
    var r := GetAclId(t, current, add, remove);
    var e := EffectiveAces(t, current, add, remove);
    FindAclInValidTable(r.0, r.1);
    assert StartAces(r.0, Some(r.1)) == e;
    EffectiveOfEffective(t, current, r.0, r.1, add, remove);
    assert !KeepsOpen(r.0, Some(r.1), add, remove);
    SameAcesSameHandle(t, current, add, remove, Some(r.1), add, remove);
  }

  /** Applying the same add and remove lists a second time, to the handle the
      first application produced, changes nothing: the create operations rely on
      this when they apply the lists to the parent's handle and then again to the
      new object's. */
  lemma ReapplyIsIdempotent(t: AclTable, current: Option<int>, add: Option<seq<Ace>>, remove: Option<seq<Ace>>)
    requires Valid(t) && Seeded(t)
    ensures var (t1, h1) := GetAclId(t, current, add, remove);
            GetAclId(t1, Some(h1), add, remove) == (t1, h1)
  {
    if GetAclId(t, current, add, remove).1 == 0 {
      ReapplyToOpenHandle(t, current, add, remove);
    } else {
      ReapplyToRegisteredHandle(t, current, add, remove);
    }
  }
}

=== FILE: children.dfy ===
/** Children of a folder: which stored objects are listed, how they are
    ordered by name, and how a page of them is cut out. */
module Children {
  import opened Wrappers
  import opened StoredObjects
  import opened ObjectStore
  import Ordinal
  import AclEngine

  /** The object a versioned document is listed as: its private working copy
      when that is asked for and present, otherwise its latest (last) version. */
  function Representative(st: Store, doc: Obj, usePwc: bool): Option<Obj>
    requires doc.kind.VersionedDocument?
  {
    var versions := doc.kind.versions;
    var vid := if usePwc && doc.kind.pwc.Some? then Some(doc.kind.pwc.value)
               else if |versions| > 0 then Some(versions[|versions| - 1]) else None;
    if vid.Some? && vid.value in st.heap then Some(st.heap[vid.value]) else None
  }

  /** What a fileable object contributes to a listing: a versioned document its
      representative, any other fileable object itself. Version records and
      objects that cannot be filed contribute nothing. */
  function Contribution(st: Store, o: Obj, usePwc: bool): Option<Obj> {
    if !IsFileable(o.kind) then None
    else if o.kind.VersionedDocument? then Representative(st, o, usePwc)
    else Some(o)
  }

  /** A null user sees everything; any other user needs read access. */
  predicate Visible(st: Store, user: Option<string>, o: Obj) {
    user.None? || HasReadAccess(st, user.value, o)
  }

  /** What the entry under `key` contributes to the listing of `folderId`. */
  function Entry(st: Store, key: string, folderId: string, user: Option<string>, usePwc: bool): Option<Obj> {
    match Lookup(st, key)
    case None => None
    case Some(o) =>
      if Visible(st, user, o) && folderId in ParentIds(o.kind) then Contribution(st, o, usePwc) else None
  }

  /** The distinct children getChildren collects while going over every key of
      the map. */
  function ChildSet(st: Store, folderId: string, user: Option<string>, usePwc: bool): set<Obj> {
    set k | k in st.index.Keys && Entry(st, k, folderId, user, usePwc).Some? :: Entry(st, k, folderId, user, usePwc).value
  }

  /** The children reached through id keys only. */
  function LiveChildSet(st: Store, folderId: string, user: Option<string>, usePwc: bool): set<Obj> {
    set k | k in st.index.Keys && !IsPathKey(k) && Entry(st, k, folderId, user, usePwc).Some?
          :: Entry(st, k, folderId, user, usePwc).value
  }

  /** Path keys add no child an id key does not already give, as long as no
      path key is left behind by a removed object. */
  lemma PathKeysAddNothing(st: Store, folderId: string, user: Option<string>, usePwc: bool)
    requires Valid(st)
    requires forall k :: k in st.index ==> st.index[k] in st.index
    ensures ChildSet(st, folderId, user, usePwc) == LiveChildSet(st, folderId, user, usePwc)
  {
    forall c | c in ChildSet(st, folderId, user, usePwc)
      ensures c in LiveChildSet(st, folderId, user, usePwc)
    {
      var k :| k in st.index.Keys && Entry(st, k, folderId, user, usePwc) == Some(c);
      var id := st.index[k];
      assert Lookup(st, id) == Lookup(st, k);
      assert Entry(st, id, folderId, user, usePwc) == Some(c);
    }
  }

  /** A user sees a subset of what the unrestricted listing shows. */
  lemma VisibleChildrenAreChildren(st: Store, folderId: string, user: string, usePwc: bool)
    ensures ChildSet(st, folderId, Some(user), usePwc) <= ChildSet(st, folderId, None, usePwc)
  {
    forall c | c in ChildSet(st, folderId, Some(user), usePwc)
      ensures c in ChildSet(st, folderId, None, usePwc)
    {
      var k :| k in st.index.Keys && Entry(st, k, folderId, Some(user), usePwc) == Some(c);
      assert Entry(st, k, folderId, None, usePwc) == Some(c);
    }
  }

  /** The administrator sees every child. */
  lemma AdminSeesAllChildren(st: Store, folderId: string, usePwc: bool)
    ensures ChildSet(st, folderId, Some(AclEngine.Admin), usePwc) == ChildSet(st, folderId, None, usePwc)
  {
    VisibleChildrenAreChildren(st, folderId, AclEngine.Admin, usePwc);
    forall c | c in ChildSet(st, folderId, None, usePwc)
      ensures c in ChildSet(st, folderId, Some(AclEngine.Admin), usePwc)
    {
      var k :| k in st.index.Keys && Entry(st, k, folderId, None, usePwc) == Some(c);
      assert Entry(st, k, folderId, Some(AclEngine.Admin), usePwc) == Some(c);
    }
  }

  /** A versioned document in the folder is listed as its working copy when
      the working copy is asked for and exists, and as its last version
      otherwise; one with neither contributes nothing. */
  lemma VersionedDocumentListedByRepresentative(st: Store, folderId: string, user: Option<string>,
                                                usePwc: bool, k: string)
    requires k in st.index && st.index[k] in st.heap
    requires var doc := st.heap[st.index[k]];
             doc.kind.VersionedDocument? && folderId in doc.kind.parents && Visible(st, user, doc)
    ensures var doc := st.heap[st.index[k]];
            var pick := if usePwc && doc.kind.pwc.Some? then doc.kind.pwc
                        else if |doc.kind.versions| > 0 then Some(doc.kind.versions[|doc.kind.versions| - 1])
                        else None;
            && Entry(st, k, folderId, user, usePwc) ==
               (if pick.Some? && pick.value in st.heap then Some(st.heap[pick.value]) else None)
            && (pick.Some? && pick.value in st.heap ==> st.heap[pick.value] in ChildSet(st, folderId, user, usePwc))
  {
    assert Entry(st, k, folderId, user, usePwc) == Representative(st, st.heap[st.index[k]], usePwc);
  }

  /** The key reaches a child of the folder carrying the name. */
  predicate NamedEntry(st: Store, key: string, folderId: string, name: string) {
    Entry(st, key, folderId, None, false).Some? && Entry(st, key, folderId, None, false).value.name == name
  }

  /** hasChild: going over the keys, some key reaches a child (all users, no
      working copies) carrying the name. */
  predicate HasChild(st: Store, folderId: string, name: string) {
    exists k :: k in st.index && NamedEntry(st, k, folderId, name)
  }

  /** hasChild holds exactly when some member of the children listing carries
      the name. */
  lemma HasChildIsNamedChild(st: Store, folderId: string, name: string)
    ensures HasChild(st, folderId, name) <==> exists c :: c in ChildSet(st, folderId, None, false) && c.name == name
  {
    if HasChild(st, folderId, name) {
      var k :| k in st.index && NamedEntry(st, k, folderId, name);
      assert Entry(st, k, folderId, None, false).value in ChildSet(st, folderId, None, false);
    }
    if exists c :: c in ChildSet(st, folderId, None, false) && c.name == name {
      var c :| c in ChildSet(st, folderId, None, false) && c.name == name;
      var k :| k in st.index.Keys && Entry(st, k, folderId, None, false) == Some(c);
      assert NamedEntry(st, k, folderId, name);
    }
  }

  /** A live object filed in the folder that stands for itself (anything
      fileable but a versioned document) is a child, so its name is taken. */
  lemma LiveObjectIsChild(st: Store, o: Obj, folderId: string)
    requires Lookup(st, o.id) == Some(o)
    requires IsFileable(o.kind) && !o.kind.VersionedDocument? && folderId in ParentIds(o.kind)
    ensures o in ChildSet(st, folderId, None, false)
    ensures HasChild(st, folderId, o.name)
  {
    assert Entry(st, o.id, folderId, None, false) == Some(o);
    assert NamedEntry(st, o.id, folderId, o.name);
  }

  // ---------------------------------------------------------------------
  // Ordering

  /** `r` lists the set `s`, each member once, in non-decreasing name order. */
  ghost predicate IsNameOrdering(r: seq<Obj>, s: set<Obj>) {
    && |r| == |s|
    && (forall i :: 0 <= i < |r| ==> r[i] in s)
    && (forall x :: x in s ==> x in r)
    && (forall i, j :: 0 <= i < j < |r| ==> Ordinal.NoLater(r[i].name, r[j].name))
  }

  /** Every non-empty set has a member whose name comes first. */
  lemma {:induction false} FirstNameExists(s: set<Obj>)
    requires s != {}
    ensures exists m :: m in s && forall y :: y in s ==> Ordinal.NoLater(m.name, y.name)
    decreases |s|
  {
    var x :| x in s;
    if s == {x} {
      Ordinal.NoLaterReflexive(x.name);
      assert forall y :: y in s ==> y == x;
    } else {
      var rest := s - {x};
      FirstNameExists(rest);
      var m :| m in rest && forall y :: y in rest ==> Ordinal.NoLater(m.name, y.name);
      Ordinal.NoLaterTotal(m.name, x.name);
      if Ordinal.NoLater(m.name, x.name) {
        assert forall y :: y in s ==> Ordinal.NoLater(m.name, y.name);
      } else {
        forall y | y in s ensures Ordinal.NoLater(x.name, y.name) {
          Ordinal.NoLaterReflexive(x.name);
          if y != x {
            Ordinal.NoLaterTransitive(x.name, m.name, y.name);
          }
        }
      }
    }
  }

  /** sortFolderList: the set's members in name order (members with equal
      names in some order). */
  method SortByName(s: set<Obj>) returns (r: seq<Obj>)
    ensures IsNameOrdering(r, s)
  {
    var rest := s;
    r := [];
    while rest != {}
      invariant rest <= s
      invariant |r| + |rest| == |s|
      invariant forall i :: 0 <= i < |r| ==> r[i] in s && r[i] !in rest
      invariant forall x :: x in s ==> x in r || x in rest
      invariant forall i, j :: 0 <= i < j < |r| ==> Ordinal.NoLater(r[i].name, r[j].name)
      invariant forall i, y :: 0 <= i < |r| && y in rest ==> Ordinal.NoLater(r[i].name, y.name)
      decreases |rest|
    {
      FirstNameExists(rest);
      var m :| m in rest && forall y :: y in rest ==> Ordinal.NoLater(m.name, y.name);
      r := r + [m];
      rest := rest - {m};
    }
  }

  // ---------------------------------------------------------------------
  // Paging

  /** The page bounds: a negative maxItems means all, a negative skipCount
      means none skipped; both ends are clipped to the size. */
  function Window(n: nat, maxItemsParam: int, skipCountParam: int): (r: (nat, nat))
    ensures r.0 <= r.1 <= n
    ensures skipCountParam >= 0 ==> r.0 == if skipCountParam < n then skipCountParam else n
    ensures skipCountParam < 0 ==> r.0 == 0
    ensures maxItemsParam >= 0 ==> r.1 - r.0 == if maxItemsParam < n - r.0 then maxItemsParam else n - r.0
    ensures maxItemsParam < 0 ==> r.1 == n
  {
    var maxItems := if maxItemsParam < 0 then n else maxItemsParam;
    var skipCount := if skipCountParam < 0 then 0 else skipCountParam;
    var from := if skipCount < n then skipCount else n;
    var to := if maxItems + from < n then maxItems + from else n;
    (from, to)
  }

  /** Asking for everything gives everything. */
  lemma FullWindow(n: nat)
    ensures Window(n, -1, -1) == (0, n)
  {
  }

  /** Pages of a fixed size, each skipping what came before, meet without gap
      or overlap. */
  lemma ConsecutivePages(n: nat, maxItems: nat, skipCount: nat)
    ensures Window(n, maxItems, skipCount).1 == Window(n, maxItems, skipCount + maxItems).0
  {
  }

  /** Java's int addition, wrapping around into [-2^31, 2^31). */
  function AddInt32(a: int, b: int): (r: int)
    ensures -0x8000_0000 <= r < 0x8000_0000
    ensures (a + b - r) % 0x1_0000_0000 == 0
    ensures -0x8000_0000 <= a + b < 0x8000_0000 ==> r == a + b
  {
    (a + b + 0x8000_0000) % 0x1_0000_0000 - 0x8000_0000
  }

  predicate IsInt32(x: int) {
    -0x8000_0000 <= x < 0x8000_0000
  }

  /** The page bounds as written: `maxItems + from` is computed in 32 bits. */
  function WindowAsWritten(n: nat, maxItemsParam: int, skipCountParam: int): (r: (int, int))
    ensures r.0 == Window(n, maxItemsParam, skipCountParam).0
  {
    var maxItems := if maxItemsParam < 0 then n else maxItemsParam;
    var skipCount := if skipCountParam < 0 then 0 else skipCountParam;
    var from := if skipCount < n then skipCount else n;
    var sum := AddInt32(maxItems, from);
    var to := if sum < n then sum else n;
    (from, to)
  }

  /** Whenever `maxItems + from` fits in 32 bits the page is the intended one. */
  lemma WindowAsWrittenWithoutOverflow(n: nat, maxItemsParam: int, skipCountParam: int)
    requires IsInt32(n) && IsInt32(maxItemsParam) && IsInt32(skipCountParam)
    requires IsInt32((if maxItemsParam < 0 then n else maxItemsParam) + Window(n, maxItemsParam, skipCountParam).0)
    ensures WindowAsWritten(n, maxItemsParam, skipCountParam) == (Window(n, maxItemsParam, skipCountParam).0 as int, Window(n, maxItemsParam, skipCountParam).1 as int)
  {
  }

  /** As written, asking for the largest page after skipping one of two
      children wraps `maxItems + from` negative: the page would end before it
      starts, which the list's subList rejects. */
  lemma WindowAsWrittenOverflows()
    ensures var r := WindowAsWritten(2, 0x7fff_ffff, 1); r.1 < r.0
    ensures Window(2, 0x7fff_ffff, 1) == (1, 2)
  {
  }

  /** getChildren with paging: the distinct children in name order, cut to the
      window, with the unpaged count. */
  method GetChildren(st: Store, folderId: string, maxItems: int, skipCount: int,
                     user: Option<string>, usePwc: bool)
    returns (page: seq<Obj>, total: nat)
    ensures total == |ChildSet(st, folderId, user, usePwc)|
    ensures exists sorted :: IsNameOrdering(sorted, ChildSet(st, folderId, user, usePwc))
                             && |sorted| == total
                             && page == sorted[Window(total, maxItems, skipCount).0..Window(total, maxItems, skipCount).1]
  {
    var sorted := SortByName(ChildSet(st, folderId, user, usePwc));
    total := |sorted|;
    var (from, to) := Window(total, maxItems, skipCount);
    page := sorted[from..to];
  }

  // ---------------------------------------------------------------------
  // Folder children

  /** The folders filed in `folderId` and readable by `user`. */
  function FolderEntry(st: Store, key: string, folderId: string, user: string): Option<Obj> {
    match Lookup(st, key)
    case None => None
    case Some(o) =>
      if HasReadAccess(st, user, o) && o.kind.Folder? && folderId in ParentIds(o.kind) then Some(o) else None
  }

  /** The keys under which getFolderChildren finds a child folder; as written it
      lists one entry per key. */
  function FolderChildKeysAsWritten(st: Store, folderId: string, user: string): set<string> {
    set k | k in st.index.Keys && FolderEntry(st, k, folderId, user).Some?
  }

  /** The distinct child folders. */
  function FolderChildSet(st: Store, folderId: string, user: string): set<Obj> {
    set k | k in st.index.Keys && FolderEntry(st, k, folderId, user).Some? :: FolderEntry(st, k, folderId, user).value
  }

  /** As written, the count of listed entries is the count of keys, never less
      than the count of distinct folders. */
  lemma FolderChildCountAsWritten(st: Store, folderId: string, user: string)
    ensures |FolderChildSet(st, folderId, user)| <= |FolderChildKeysAsWritten(st, folderId, user)|
  {
    var keys := FolderChildKeysAsWritten(st, folderId, user);
    var f := (k: string) requires k in keys => FolderEntry(st, k, folderId, user).value;
    forall x | x in FolderChildSet(st, folderId, user) ensures exists k :: k in keys && f(k) == x {
      var k :| k in st.index.Keys && FolderEntry(st, k, folderId, user).Some? && FolderEntry(st, k, folderId, user).value == x;
      assert k in keys && f(k) == x;
    }
    ImageNoLarger(keys, FolderChildSet(st, folderId, user), f);
  }

  /** A set that is the image of another under a function is no larger. */
  lemma {:induction false} ImageNoLarger(keys: set<string>, image: set<Obj>, f: string --> Obj)
    requires forall k :: k in keys ==> f.requires(k)
    requires forall x :: x in image ==> exists k :: k in keys && f(k) == x
    ensures |image| <= |keys|
    decreases |keys|
  {
    if keys != {} {
      var k :| k in keys;
      var smaller := image - {f(k)};
      forall x | x in smaller ensures exists j :: j in keys - {k} && f(j) == x {
        var j :| j in keys && f(j) == x;
      }
      ImageNoLarger(keys - {k}, smaller, f);
    } else {
      assert forall x :: x !in image;
    }
  }

  /** getFolderChildren, listing each child folder once: the distinct child
      folders in name order, cut to the window, with their count. */
  method GetFolderChildren(st: Store, folderId: string, maxItems: int, skipCount: int, user: string)
    returns (page: seq<Obj>, total: nat)
    requires maxItems >= 0 && skipCount >= 0
    ensures total == |FolderChildSet(st, folderId, user)|
    ensures exists sorted :: IsNameOrdering(sorted, FolderChildSet(st, folderId, user))
                             && |sorted| == total
                             && page == sorted[Window(total, maxItems, skipCount).0..Window(total, maxItems, skipCount).1]
  {
    var sorted := SortByName(FolderChildSet(st, folderId, user));
    total := |sorted|;
    var (from, to) := Window(total, maxItems, skipCount);
    page := sorted[from..to];
  }

  /** A root folder "100" with one folder "a" filed in it. */
  function OneFolderStore(): Store {
    StoreObject(InitialStore("100", "repo"), OneFolder())
  }

  function OneFolder(): Obj {
    Obj("101", "a", 0, map[], [], Folder(Some("100")))
  }

  /** In a store whose `parent` is a parentless folder, a folder filed in
      `parent` has the path "/" followed by its name. */
  lemma PathBelowRoot(st: Store, o: Obj, parent: string)
    requires Lookup(st, parent).Some? && Lookup(st, parent).value.kind == Folder(None)
    requires Fuel(st) > 0 && o.kind == Folder(Some(parent))
    ensures PathOf(st, o) == Some(PathSeparator + o.name)
  {
    assert FolderById(st, parent) == Lookup(st, parent);
  }

  /** A folder stored into a parentless folder gets the path "/" followed by
      its name. */
  lemma NewFolderBelowRoot(st: Store, o: Obj, parent: string)
    requires Valid(st) && !IsPathKey(o.id) && o.id != parent && !IsPathKey(parent)
    requires Lookup(st, parent).Some? && Lookup(st, parent).value.kind == Folder(None)
    requires o.kind == Folder(Some(parent))
    ensures PathOf(StoreObject(st, o), o) == Some(PathSeparator + o.name)
  {
    var st1 := PutById(st, o);
    assert Lookup(st1, parent) == Lookup(st, parent);
    assert o.id in st1.heap;
    PathBelowRoot(st1, o, parent);
  }

  /** The one-folder store is valid and holds the folder under its id. */
  lemma OneFolderStored()
    ensures Valid(OneFolderStore()) && IsStored(OneFolderStore(), OneFolder())
    ensures Lookup(OneFolderStore(), "101") == Some(OneFolder())
  {
  }

  /** The folder's path is "/a". */
  lemma OneFolderPath()
    ensures PathOf(OneFolderStore(), OneFolder()) == Some("/a")
  {
    var st0 := InitialStore("100", "repo");
    assert Lookup(st0, "100").Some?;
    NewFolderBelowRoot(st0, OneFolder(), "100");
    assert PathSeparator + "a" == "/a";
  }

  /** The folder is entered under its path "/a". */
  lemma OneFolderAtPath()
    ensures Lookup(OneFolderStore(), "/a") == Some(OneFolder())
  {
    OneFolderPath();
  }

  /** Two keys reaching one element: the image is strictly smaller. */
  lemma ImageSmaller(keys: set<string>, image: set<Obj>, f: string --> Obj, k1: string, k2: string)
    requires forall k :: k in keys ==> f.requires(k)
    requires forall x :: x in image ==> exists k :: k in keys && f(k) == x
    requires k1 in keys && k2 in keys && k1 != k2 && f(k1) == f(k2)
    ensures |image| < |keys|
  {
    forall x | x in image ensures exists k :: k in keys - {k1} && f(k) == x {
      var k :| k in keys && f(k) == x;
      if k == k1 {
        assert k2 in keys - {k1} && f(k2) == x;
      }
    }
    ImageNoLarger(keys - {k1}, image, f);
  }

  /** As written, a readable child folder that is entered under its path as
      well as its id is listed twice, so the listing is longer than the set of
      child folders. */
  lemma FolderListedTwiceAsWritten(st: Store, folderId: string, user: string, c: Obj, path: string)
    requires Valid(st) && Lookup(st, c.id) == Some(c) && Lookup(st, path) == Some(c)
    requires IsPathKey(path) && !IsPathKey(c.id)
    requires c.kind.Folder? && folderId in ParentIds(c.kind) && HasReadAccess(st, user, c)
    ensures |FolderChildSet(st, folderId, user)| < |FolderChildKeysAsWritten(st, folderId, user)|
  {
    var keys := FolderChildKeysAsWritten(st, folderId, user);
    var f := (k: string) requires k in keys => FolderEntry(st, k, folderId, user).value;
    forall x | x in FolderChildSet(st, folderId, user) ensures exists k :: k in keys && f(k) == x {
      var k :| k in st.index.Keys && FolderEntry(st, k, folderId, user).Some? && FolderEntry(st, k, folderId, user).value == x;
      assert k in keys && f(k) == x;
    }
    assert FolderEntry(st, c.id, folderId, user) == Some(c);
    assert FolderEntry(st, path, folderId, user) == Some(c);
    ImageSmaller(keys, FolderChildSet(st, folderId, user), f, c.id, path);
  }

  /** The smallest case: one folder "a" in the root is listed twice. */
  lemma OneFolderListedTwice()
    ensures |FolderChildSet(OneFolderStore(), "100", AclEngine.Admin)|
          < |FolderChildKeysAsWritten(OneFolderStore(), "100", AclEngine.Admin)|
  {
    OneFolderStored();
    OneFolderAtPath();
    FolderListedTwiceAsWritten(OneFolderStore(), "100", AclEngine.Admin, OneFolder(), "/a");
  }
}

=== FILE: object_store.dfy ===
/** The in-memory object store: a single map from keys to objects in which
    every object is entered under its id and every fileable object also under
    its path, together with the ACL table and the root folder's id. */
module ObjectStore {
  import opened Wrappers
  import opened CmisErrors
  import opened StoredObjects
  import AclEngine

  /** `index` is the store's map, from a key (an id or a path) to the id of the
      object entered under it. `heap` holds every object ever stored, by id: all
      the keys of one object reach the same record, so a change made through
      one key is seen through the others, and a key that is left behind still
      reaches the object. */
  datatype Store = Store(index: map<string, string>, heap: map<string, Obj>,
                         acls: AclEngine.AclTable, rootId: string)

  const PathSeparator: string := "/"

  /** Keys that are paths start with the separator; object ids never do. */
  predicate IsPathKey(k: string) {
    |k| > 0 && k[0] == '/'
  }

  /** Parent references are ids, never paths. */
  predicate NoPathParents(k: Kind) {
    forall i :: 0 <= i < |ParentIds(k)| ==> !IsPathKey(ParentIds(k)[i])
  }

  ghost predicate Valid(st: Store) {
    && (forall id :: id in st.heap ==>
          st.heap[id].id == id && !IsPathKey(id) && NoPathParents(st.heap[id].kind))
    && (forall k :: k in st.index ==> st.index[k] in st.heap)
    && (forall k :: k in st.index && !IsPathKey(k) ==> st.index[k] == k)
    && st.rootId in st.heap
    && AclEngine.Valid(st.acls) && AclEngine.Seeded(st.acls)
  }

  /** The object a caller holds is the store's current record of it. */
  ghost predicate IsStored(st: Store, o: Obj) {
    o.id in st.heap && st.heap[o.id] == o
  }

  /** The map's get: the object entered under `key`, if any. */
  function Lookup(st: Store, key: string): Option<Obj> {
    if key in st.index && st.index[key] in st.heap then Some(st.heap[st.index[key]]) else None
  }

  /** getObjectById: an id key reaches the object carrying that id. */
  function GetObjectById(st: Store, id: string): (r: Option<Obj>)
    requires Valid(st)
    ensures r.Some? <==> id in st.index
    ensures r.Some? && !IsPathKey(id) ==> r.value.id == id && IsStored(st, r.value)
  {
    Lookup(st, id)
  }

  /** getObjectByPath: "/" names the root folder, any other path is looked up. */
  function GetObjectByPath(st: Store, path: string): (r: Option<Obj>)
    requires Valid(st)
    ensures path == PathSeparator ==> r.Some? && r.value.id == st.rootId
    ensures path != PathSeparator ==> (r.Some? <==> path in st.index)
  {
    if path == PathSeparator then Some(st.heap[st.rootId]) else Lookup(st, path)
  }

  // ---------------------------------------------------------------------
  // Paths

  /** The folder behind `id`: a lookup followed by the cast to a folder. */
  function FolderById(st: Store, id: string): Option<Obj> {
    match Lookup(st, id)
    case Some(o) => if o.kind.Folder? then Some(o) else None
    case None => None
  }

  /** insertPathSegment: walking up from `folderId`, each folder below the root
      prefixes "/" and its name to `sb`; at the root an empty `sb` becomes "/".
      None stands for a missing or non-folder object on the way (a null
      dereference or failed cast) or a walk longer than `fuel`. */
  function InsertPathSegment(st: Store, folderId: string, sb: string, fuel: nat): (r: Option<string>)
    ensures r.Some? ==> |sb| <= |r.value| && r.value[|r.value| - |sb|..] == sb
    ensures r.Some? && (sb == [] || IsPathKey(sb)) ==> IsPathKey(r.value)
    decreases fuel
  {
    if fuel == 0 then None
    else match FolderById(st, folderId)
      case None => None
      case Some(f) =>
        if f.kind.parentId.None? then Some(if |sb| == 0 then PathSeparator else sb)
        else
          var next := PathSeparator + f.name + sb;
          assert next[|next| - |sb|..] == sb;
          InsertPathSegment(st, f.kind.parentId.value, next, fuel - 1)
  }

  /** Longest walk followed: every folder on an acyclic walk is a distinct record. */
  function Fuel(st: Store): nat {
    |st.heap|
  }

  /** getFolderPath. */
  function GetFolderPath(st: Store, folderId: string): (r: Option<string>)
    ensures r.Some? ==> IsPathKey(r.value)
  {
    InsertPathSegment(st, folderId, "", Fuel(st))
  }

  /** The path under which a fileable object is entered: "/" for a folder
      without parent; otherwise the walk from the (first) parent with "/" and the
      object's name already written. Objects that are not fileable, and
      multi-filed objects without a parent, have none. */
  function PathOf(st: Store, o: Obj): (r: Option<string>)
    ensures r.Some? ==> IsPathKey(r.value) && IsFileable(o.kind)
  {
    if !IsFileable(o.kind) then None
    else if |ParentIds(o.kind)| == 0 then (if o.kind.Folder? then Some(PathSeparator) else None)
    else InsertPathSegment(st, ParentIds(o.kind)[0], PathSeparator + o.name, Fuel(st))
  }

  /** The folder names from just below the root down to `folderId`: the
      reference the path walk is measured against. */
  function Ancestry(st: Store, folderId: string, fuel: nat): Option<seq<string>>
    decreases fuel
  {
    if fuel == 0 then None
    else match FolderById(st, folderId)
      case None => None
      case Some(f) =>
        if f.kind.parentId.None? then Some([])
        else match Ancestry(st, f.kind.parentId.value, fuel - 1)
          case None => None
          case Some(names) => Some(names + [f.name])
  }

  /** "/a/b/c" for the names a, b, c. */
  function Render(names: seq<string>): string {
    if |names| == 0 then [] else Render(names[..|names| - 1]) + PathSeparator + names[|names| - 1]
  }

  /** The empty path is the root. */
  function Rooted(p: string): string {
    if |p| == 0 then PathSeparator else p
  }

  /** One more name at the bottom of the ancestry is one more "/name" segment. */
  lemma RenderOneMore(names: seq<string>, name: string, sb: string)
    ensures Render(names + [name]) + sb == Render(names) + (PathSeparator + name + sb)
  {
    var all := names + [name];
    assert all[..|all| - 1] == names;
  }

  /** The accumulating walk writes exactly the rendered ancestry in front of
      what it was given. */
  lemma {:induction false} InsertPathSegmentRenders(st: Store, folderId: string, sb: string, fuel: nat)
    ensures InsertPathSegment(st, folderId, sb, fuel) ==
            (match Ancestry(st, folderId, fuel)
             case None => None
             case Some(names) => Some(Rooted(Render(names) + sb)))
    decreases fuel
  {
    if fuel > 0 && FolderById(st, folderId).Some? {
      var f := FolderById(st, folderId).value;
      if f.kind.parentId.Some? {
        var next := PathSeparator + f.name + sb;
        InsertPathSegmentRenders(st, f.kind.parentId.value, next, fuel - 1);
        if Ancestry(st, f.kind.parentId.value, fuel - 1).Some? {
          RenderOneMore(Ancestry(st, f.kind.parentId.value, fuel - 1).value, f.name, sb);
        }
      } else {
        assert Render([]) + sb == sb;
      }
    }
  }

  /** getFolderPath renders the ancestry: "/" for the root, "/a/b" below it. */
  lemma GetFolderPathRenders(st: Store, folderId: string)
    ensures GetFolderPath(st, folderId) ==
            (match Ancestry(st, folderId, Fuel(st))
             case None => None
             case Some(names) => Some(Rooted(Render(names))))
  {
    InsertPathSegmentRenders(st, folderId, "", Fuel(st));
    assert forall s: string :: s + "" == s;
  }

  /** More fuel never changes a walk that already ended. */
  lemma {:induction false} InsertPathSegmentMonotone(st: Store, folderId: string, sb: string, fuel: nat, more: nat)
    requires fuel <= more
    requires InsertPathSegment(st, folderId, sb, fuel).Some?
    ensures InsertPathSegment(st, folderId, sb, more) == InsertPathSegment(st, folderId, sb, fuel)
    decreases fuel
  {
    assert fuel > 0 && FolderById(st, folderId).Some?;
    var f := FolderById(st, folderId).value;
    if f.kind.parentId.Some? {
      var p := f.kind.parentId.value;
      var next := PathSeparator + f.name + sb;
      InsertPathSegmentMonotone(st, p, next, fuel - 1, more - 1);
      assert InsertPathSegment(st, folderId, sb, fuel) == InsertPathSegment(st, p, next, fuel - 1);
    }
  }

  /** A stored folder is entered under its own folder path. */
  lemma PathOfFolderIsFolderPath(st: Store, o: Obj)
    requires Valid(st) && IsStored(st, o) && o.id in st.index && o.kind.Folder?
    requires GetFolderPath(st, o.id).Some?
    ensures PathOf(st, o) == GetFolderPath(st, o.id)
  {
    assert FolderById(st, o.id) == Some(o);
    if o.kind.parentId.Some? {
      assert PathSeparator + o.name + "" == PathSeparator + o.name;
      InsertPathSegmentMonotone(st, o.kind.parentId.value, PathSeparator + o.name, Fuel(st) - 1, Fuel(st));
    }
  }

  /** Every folder `a` holds under an id, `b` holds unchanged. */
  ghost predicate KeepsFolders(a: Store, b: Store) {
    forall x :: !IsPathKey(x) && FolderById(a, x).Some? ==> FolderById(b, x) == FolderById(a, x)
  }

  /** A folder reached by its id in a valid store has an id, not a path, as
      parent. */
  lemma FolderParentIsId(st: Store, x: string)
    requires Valid(st) && FolderById(st, x).Some? && FolderById(st, x).value.kind.parentId.Some?
    ensures !IsPathKey(FolderById(st, x).value.kind.parentId.value)
  {
    var f := FolderById(st, x).value;
    assert f == st.heap[st.index[x]];
    assert ParentIds(f.kind)[0] == f.kind.parentId.value;
  }

  /** A walk that ends keeps its result in any store that still holds every
      folder the first one held under its id, with at least as much fuel. */
  lemma {:induction false} WalkSurvivesGrowth(a: Store, b: Store, folderId: string, sb: string, fuel: nat, more: nat)
    requires Valid(a) && KeepsFolders(a, b) && !IsPathKey(folderId) && fuel <= more
    requires InsertPathSegment(a, folderId, sb, fuel).Some?
    ensures InsertPathSegment(b, folderId, sb, more) == InsertPathSegment(a, folderId, sb, fuel)
    decreases fuel
  {
    var f := FolderById(a, folderId).value;
    assert FolderById(b, folderId) == Some(f);
    if f.kind.parentId.Some? {
      FolderParentIsId(a, folderId);
      WalkSurvivesGrowth(a, b, f.kind.parentId.value, PathSeparator + f.name + sb, fuel - 1, more - 1);
    }
  }

  /** Two stores with the same records and the same live ids. */
  ghost predicate SameLiveIds(a: Store, b: Store) {
    a.heap == b.heap && forall k :: !IsPathKey(k) ==> (k in a.index <==> k in b.index)
  }

  /** Walks follow ids only, so path keys never affect them. */
  lemma {:induction false} WalkIgnoresPathKeys(a: Store, b: Store, folderId: string, sb: string, fuel: nat)
    requires Valid(a) && Valid(b) && SameLiveIds(a, b) && !IsPathKey(folderId)
    ensures InsertPathSegment(a, folderId, sb, fuel) == InsertPathSegment(b, folderId, sb, fuel)
    decreases fuel
  {
    SameLiveFolder(a, b, folderId);
    if fuel > 0 && FolderById(a, folderId).Some? {
      var f := FolderById(a, folderId).value;
      if f.kind.parentId.Some? {
        FolderParentIsId(a, folderId);
        WalkIgnoresPathKeys(a, b, f.kind.parentId.value, PathSeparator + f.name + sb, fuel - 1);
      }
    }
  }

  /** Stores with the same live ids hold the same folder under each id. */
  lemma SameLiveFolder(a: Store, b: Store, x: string)
    requires Valid(a) && Valid(b) && SameLiveIds(a, b) && !IsPathKey(x)
    ensures FolderById(a, x) == FolderById(b, x)
  {
    if x in a.index {
      assert a.index[x] == x == b.index[x];
    }
  }

  /** Paths are computed from ids only. */
  lemma PathOfIgnoresPathKeys(a: Store, b: Store, o: Obj)
    requires Valid(a) && Valid(b) && SameLiveIds(a, b) && NoPathParents(o.kind)
    ensures PathOf(a, o) == PathOf(b, o)
  {
    if IsFileable(o.kind) && |ParentIds(o.kind)| > 0 {
      WalkIgnoresPathKeys(a, b, ParentIds(o.kind)[0], PathSeparator + o.name, Fuel(a));
    }
  }

  // ---------------------------------------------------------------------
  // The two keys

  /** The store with `o` entered under its id only: the first step of storeObject. */
  function PutById(st: Store, o: Obj): (r: Store)
    requires Valid(st) && !IsPathKey(o.id) && NoPathParents(o.kind)
    ensures Valid(r)
  {
    st.(index := st.index[o.id := o.id], heap := st.heap[o.id := o])
  }

  /** storeObject for an object carrying its id: entered under the id, then,
      when it has a path once the id is in, under that path too. */
  function StoreObject(st: Store, o: Obj): (r: Store)
    requires Valid(st) && !IsPathKey(o.id) && NoPathParents(o.kind)
    ensures Valid(r)
    ensures r.heap == st.heap[o.id := o] && r.acls == st.acls && r.rootId == st.rootId
    ensures Lookup(r, o.id) == Some(o)
    ensures PathOf(r, o) == PathOf(PutById(st, o), o)
    ensures PathOf(r, o).Some? ==> Lookup(r, PathOf(r, o).value) == Some(o)
    ensures r.index.Keys == st.index.Keys + {o.id} + (if PathOf(r, o).Some? then {PathOf(r, o).value} else {})
    ensures forall k :: k in st.index && k != o.id && Some(k) != PathOf(r, o) ==> r.index[k] == st.index[k]
  {
    var st1 := PutById(st, o);
    var r := match PathOf(st1, o)
      case None => st1
      case Some(p) => PutPath(st1, p, o.id);
    PathOfIgnoresPathKeys(st1, r, o);
    r
  }

  /** The keys storeObject enters `o` under: its id and, when it has one, the
      path it has once the id is in. */
  function EntryKeys(st: Store, o: Obj): set<string>
    requires Valid(st) && !IsPathKey(o.id) && NoPathParents(o.kind)
  {
    var p := PathOf(PutById(st, o), o);
    {o.id} + (if p.Some? then {p.value} else {})
  }

  /** `r`'s map is `st`'s with `keys` entered: every other key keeps its target. */
  ghost predicate Enters(st: Store, r: Store, keys: set<string>) {
    && r.index.Keys == st.index.Keys + keys
    && forall k :: k in st.index && k !in keys ==> r.index[k] == st.index[k]
  }

  /** Two stores a walk cannot tell apart: the same folders behind every key
      and as many records. */
  ghost predicate SameFolders(a: Store, b: Store) {
    |a.heap| == |b.heap| && forall x :: FolderById(a, x) == FolderById(b, x)
  }

  /** Stores with the same map and the same folder records, whatever else
      their records hold, cannot be told apart by a walk. */
  lemma SameFolderRecords(a: Store, b: Store)
    requires a.index == b.index && a.heap.Keys == b.heap.Keys
    requires forall k :: k in a.heap ==> (a.heap[k].kind.Folder? || b.heap[k].kind.Folder? ==> a.heap[k] == b.heap[k])
    ensures SameFolders(a, b)
  {
    assert |a.heap| == |a.heap.Keys| == |b.heap.Keys| == |b.heap|;
    forall x
      ensures FolderById(a, x) == FolderById(b, x)
    {
    }
  }

  /** Walks read nothing but the folders and the number of records. */
  lemma {:induction false} WalkSameFolders(a: Store, b: Store, folderId: string, sb: string, fuel: nat)
    requires SameFolders(a, b)
    ensures InsertPathSegment(a, folderId, sb, fuel) == InsertPathSegment(b, folderId, sb, fuel)
    decreases fuel
  {
    if fuel > 0 && FolderById(a, folderId).Some? {
      var f := FolderById(a, folderId).value;
      assert FolderById(b, folderId) == Some(f);
      if f.kind.parentId.Some? {
        WalkSameFolders(a, b, f.kind.parentId.value, PathSeparator + f.name + sb, fuel - 1);
      }
    }
  }

  /** Objects filed alike, with the same name, get the same path in stores a
      walk cannot tell apart. */
  lemma PathOfSameFolders(a: Store, b: Store, o: Obj, o': Obj)
    requires SameFolders(a, b) && o.name == o'.name && ParentIds(o.kind) == ParentIds(o'.kind)
    requires IsFileable(o.kind) == IsFileable(o'.kind) && o.kind.Folder? == o'.kind.Folder?
    ensures PathOf(a, o) == PathOf(b, o')
  {
    if IsFileable(o.kind) && |ParentIds(o.kind)| > 0 {
      WalkSameFolders(a, b, ParentIds(o.kind)[0], PathSeparator + o.name, Fuel(a));
    }
  }

  /** storeObject, under whatever table, enters exactly the object's keys. */
  lemma StoreObjectEnters(st: Store, t: AclEngine.AclTable, o: Obj)
    requires Valid(st) && AclEngine.Valid(t) && AclEngine.Seeded(t)
    requires !IsPathKey(o.id) && NoPathParents(o.kind)
    ensures Enters(st, StoreObject(st.(acls := t), o), EntryKeys(st, o))
  {
    var a := PutById(st.(acls := t), o);
    var b := PutById(st, o);
    SameFolderRecords(a, b);
    PathOfSameFolders(a, b, o, o);
  }

  /** An object that cannot be filed is entered under its id alone. */
  lemma StoreUnfiled(st: Store, o: Obj)
    requires Valid(st) && !IsPathKey(o.id) && NoPathParents(o.kind) && !IsFileable(o.kind)
    ensures StoreObject(st, o).index == st.index[o.id := o.id]
  {
  }

  /** Entering a stored object under a path changes no live id. */
  function PutPath(st: Store, path: string, id: string): (r: Store)
    requires Valid(st) && IsPathKey(path) && id in st.heap
    ensures Valid(r) && SameLiveIds(st, r) && r.acls == st.acls && r.rootId == st.rootId
    ensures r.index == st.index[path := id]
  {
    st.(index := st.index[path := id])
  }

  /** Storing a new object leaves the folders already stored where they were. */
  lemma StoreKeepsFolders(st: Store, acls: AclEngine.AclTable, o: Obj)
    requires Valid(st) && AclEngine.Valid(acls) && AclEngine.Seeded(acls)
    requires !IsPathKey(o.id) && o.id !in st.heap && NoPathParents(o.kind)
    ensures KeepsFolders(st, StoreObject(st.(acls := acls), o))
  {
    forall x | !IsPathKey(x) && FolderById(st, x).Some? {
      StoreKeepsFolder(st, acls, o, x);
    }
  }

  /** One stored folder stays where it was. */
  lemma StoreKeepsFolder(st: Store, acls: AclEngine.AclTable, o: Obj, x: string)
    requires Valid(st) && AclEngine.Valid(acls) && AclEngine.Seeded(acls)
    requires !IsPathKey(o.id) && o.id !in st.heap && NoPathParents(o.kind)
    requires !IsPathKey(x) && FolderById(st, x).Some?
    ensures FolderById(StoreObject(st.(acls := acls), o), x) == FolderById(st, x)
  {
    assert x in st.index && st.index[x] == x && x != o.id;
  }

  /** Storing a new object leaves every path that could be computed before
      unchanged. */
  lemma StoreKeepsPaths(st: Store, acls: AclEngine.AclTable, o: Obj, folderId: string, sb: string)
    requires Valid(st) && AclEngine.Valid(acls) && AclEngine.Seeded(acls)
    requires !IsPathKey(o.id) && o.id !in st.heap && NoPathParents(o.kind) && !IsPathKey(folderId)
    requires InsertPathSegment(st, folderId, sb, Fuel(st)).Some?
    ensures var r := StoreObject(st.(acls := acls), o);
            InsertPathSegment(r, folderId, sb, Fuel(r)) == InsertPathSegment(st, folderId, sb, Fuel(st))
  {
    StoreKeepsFolders(st, acls, o);
    var r := StoreObject(st.(acls := acls), o);
    WalkSurvivesGrowth(st, r, folderId, sb, Fuel(st), Fuel(r));
  }

  /** removeObject: the object's path entry (computed before anything is
      removed) and its id entry go. A missing object fails (the source logs the
      removed object's name), and so does a fileable object without a path
      (the map rejects a null key). */
  function RemoveObject(st: Store, id: string): (r: Result<Store, CmisError>)
    requires Valid(st)
    ensures r.Failure? <==>
      id !in st.index || (IsFileable(st.heap[st.index[id]].kind) && PathOf(st, st.heap[st.index[id]]).None?)
    ensures r.Failure? ==> r.error == RuntimeFailure
    ensures r.Success? ==> Valid(r.value) && r.value.heap == st.heap && r.value.acls == st.acls
                           && r.value.rootId == st.rootId
    ensures r.Success? ==>
      var o := st.heap[st.index[id]];
      var gone := {id} + (if IsFileable(o.kind) then {PathOf(st, o).value} else {});
      r.value.index.Keys == st.index.Keys - gone &&
      forall k :: k in r.value.index ==> r.value.index[k] == st.index[k]
  {
    if id !in st.index then Failure(RuntimeFailure)
    else
      var o := st.heap[st.index[id]];
      if !IsFileable(o.kind) then Success(st.(index := st.index - {id}))
      else match PathOf(st, o)
        case None => Failure(RuntimeFailure)
        case Some(p) => Success(st.(index := st.index - {p} - {id}))
  }

  /** Entering a new key and taking it out again leaves a map as it was. */
  lemma PutThenDrop(m: map<string, string>, k: string, v: string)
    requires k !in m
    ensures m[k := v] - {k} == m
  {
    assert (m[k := v] - {k}).Keys == m.Keys;
  }

  /** Storing a new object and removing it again leaves the map as it was. */
  lemma StoreThenRemove(st: Store, o: Obj)
    requires Valid(st) && !IsPathKey(o.id) && NoPathParents(o.kind)
    requires o.id !in st.index
    requires PathOf(StoreObject(st, o), o).Some? ==> PathOf(StoreObject(st, o), o).value !in st.index
    requires IsFileable(o.kind) ==> PathOf(StoreObject(st, o), o).Some?
    ensures RemoveObject(StoreObject(st, o), o.id) == Success(st.(heap := st.heap[o.id := o]))
  {
    var r := StoreObject(st, o);
    var withId := st.index[o.id := o.id];
    PutThenDrop(st.index, o.id, o.id);
    if PathOf(r, o).Some? {
      var p := PathOf(r, o).value;
      assert r.index == withId[p := o.id];
      PutThenDrop(withId, p, o.id);
      assert r.index - {p} - {o.id} == st.index;
    } else {
      assert r.index == withId;
    }
  }

  // ---------------------------------------------------------------------
  // The store's life cycle

  /** createRootFolder on a new store: the default ACL is the first one
      registered, so the root folder receives handle 0, and the root is entered
      under its id and under "/". */
  function InitialStore(rootId: string, rootName: string): (r: Store)
    requires !IsPathKey(rootId)
    ensures Valid(r) && r.rootId == rootId
    ensures r.index == map[rootId := rootId, PathSeparator := rootId]
    ensures r.heap[rootId].kind == Folder(None) && r.heap[rootId].aclId == 0
    ensures AclEngine.FindAcl(r.acls.entries, 0) == Some(AclEngine.DefaultAcl)
  {
    var (t, h) := AclEngine.AddAcl(AclEngine.EmptyTable, Some(AclEngine.DefaultAcl));
    assert t.entries == [AclEngine.AclEntry(0, AclEngine.DefaultAcl)];
    var root := Obj(rootId, rootName, h, map[], [], Folder(None));
    var empty := Store(map[], map[rootId := root], t, rootId);
    var r := StoreObject(empty, root);
    assert r.index.Keys == {rootId, PathSeparator};
    r
  }

  /** clear: every entry goes and the root folder is entered again, under its
      id and its path. */
  function Clear(st: Store): (r: Store)
    requires Valid(st)
    ensures Valid(r) && r.heap == st.heap && r.acls == st.acls && r.rootId == st.rootId
    ensures r.index.Keys == {st.rootId} + (if PathOf(r, st.heap[st.rootId]).Some? then {PathOf(r, st.heap[st.rootId]).value} else {})
    ensures Lookup(r, st.rootId) == Some(st.heap[st.rootId])
    ensures PathOf(r, st.heap[st.rootId]).Some? ==> Lookup(r, PathOf(r, st.heap[st.rootId]).value) == Some(st.heap[st.rootId])
  {
    StoreObject(st.(index := map[]), st.heap[st.rootId])
  }

  /** A root folder without a parent is entered again under "/". */
  lemma ClearEntersRootPath(st: Store)
    requires Valid(st) && st.heap[st.rootId].kind == Folder(None)
    ensures Clear(st).index == map[st.rootId := st.rootId, PathSeparator := st.rootId]
  {
    var r := Clear(st);
    assert PathOf(r, st.heap[st.rootId]) == Some(PathSeparator);
    assert r.index.Keys == {st.rootId, PathSeparator};
  }

  /** Clearing twice is clearing once: the second clear finds only what the
      first entered and enters it again. */
  lemma ClearIdempotent(st: Store)
    requires Valid(st)
    ensures Clear(Clear(st)) == Clear(st)
  {
    assert Clear(st).(index := map[]) == st.(index := map[]);
  }

  /** hasAccess for a stored object (None for a null object). */
  function HasAccess(st: Store, principal: string, o: Option<Obj>, permission: AclEngine.Permission): bool {
    AclEngine.HasAccess(st.acls, principal, if o.Some? then Some(o.value.aclId) else None, permission)
  }

  /** hasReadAccess. */
  function HasReadAccess(st: Store, principal: string, o: Obj): bool {
    HasAccess(st, principal, Some(o), AclEngine.Read)
  }
}

=== FILE: ordinal.dfy ===
/** Ordinal string order, the order in which `String.compareTo` sorts folder
    children by name: characters compared left to right, a proper prefix
    sorting first. A Dafny character is a Unicode scalar value, where Java
    compares UTF-16 code units, so the two orders differ between characters
    above U+FFFF and those in U+E000 to U+FFFF. */
module Ordinal {

  /** `a` sorts no later than `b` (`a.compareTo(b) <= 0`). */
  predicate NoLater(a: string, b: string)
    decreases |a|
  {
    if |a| == 0 then true
    else if |b| == 0 then false
    else if a[0] != b[0] then a[0] < b[0]
    else NoLater(a[1..], b[1..])
  }

  /** The definition of `compareTo` in words: either `a` is a prefix of `b`, or at
      the first position where they differ `a` has the smaller character. */
  ghost predicate LexicographicallyNoLater(a: string, b: string) {
    || a <= b
    || exists k :: 0 <= k < |a| && k < |b| && a[..k] == b[..k] && a[k] < b[k]
  }

  lemma {:induction false} NoLaterIsLexicographic(a: string, b: string)
    ensures NoLater(a, b) <==> LexicographicallyNoLater(a, b)
    decreases |a|
  {
    if |a| > 0 && |b| > 0 {
      if a[0] < b[0] {
        assert a[..0] == b[..0];
      } else if a[0] == b[0] {
        NoLaterIsLexicographic(a[1..], b[1..]);
        if LexicographicallyNoLater(a[1..], b[1..]) {
          if a[1..] <= b[1..] {
            assert a == [a[0]] + a[1..] && b == [b[0]] + b[1..];
          } else {
            var k :| 0 <= k < |a[1..]| && k < |b[1..]| && a[1..][..k] == b[1..][..k] && a[1..][k] < b[1..][k];
            assert a[..k + 1] == [a[0]] + a[1..][..k];
            assert b[..k + 1] == [b[0]] + b[1..][..k];
          }
        }
        if LexicographicallyNoLater(a, b) && !(a <= b) {
          var k :| 0 <= k < |a| && k < |b| && a[..k] == b[..k] && a[k] < b[k];
          if k > 0 {
            assert a[1..][..k - 1] == a[1..k] == b[1..k] == b[1..][..k - 1];
          }
        }
      }
    }
  }

  lemma {:induction false} NoLaterReflexive(a: string)
    ensures NoLater(a, a)
    decreases |a|
  {
    if |a| > 0 {
      NoLaterReflexive(a[1..]);
    }
  }

  lemma {:induction false} NoLaterTotal(a: string, b: string)
    ensures NoLater(a, b) || NoLater(b, a)
    decreases |a|
  {
    if |a| > 0 && |b| > 0 && a[0] == b[0] {
      NoLaterTotal(a[1..], b[1..]);
    }
  }

  lemma {:induction false} NoLaterTransitive(a: string, b: string, c: string)
    requires NoLater(a, b) && NoLater(b, c)
    ensures NoLater(a, c)
    decreases |a|
  {
    if |a| > 0 && |b| > 0 && |c| > 0 && a[0] == b[0] && b[0] == c[0] {
      NoLaterTransitive(a[1..], b[1..], c[1..]);
    }
  }

  lemma {:induction false} NoLaterAntisymmetric(a: string, b: string)
    requires NoLater(a, b) && NoLater(b, a)
    ensures a == b
    decreases |a|
  {
    if |a| > 0 {
      NoLaterAntisymmetric(a[1..], b[1..]);
      assert a == [a[0]] + a[1..] && b == [b[0]] + b[1..];
    }
  }
}

=== FILE: param_checks.dfy ===
/** The standard parameter checks every service call starts with: a
    repository id and an object id (or path) must be given, the repository
    must be known, and the object must exist, except that deleteTree accepts
    an object that is already gone. */
module ParamChecks {
  import opened Wrappers
  import opened CmisErrors
  import opened StoredObjects
  import opened ObjectStore

  /** The store manager's repositories, by repository id. */
  type Repositories = map<string, Store>

  ghost predicate AllValid(repos: Repositories) {
    forall id :: id in repos ==> Valid(repos[id])
  }

  /** The action under which a missing object is not an error. */
  const DeleteTree: string := "deleteTree"

  /** The strict check by id: null ids are invalid arguments, an unknown
      repository or object is not found, otherwise the object is returned. */
  function CheckStandardParameters(repos: Repositories, repositoryId: Option<string>, objectId: Option<string>)
    : (r: Result<Obj, CmisError>)
    requires AllValid(repos)
    ensures r.Success? <==> repositoryId.Some? && objectId.Some? && repositoryId.value in repos
                            && objectId.value in repos[repositoryId.value].index
    ensures r.Success? ==> Some(r.value) == GetObjectById(repos[repositoryId.value], objectId.value)
    ensures repositoryId.None? || objectId.None? ==> r == Failure(InvalidArgument)
    ensures r.Failure? && repositoryId.Some? && objectId.Some? ==> r.error == ObjectNotFound
  {
    if repositoryId.None? || objectId.None? then Failure(InvalidArgument)
    else if repositoryId.value !in repos then Failure(ObjectNotFound)
    else match GetObjectById(repos[repositoryId.value], objectId.value)
      case None => Failure(ObjectNotFound)
      case Some(so) => Success(so)
  }

  /** The id check for a named action: deleteTree returns the lookup's
      result, null or not; every other action takes the strict check. */
  function CheckStandardParametersFor(repos: Repositories, repositoryId: Option<string>, objectId: Option<string>,
                                      action: Option<string>): (r: Result<Option<Obj>, CmisError>)
    requires AllValid(repos)
    ensures action != Some(DeleteTree) ==>
              (r.Success? <==> CheckStandardParameters(repos, repositoryId, objectId).Success?)
              && (r.Success? ==> r.value == Some(CheckStandardParameters(repos, repositoryId, objectId).value))
              && (r.Failure? ==> r.error == CheckStandardParameters(repos, repositoryId, objectId).error)
    ensures action == Some(DeleteTree) ==>
              (r.Success? <==> repositoryId.Some? && objectId.Some? && repositoryId.value in repos)
              && (r.Success? ==> r.value == GetObjectById(repos[repositoryId.value], objectId.value))
  {
    if action != Some(DeleteTree) then
      match CheckStandardParameters(repos, repositoryId, objectId)
      case Failure(e) => Failure(e)
      case Success(so) => Success(Some(so))
    else if repositoryId.None? || objectId.None? then Failure(InvalidArgument)
    else if repositoryId.value !in repos then Failure(ObjectNotFound)
    else Success(GetObjectById(repos[repositoryId.value], objectId.value))
  }

  /** The strict check by path. */
  function CheckStandardParametersByPath(repos: Repositories, repositoryId: Option<string>, path: Option<string>)
    : (r: Result<Obj, CmisError>)
    requires AllValid(repos)
    ensures r.Success? <==> repositoryId.Some? && path.Some? && repositoryId.value in repos
                            && GetObjectByPath(repos[repositoryId.value], path.value).Some?
    ensures r.Success? ==> Some(r.value) == GetObjectByPath(repos[repositoryId.value], path.value)
    ensures repositoryId.None? || path.None? ==> r == Failure(InvalidArgument)
    ensures r.Failure? && repositoryId.Some? && path.Some? ==> r.error == ObjectNotFound
  {
    if repositoryId.None? || path.None? then Failure(InvalidArgument)
    else if repositoryId.value !in repos then Failure(ObjectNotFound)
    else match GetObjectByPath(repos[repositoryId.value], path.value)
      case None => Failure(ObjectNotFound)
      case Some(so) => Success(so)
  }

  /** The path check for a named action, lenient for deleteTree. */
  function CheckStandardParametersByPathFor(repos: Repositories, repositoryId: Option<string>, path: Option<string>,
                                            action: Option<string>): (r: Result<Option<Obj>, CmisError>)
    requires AllValid(repos)
    ensures action != Some(DeleteTree) ==>
              (r.Success? <==> CheckStandardParametersByPath(repos, repositoryId, path).Success?)
              && (r.Success? ==> r.value == Some(CheckStandardParametersByPath(repos, repositoryId, path).value))
              && (r.Failure? ==> r.error == CheckStandardParametersByPath(repos, repositoryId, path).error)
    ensures action == Some(DeleteTree) ==>
              (r.Success? <==> repositoryId.Some? && path.Some? && repositoryId.value in repos)
              && (r.Success? ==> r.value == GetObjectByPath(repos[repositoryId.value], path.value))
  {
    if action != Some(DeleteTree) then
      match CheckStandardParametersByPath(repos, repositoryId, path)
      case Failure(e) => Failure(e)
      case Success(so) => Success(Some(so))
    else if repositoryId.None? || path.None? then Failure(InvalidArgument)
    else if repositoryId.value !in repos then Failure(ObjectNotFound)
    else Success(GetObjectByPath(repos[repositoryId.value], path.value))
  }

  /** The id check that allows a null object id: then nothing but the
      repository id's presence is checked and no object is returned. */
  function CheckStandardParametersAllowNull(repos: Repositories, repositoryId: Option<string>, objectId: Option<string>)
    : (r: Result<Option<Obj>, CmisError>)
    requires AllValid(repos)
    ensures repositoryId.Some? && objectId.None? ==> r == Success(None)
    ensures objectId.Some? ==>
              (r.Success? <==> CheckStandardParameters(repos, repositoryId, objectId).Success?)
              && (r.Success? ==> r.value == Some(CheckStandardParameters(repos, repositoryId, objectId).value))
              && (r.Failure? ==> r.error == CheckStandardParameters(repos, repositoryId, objectId).error)
    ensures repositoryId.None? ==> r == Failure(InvalidArgument)
  {
    if repositoryId.None? then Failure(InvalidArgument)
    else if objectId.None? then Success(None)
    else if repositoryId.value !in repos then Failure(ObjectNotFound)
    else match GetObjectById(repos[repositoryId.value], objectId.value)
      case None => Failure(ObjectNotFound)
      case Some(so) => Success(Some(so))
  }

  /** deleteTree is lenient exactly about a missing object: on any input the
      lenient check fails only where the strict one fails for another reason,
      and an object it finds is the one the strict check returns. */
  lemma DeleteTreeOnlyForgivesMissingObject(repos: Repositories, repositoryId: Option<string>, objectId: Option<string>)
    requires AllValid(repos)
    ensures var lenient := CheckStandardParametersFor(repos, repositoryId, objectId, Some(DeleteTree));
            var strict := CheckStandardParameters(repos, repositoryId, objectId);
            && (strict.Success? ==> lenient == Success(Some(strict.value)))
            && (lenient.Failure? ==> strict == Failure(lenient.error))
            && (lenient == Success(None) <==> strict.Failure? && repositoryId.Some? && objectId.Some?
                                               && repositoryId.value in repos)
  {
  }

  /** Every object the strict check returns for a live id carries that id. */
  lemma CheckedObjectCarriesId(repos: Repositories, repositoryId: string, objectId: string)
    requires AllValid(repos) && !IsPathKey(objectId)
    requires CheckStandardParameters(repos, Some(repositoryId), Some(objectId)).Success?
    ensures CheckStandardParameters(repos, Some(repositoryId), Some(objectId)).value.id == objectId
  {
  }
}

=== FILE: store_deletes.dfy ===
/** deleteObject and its helpers: a folder goes only when empty, a version
    goes alone or with all its siblings, and the versioned document's shell
    goes once no version is left. A failure is modelled as leaving the store
    as it was, although a removal that fails half-way through all versions
    leaves the earlier ones removed in the source. */
module StoreDeletes {
  import opened Wrappers
  import opened CmisErrors
  import opened StoredObjects
  import opened ObjectStore
  import opened Children

  /** deleteFolder: the key must reach a folder without children the user can
      see (working copies counted); its path entry and the key then go, as
      removeObject takes them. */
  function DeleteFolder(st: Store, folderId: string, user: Option<string>): (r: Result<Store, CmisError>)
    requires Valid(st)
    ensures Lookup(st, folderId).None? ==> r == Failure(InvalidArgument)
    ensures Lookup(st, folderId).Some? && !Lookup(st, folderId).value.kind.Folder? ==> r == Failure(InvalidArgument)
    ensures Lookup(st, folderId).Some? && Lookup(st, folderId).value.kind.Folder? ==>
              (ChildSet(st, Lookup(st, folderId).value.id, user, true) != {} ==> r == Failure(ConstraintViolation))
    ensures r.Success? ==> ChildSet(st, Lookup(st, folderId).value.id, user, true) == {}
                           && r == RemoveObject(st, folderId)
    ensures r.Failure? && r.error == RuntimeFailure ==> RemoveObject(st, folderId).Failure?
  {
    match Lookup(st, folderId)
    case None => Failure(InvalidArgument)
    case Some(f) =>
      if !f.kind.Folder? then Failure(InvalidArgument)
      else if ChildSet(st, f.id, user, true) != {} then Failure(ConstraintViolation)
      else RemoveObject(st, folderId)
  }

  /** A successful deleteFolder leaves neither the key nor the folder's path
      in the map. */
  lemma DeleteFolderRemovesBothKeys(st: Store, folderId: string, user: Option<string>)
    requires Valid(st) && DeleteFolder(st, folderId, user).Success?
    ensures var f := Lookup(st, folderId).value;
            && PathOf(st, f).Some?
            && folderId !in DeleteFolder(st, folderId, user).value.index
            && PathOf(st, f).value !in DeleteFolder(st, folderId, user).value.index
  {
  }

  /** A folder holding a live child the user may read, which stands for
      itself in listings, cannot be deleted by that user: deleteObject
      refuses it as a constraint violation and the store stays as it was. */
  lemma DeleteFolderWithChildRefused(st: Store, f: Obj, c: Obj, user: Option<string>)
    requires Valid(st) && Lookup(st, f.id) == Some(f) && f.kind.Folder?
    requires Lookup(st, c.id) == Some(c) && IsFileable(c.kind) && !c.kind.VersionedDocument?
    requires f.id in ParentIds(c.kind) && Visible(st, user, c)
    ensures DeleteObject(st, f.id, None, user) == Failure(ConstraintViolation)
  {
    assert Entry(st, c.id, f.id, user, true) == Some(c);
    assert c in ChildSet(st, f.id, user, true);
  }

  /** deleteVersion: the version's id entry is taken out; a version that is
      not entered is an invalid argument. */
  function DeleteVersion(st: Store, versionId: string): (r: Result<Store, CmisError>)
    requires Valid(st)
    ensures r.Failure? <==> versionId !in st.index
    ensures r.Failure? ==> r.error == InvalidArgument
    ensures r.Success? ==> Valid(r.value) && r.value.heap == st.heap && r.value.index == st.index - {versionId}
  {
    if versionId !in st.index then Failure(InvalidArgument) else Success(st.(index := st.index - {versionId}))
  }

  /** Removes each id in turn, as the loop over all versions does. */
  function RemoveAll(st: Store, ids: seq<string>): (r: Result<Store, CmisError>)
    requires Valid(st)
    ensures r.Success? ==> Valid(r.value) && r.value.heap == st.heap && r.value.acls == st.acls
                           && r.value.rootId == st.rootId && r.value.index.Keys <= st.index.Keys
    ensures r.Failure? ==> r.error == RuntimeFailure
    decreases |ids|
  {
    if |ids| == 0 then Success(st)
    else match RemoveObject(st, ids[0])
      case Failure(e) => Failure(e)
      case Success(st1) => RemoveAll(st1, ids[1..])
  }

  /** After a successful removal of all the ids, none of them is entered. */
  lemma {:induction false} RemoveAllClears(st: Store, ids: seq<string>)
    requires Valid(st) && RemoveAll(st, ids).Success?
    ensures forall i :: 0 <= i < |ids| ==> ids[i] !in RemoveAll(st, ids).value.index
    decreases |ids|
  {
    if |ids| > 0 {
      var st1 := RemoveObject(st, ids[0]).value;
      assert ids[0] !in st1.index;
      var r := RemoveAll(st1, ids[1..]).value;
      assert RemoveAll(st, ids).value == r;
      RemoveAllClears(st1, ids[1..]);
      forall i | 0 <= i < |ids| ensures ids[i] !in r.index {
        if i > 0 {
          assert ids[i] == ids[1..][i - 1];
        }
      }
    }
  }

  /** The document's record after one of its versions is deleted: the version
      leaves its list, and stops being the working copy if it was one. */
  function WithoutVersion(doc: Obj, versionId: string): (r: Obj)
    requires doc.kind.VersionedDocument?
    ensures r.id == doc.id && r.kind.VersionedDocument? && r.kind.parents == doc.kind.parents
    ensures multiset(r.kind.versions) == multiset(doc.kind.versions) - multiset{versionId}
    ensures r.kind.pwc != Some(versionId)
    ensures doc.kind.pwc != Some(versionId) ==> r.kind.pwc == doc.kind.pwc
  {
    var pwc := if doc.kind.pwc == Some(versionId) then None else doc.kind.pwc;
    doc.(kind := doc.kind.(versions := RemoveFirst(doc.kind.versions, versionId), pwc := pwc))
  }

  /** deleteObject: an unknown key is not found; a folder goes through
      deleteFolder; a version takes its versioned document with it when it
      goes with all its siblings or was the last one; anything else is
      removed. */
  function DeleteObject(st: Store, id: string, allVersions: Option<bool>, user: Option<string>)
    : (r: Result<Store, CmisError>)
    requires Valid(st)
    ensures Lookup(st, id).None? ==> r == Failure(ObjectNotFound)
    ensures Lookup(st, id).Some? && Lookup(st, id).value.kind.Folder? ==> r == DeleteFolder(st, id, user)
    ensures Lookup(st, id).Some? && Lookup(st, id).value.kind.Version? ==>
              r == DeleteVersionObject(st, id, Lookup(st, id).value, allVersions)
    ensures Lookup(st, id).Some? && !Lookup(st, id).value.kind.Folder? && !Lookup(st, id).value.kind.Version? ==>
              r == RemoveObject(st, id)
    ensures r.Success? ==> Valid(r.value) && r.value.index.Keys <= st.index.Keys
    ensures r.Success? && (allVersions != Some(true) || !Lookup(st, id).value.kind.Version?) ==>
              id !in r.value.index
  {
    match Lookup(st, id)
    case None => Failure(ObjectNotFound)
    case Some(o) =>
      if o.kind.Folder? then DeleteFolder(st, id, user)
      else if o.kind.Version? then DeleteVersionObject(st, id, o, allVersions)
      else RemoveObject(st, id)
  }

  /** The version branch of deleteObject, for the version `v` entered under
      `id`. Its document is reached through the version's back reference; one
      that is not a stored versioned document is a null or bad-cast
      dereference. */
  function DeleteVersionObject(st: Store, id: string, v: Obj, allVersions: Option<bool>)
    : (r: Result<Store, CmisError>)
    requires Valid(st) && Lookup(st, id) == Some(v) && v.kind.Version?
    ensures var docId := v.kind.docId;
            docId !in st.heap || !st.heap[docId].kind.VersionedDocument? ==> r == Failure(RuntimeFailure)
    ensures r.Success? ==> Valid(r.value) && r.value.index.Keys <= st.index.Keys
    ensures allVersions == Some(true) && r.Success? ==>
              r == DeleteAllVersions(st, st.heap[v.kind.docId])
    ensures allVersions != Some(true) && r.Success? ==>
              r == DeleteOneVersion(st, id, v, st.heap[v.kind.docId])
  {
    var docId := v.kind.docId;
    if docId !in st.heap || !st.heap[docId].kind.VersionedDocument? then Failure(RuntimeFailure)
    else if allVersions == Some(true) then DeleteAllVersions(st, st.heap[docId])
    else DeleteOneVersion(st, id, v, st.heap[docId])
  }

  /** Every version of the document goes, then the document. */
  function DeleteAllVersions(st: Store, doc: Obj): (r: Result<Store, CmisError>)
    requires Valid(st) && IsStored(st, doc) && doc.kind.VersionedDocument?
    ensures r.Failure? ==> r.error == RuntimeFailure
    ensures r.Success? ==>
              && Valid(r.value) && r.value.index.Keys <= st.index.Keys && r.value.heap == st.heap
              && doc.id !in r.value.index
              && forall i :: 0 <= i < |doc.kind.versions| ==> doc.kind.versions[i] !in r.value.index
  {
    match RemoveAll(st, doc.kind.versions)
    case Failure(e) => Failure(e)
    case Success(st1) =>
      RemoveAllClears(st, doc.kind.versions);
      RemoveObject(st1, doc.id)
  }

  /** The version entered under `id` goes and leaves its document's list; the
      document goes too when that list is now empty. */
  function DeleteOneVersion(st: Store, id: string, v: Obj, doc: Obj): (r: Result<Store, CmisError>)
    requires Valid(st) && Lookup(st, id) == Some(v) && v.kind.Version? && IsStored(st, doc)
    requires doc.kind.VersionedDocument?
    ensures r.Failure? ==> r.error == RuntimeFailure
    ensures r.Success? ==>
              var doc1 := WithoutVersion(doc, v.id);
              && Valid(r.value) && r.value.index.Keys <= st.index.Keys
              && id !in r.value.index
              && r.value.heap == st.heap[doc.id := doc1]
              && (|doc1.kind.versions| == 0 ==> doc.id !in r.value.index)
              && (|doc1.kind.versions| > 0 ==> r.value.index == st.index - {id})
  {
    var st1 :- RemoveObject(st, id);
    assert st1.index == st.index - {id};
    var doc1 := WithoutVersion(doc, v.id);
    var st2 := Rerecord(st1, doc, doc1);
    if |doc1.kind.versions| > 0 then Success(st2)
    else RemoveObject(st2, doc.id)
  }

  /** Once a version listed once is deleted, its document is never listed as
      that version again, whether the working copy is asked for or not. */
  lemma DeletedVersionNotListed(st: Store, id: string, v: Obj, doc: Obj, usePwc: bool)
    requires Valid(st) && Lookup(st, id) == Some(v) && v.kind.Version? && IsStored(st, doc)
    requires doc.kind.VersionedDocument? && multiset(doc.kind.versions)[v.id] <= 1
    requires DeleteOneVersion(st, id, v, doc).Success?
    ensures var st2 := DeleteOneVersion(st, id, v, doc).value;
            Representative(st2, st2.heap[doc.id], usePwc) != Some(v)
  {
    var st2 := DeleteOneVersion(st, id, v, doc).value;
    var doc1 := WithoutVersion(doc, v.id);
    assert st2.heap[doc.id] == doc1;
    var vs := doc1.kind.versions;
    assert multiset(vs)[v.id] == 0;
    if |vs| > 0 {
      assert vs[|vs| - 1] in multiset(vs);
    }
  }

  /** The versioned document's record replaced in place, every key reaching
      it now reaching the new record. */
  function Rerecord(st: Store, doc: Obj, doc1: Obj): (r: Store)
    requires Valid(st) && doc.id in st.heap && st.heap[doc.id] == doc && doc1.id == doc.id
    requires doc.kind.VersionedDocument? && doc1.kind.VersionedDocument? && doc1.kind.parents == doc.kind.parents
    ensures Valid(r) && r.index == st.index && r.heap == st.heap[doc.id := doc1]
    ensures r.acls == st.acls && r.rootId == st.rootId
  {
    assert ParentIds(doc1.kind) == ParentIds(doc.kind);
    st.(heap := st.heap[doc.id := doc1])
  }
}

=== FILE: store_edits.dfy ===
/** rename and move: the operations that change where an existing object is
    filed or what it is called, under the same name-uniqueness rule as the
    creates. A failure is modelled as leaving the store as it was, although a
    folder move whose new path cannot be computed has already dropped the old
    path entry and changed the parent in the source. */
module StoreEdits {
  import opened Wrappers
  import opened CmisErrors
  import opened StoredObjects
  import opened ObjectStore
  import opened Children

  /** The parents rename checks are the folders `so` is filed in, looked up
      in turn: a parent that is not a stored folder is a failed cast or a
      null dereference, a parent already holding a child called `name` is a
      name clash. The first parent that fails decides the error. */
  function CheckParents(st: Store, parents: seq<string>, name: string): (r: Outcome<CmisError>)
    ensures r.Pass? <==>
      forall i :: 0 <= i < |parents| ==> FolderById(st, parents[i]).Some? && !HasChild(st, parents[i], name)
    ensures r.Fail? ==> r.error == RuntimeFailure || r.error == NameConstraintViolation
    ensures r == Fail(NameConstraintViolation) ==> exists i :: 0 <= i < |parents| && HasChild(st, parents[i], name)
    ensures (forall i :: 0 <= i < |parents| ==> FolderById(st, parents[i]).Some?) && r.Fail? ==>
              r.error == NameConstraintViolation
  {
    if |parents| == 0 then Pass
    else if FolderById(st, parents[0]).None? then Fail(RuntimeFailure)
    else if HasChild(st, parents[0], name) then Fail(NameConstraintViolation)
    else
      var r := CheckParents(st, parents[1..], name);
      assert forall i :: 1 <= i < |parents| ==> parents[i] == parents[1..][i - 1];
      r
  }

  /** `r` is `st` with the record of `so` replaced by `o` and its path entry
      moved: the entry under the path `so` had goes, an entry under the path
      `o` has comes in, and every other key reaches what it reached before. */
  ghost predicate Rekeyed(st: Store, so: Obj, o: Obj, r: Store) {
    && Valid(r) && r.heap == st.heap[so.id := o] && r.acls == st.acls && r.rootId == st.rootId
    && PathOf(st, so).Some? && PathOf(r, o).Some?
    && Lookup(r, PathOf(r, o).value) == Some(o)
    && r.index.Keys == st.index.Keys - {PathOf(st, so).value} + {PathOf(r, o).value}
    && (forall k :: k in r.index && k != PathOf(r, o).value ==> r.index[k] == st.index[k])
  }

  /** Drops the entry under the old path and replaces the record. */
  function Unkey(st: Store, so: Obj, o: Obj, oldPath: string): (r: Store)
    requires Valid(st) && so.id in st.heap && o.id == so.id && NoPathParents(o.kind)
    ensures Valid(r) && r.heap == st.heap[so.id := o] && r.index == st.index - {oldPath}
    ensures r.acls == st.acls && r.rootId == st.rootId
  {
    st.(index := st.index - {oldPath}, heap := st.heap[so.id := o])
  }

  /** The path entry of `so` is taken out, the record replaced by `o`, and `o`
      entered under its own path, computed once the record is replaced. A
      missing path on either side is a null key, which the map rejects. */
  function Rekey(st: Store, so: Obj, o: Obj): (r: Result<Store, CmisError>)
    requires Valid(st) && IsStored(st, so) && o.id == so.id && NoPathParents(o.kind)
    ensures r.Failure? ==> r.error == RuntimeFailure
    ensures PathOf(st, so).None? ==> r.Failure?
    ensures r.Success? ==> Rekeyed(st, so, o, r.value)
  {
    match PathOf(st, so)
    case None => Failure(RuntimeFailure)
    case Some(oldPath) =>
      var st1 := Unkey(st, so, o, oldPath);
      match PathOf(st1, o)
      case None => Failure(RuntimeFailure)
      case Some(p) =>
        var r := PutPath(st1, p, so.id);
        PathOfIgnoresPathKeys(st1, r, o);
        Success(r)
  }

  // ---------------------------------------------------------------------
  // rename

  /** rename: the root cannot be renamed; a fileable object is checked against
      every parent, then re-entered under the path its new name gives. A
      non-fileable object only changes its name. */
  function Rename(st: Store, so: Obj, newName: string): (r: Result<Store, CmisError>)
    requires Valid(st) && IsStored(st, so)
    ensures so.id == st.rootId ==> r == Failure(InvalidArgument)
    ensures so.id != st.rootId && IsFileable(so.kind) && CheckParents(st, ParentIds(so.kind), newName).Fail? ==>
              r == Failure(CheckParents(st, ParentIds(so.kind), newName).error)
    ensures r.Failure? && so.id != st.rootId && CheckParents(st, ParentIds(so.kind), newName).Pass? ==>
              r.error == RuntimeFailure && IsFileable(so.kind)
    ensures r.Success? && IsFileable(so.kind) ==> Rekeyed(st, so, so.(name := newName), r.value)
    ensures r.Success? && !IsFileable(so.kind) ==> r.value == st.(heap := st.heap[so.id := so.(name := newName)])
    ensures r.Success? ==> so.id != st.rootId
  {
    var o := so.(name := newName);
    if so.id == st.rootId then Failure(InvalidArgument)
    else if !IsFileable(so.kind) then Success(st.(heap := st.heap[so.id := o]))
    else match CheckParents(st, ParentIds(so.kind), newName)
      case Fail(e) => Failure(e)
      case Pass => Rekey(st, so, o)
  }

  /** Renaming a live object to the name it already has clashes with itself:
      it is a child of each of its parents under that name. */
  lemma RenameToOwnNameFails(st: Store, so: Obj)
    requires Valid(st) && IsStored(st, so) && Lookup(st, so.id) == Some(so) && so.id != st.rootId
    requires IsFileable(so.kind) && !so.kind.VersionedDocument? && |ParentIds(so.kind)| > 0
    requires forall i :: 0 <= i < |ParentIds(so.kind)| ==> FolderById(st, ParentIds(so.kind)[i]).Some?
    ensures Rename(st, so, so.name) == Failure(NameConstraintViolation)
  {
    LiveObjectIsChild(st, so, ParentIds(so.kind)[0]);
  }

  /** A successful rename of a fileable object leaves the object reachable
      under its id and under the path its new name gives, and the old path
      gone unless it is the new one. */
  lemma RenameReentersObject(st: Store, so: Obj, newName: string)
    requires Valid(st) && IsStored(st, so) && so.id in st.index
    requires Rename(st, so, newName).Success? && IsFileable(so.kind)
    ensures var r := Rename(st, so, newName).value;
            var o := so.(name := newName);
            && Lookup(r, so.id) == Some(o)
            && Lookup(r, PathOf(r, o).value) == Some(o)
            && (PathOf(st, so) != PathOf(r, o) ==> PathOf(st, so).value !in r.index)
  {
    var r := Rename(st, so, newName).value;
    var o := so.(name := newName);
    assert Rekeyed(st, so, o, r);
    assert so.id in r.index && so.id != PathOf(r, o).value;
  }

  // ---------------------------------------------------------------------
  // move

  /** The parent list of a multi-filed object after move: the new parent
      appended, then the first occurrence of the old one removed. */
  function MovedParents(parents: seq<string>, oldParentId: string, newParentId: string): (r: seq<string>)
    ensures multiset(r) == multiset(parents) + multiset{newParentId} - multiset{oldParentId}
    ensures forall i :: 0 <= i < |r| ==> r[i] in parents || r[i] == newParentId
  {
    var r := RemoveFirst(parents + [newParentId], oldParentId);
    forall i | 0 <= i < |r| ensures r[i] in parents || r[i] == newParentId {
      assert r[i] in multiset(r);
      assert r[i] in multiset(parents + [newParentId]);
    }
    r
  }

  /** A multi-filed object given another parent list; the map is untouched,
      so the object stays entered under the path it had. */
  function Refile(st: Store, so: Obj, parents: seq<string>): (r: Store)
    requires Valid(st) && IsStored(st, so) && IsMultiFiling(so.kind)
    requires forall i :: 0 <= i < |parents| ==> !IsPathKey(parents[i])
    ensures Valid(r) && r.index == st.index && r.acls == st.acls && r.rootId == st.rootId
    ensures r.heap == st.heap[so.id := so.(kind := WithParents(so.kind, parents))]
  {
    st.(heap := st.heap[so.id := so.(kind := WithParents(so.kind, parents))])
  }

  /** move: refused when the new parent already has a child of that name. A
      multi-filed object gets its parent list changed and stays entered under
      the paths it had; a folder is re-entered under its new path; any other
      object is left alone. */
  function Move(st: Store, so: Obj, oldParent: Obj, newParent: Obj): (r: Result<Store, CmisError>)
    requires Valid(st) && IsStored(st, so) && IsStored(st, newParent) && newParent.kind.Folder?
    ensures HasChild(st, newParent.id, so.name) ==> r == Failure(InvalidArgument)
    ensures r.Failure? && !HasChild(st, newParent.id, so.name) ==> r.error == RuntimeFailure && so.kind.Folder?
    ensures r.Success? && IsMultiFiling(so.kind) ==>
              r.value == Refile(st, so, MovedParents(ParentIds(so.kind), oldParent.id, newParent.id))
    ensures r.Success? && so.kind.Folder? ==> Rekeyed(st, so, so.(kind := Folder(Some(newParent.id))), r.value)
    ensures r.Success? && !IsFileable(so.kind) ==> r.value == st
  {
    if HasChild(st, newParent.id, so.name) then Failure(InvalidArgument)
    else if IsMultiFiling(so.kind) then
      Success(Refile(st, so, MovedParents(ParentIds(so.kind), oldParent.id, newParent.id)))
    else if so.kind.Folder? then
      Rekey(st, so, so.(kind := Folder(Some(newParent.id))))
    else Success(st)
  }

  /** After a move to another folder, the object is filed in the new parent:
      a folder has it as its parent, a multi-filed object has it among its
      parents. */
  lemma MoveFilesInNewParent(st: Store, so: Obj, oldParent: Obj, newParent: Obj)
    requires Valid(st) && IsStored(st, so) && IsStored(st, newParent) && newParent.kind.Folder?
    requires IsFileable(so.kind) && oldParent.id != newParent.id
    requires Move(st, so, oldParent, newParent).Success?
    ensures newParent.id in ParentIds(Move(st, so, oldParent, newParent).value.heap[so.id].kind)
  {
    var r := Move(st, so, oldParent, newParent).value;
    if IsMultiFiling(so.kind) {
      var ps := ParentIds(r.heap[so.id].kind);
      assert multiset(ps)[newParent.id] > 0;
    }
  }

  /** After a move of a live object that stands for itself in listings, its
      name is taken in the new parent. */
  lemma MoveTakesNameInNewParent(st: Store, so: Obj, oldParent: Obj, newParent: Obj)
    requires Valid(st) && IsStored(st, so) && IsStored(st, newParent) && newParent.kind.Folder?
    requires IsFileable(so.kind) && !so.kind.VersionedDocument? && oldParent.id != newParent.id
    requires so.id in st.index
    requires Move(st, so, oldParent, newParent).Success?
    ensures HasChild(Move(st, so, oldParent, newParent).value, newParent.id, so.name)
  {
    var r := Move(st, so, oldParent, newParent).value;
    MoveFilesInNewParent(st, so, oldParent, newParent);
    var o := r.heap[so.id];
    if so.kind.Folder? {
      var q := PathOf(r, o).value;
      assert so.id in r.index && so.id != q;
    }
    assert Lookup(r, so.id) == Some(o);
    LiveObjectIsChild(r, o, newParent.id);
  }
}

=== FILE: store_ops.dfy ===
/** The object store's create operations: documents, items, versioned
    documents and folders, each under name uniqueness in its folder. A
    failure leaves the store as it was. */
module StoreOps {
  import opened Wrappers
  import opened CmisErrors
  import opened StoredObjects
  import opened ObjectStore
  import opened Children
  import AclEngine

  /** The property holding a document's name. */
  const NameProperty: string := "cmis:name"

  /** The property holding the secondary type ids. */
  const SecondaryTypesProperty: string := "cmis:secondaryObjectTypeIds"

  /** A folder the caller holds: a stored folder. */
  ghost predicate IsStoredFolder(st: Store, folder: Option<Obj>) {
    folder.Some? ==> IsStored(st, folder.value) && folder.value.kind.Folder?
  }

  /** An id the store has never handed out. */
  ghost predicate IsFreshId(st: Store, id: string) {
    id !in st.heap && !IsPathKey(id)
  }

  /** The handle a new object starts from: its folder's, or none without one. */
  function FolderAcl(folder: Option<Obj>): Option<int> {
    if folder.Some? then Some(folder.value.aclId) else None
  }

  /** The parent list of an object created in `folder`. */
  function ParentsIn(folder: Option<Obj>): seq<string> {
    if folder.Some? then [folder.value.id] else []
  }

  /** The private applyAcl with add and remove lists: the object's handle is
      recomputed from its own. */
  function ApplyAcl(st: Store, id: string, add: Option<seq<AclEngine.Ace>>,
                    remove: Option<seq<AclEngine.Ace>>): (r: Store)
    requires Valid(st) && id in st.heap
    ensures Valid(r) && r.index == st.index && r.rootId == st.rootId && id in r.heap
    ensures r.heap == st.heap[id := st.heap[id].(aclId := r.heap[id].aclId)]
    ensures (r.acls, r.heap[id].aclId) == AclEngine.GetAclId(st.acls, Some(st.heap[id].aclId), add, remove)
  {
    var (t, h) := AclEngine.GetAclId(st.acls, Some(st.heap[id].aclId), add, remove);
    WithHandle(st, t, id, h)
  }

  /** The store with another table and the object under `id` given handle `h`. */
  function WithHandle(st: Store, t: AclEngine.AclTable, id: string, h: int): (r: Store)
    requires Valid(st) && AclEngine.Valid(t) && AclEngine.Seeded(t) && id in st.heap
    ensures Valid(r) && r.index == st.index && r.rootId == st.rootId && r.acls == t
    ensures r.heap == st.heap[id := st.heap[id].(aclId := h)]
  {
    st.(acls := t, heap := st.heap[id := st.heap[id].(aclId := h)])
  }

  /** Applying the lists again to an object whose handle they just produced
      changes nothing. */
  lemma ApplyAclAgainIsNoOp(st: Store, id: string, t0: AclEngine.AclTable, current: Option<int>,
                            add: Option<seq<AclEngine.Ace>>, remove: Option<seq<AclEngine.Ace>>)
    requires Valid(st) && id in st.heap
    requires AclEngine.Valid(t0) && AclEngine.Seeded(t0)
    requires (st.acls, st.heap[id].aclId) == AclEngine.GetAclId(t0, current, add, remove)
    ensures ApplyAcl(st, id, add, remove) == st
  {
    AclEngine.ReapplyIsIdempotent(t0, current, add, remove);
    assert st.heap[id := st.heap[id].(aclId := st.heap[id].aclId)] == st.heap;
  }

  /** Stores a new object with a handle computed from its folder's, then
      applies the lists to it once more, as every create does. */
  function StoreNew(st: Store, o: Obj, folder: Option<Obj>, add: Option<seq<AclEngine.Ace>>,
                    remove: Option<seq<AclEngine.Ace>>): (r: Store)
    requires Valid(st) && IsFreshId(st, o.id) && NoPathParents(o.kind)
    requires o.aclId == AclEngine.GetAclId(st.acls, FolderAcl(folder), add, remove).1
    ensures r == StoreObject(st.(acls := AclEngine.GetAclId(st.acls, FolderAcl(folder), add, remove).0), o)
    ensures r.acls == AclEngine.GetAclId(st.acls, FolderAcl(folder), add, remove).0
    ensures Enters(st, r, EntryKeys(st, o))
  {
    var t := AclEngine.GetAclId(st.acls, FolderAcl(folder), add, remove).0;
    var st1 := StoreObject(st.(acls := t), o);
    StoreObjectEnters(st, t, o);
    ApplyAclAgainIsNoOp(st1, o.id, st.acls, FolderAcl(folder), add, remove);
    ApplyAcl(st1, o.id, add, remove)
  }

  /** After a create, the new object's name is taken in its folder. */
  lemma NameTaken(st: Store, o: Obj, folder: Option<Obj>)
    requires Lookup(st, o.id) == Some(o) && IsFileable(o.kind) && !o.kind.VersionedDocument?
    requires ParentIds(o.kind) == ParentsIn(folder)
    ensures folder.Some? ==> HasChild(st, folder.value.id, o.name)
  {
    if folder.Some? {
      LiveObjectIsChild(st, o, folder.value.id);
    }
  }

  /** After createVersionedDocument, the name is taken in the folder. */
  lemma VersionNameTaken(st: Store, doc: Obj, v: Obj, folder: Obj)
    requires Lookup(st, doc.id) == Some(doc) && IsStored(st, v)
    requires doc.kind == VersionedDocument([folder.id], [v.id], None)
    ensures HasChild(st, folder.id, v.name)
  {
    VersionedDocumentIsChild(st, doc, folder.id);
  }

  // ---------------------------------------------------------------------
  // Creation

  /** The name a document is created with: the first value of its name
      property. A missing or empty name property is a failure. */
  function NameOf(props: Properties): Result<string, CmisError> {
    if NameProperty in props && |props[NameProperty]| > 0 then Success(props[NameProperty][0])
    else Failure(RuntimeFailure)
  }

  /** createDocument: a document named by its name property, filed in `folder`
      unless the folder already has a child of that name. */
  function CreateDocument(st: Store, props: Properties, folder: Option<Obj>, policies: Option<seq<string>>,
                          add: Option<seq<AclEngine.Ace>>, remove: Option<seq<AclEngine.Ace>>,
                          newId: string): (r: Result<(Store, Obj), CmisError>)
    requires Valid(st) && IsStoredFolder(st, folder) && IsFreshId(st, newId)
    ensures NameOf(props).Failure? ==> r == Failure(RuntimeFailure)
    ensures NameOf(props).Success? ==>
      (r.Failure? <==> folder.Some? && HasChild(st, folder.value.id, NameOf(props).value))
    ensures r.Failure? && NameOf(props).Success? ==> r.error == NameConstraintViolation
    ensures r.Success? ==>
      var (st', d) := r.value;
      && Valid(st') && d.id == newId && d.name == NameOf(props).value && d.props == props
      && d.kind == Document(ParentsIn(folder))
      && d.aclId == AclEngine.GetAclId(st.acls, FolderAcl(folder), add, remove).1
      && Lookup(st', newId) == Some(d)
      && (folder.Some? ==> HasChild(st', folder.value.id, d.name))
      && st'.heap == st.heap[newId := d]
      && st'.acls == AclEngine.GetAclId(st.acls, FolderAcl(folder), add, remove).0
      && Enters(st, st', EntryKeys(st, d))
  {
    match NameOf(props)
    case Failure(e) => Failure(e)
    case Success(name) =>
      if folder.Some? && HasChild(st, folder.value.id, name) then Failure(NameConstraintViolation)
      else
        var h := AclEngine.GetAclId(st.acls, FolderAcl(folder), add, remove).1;
        var d := Obj(newId, name, h, props, policies.GetOr([]), Document(ParentsIn(folder)));
        var st' := StoreNew(st, d, folder, add, remove);
        NameTaken(st', d, folder);
        Success((st', d))
  }

  /** createItem: like a document, but named by the caller. */
  function CreateItem(st: Store, name: string, props: Properties, folder: Option<Obj>,
                      policies: Option<seq<string>>, add: Option<seq<AclEngine.Ace>>,
                      remove: Option<seq<AclEngine.Ace>>, newId: string): (r: Result<(Store, Obj), CmisError>)
    requires Valid(st) && IsStoredFolder(st, folder) && IsFreshId(st, newId)
    ensures r.Failure? <==> folder.Some? && HasChild(st, folder.value.id, name)
    ensures r.Failure? ==> r.error == NameConstraintViolation
    ensures r.Success? ==>
      var (st', item) := r.value;
      && Valid(st') && item.id == newId && item.name == name && item.kind == Item(ParentsIn(folder))
      && item.aclId == AclEngine.GetAclId(st.acls, FolderAcl(folder), add, remove).1
      && Lookup(st', newId) == Some(item)
      && (folder.Some? ==> HasChild(st', folder.value.id, name))
      && st'.heap == st.heap[newId := item]
      && st'.acls == AclEngine.GetAclId(st.acls, FolderAcl(folder), add, remove).0
      && Enters(st, st', EntryKeys(st, item))
  {
    if folder.Some? && HasChild(st, folder.value.id, name) then Failure(NameConstraintViolation)
    else
      var h := AclEngine.GetAclId(st.acls, FolderAcl(folder), add, remove).1;
      var item := Obj(newId, name, h, props, policies.GetOr([]), Item(ParentsIn(folder)));
      var st' := StoreNew(st, item, folder, add, remove);
      NameTaken(st', item, folder);
      Success((st', item))
  }

  /** A second document of the same name in the same folder is refused. */
  lemma CreateDocumentTwiceFails(st: Store, props: Properties, folder: Obj, policies: Option<seq<string>>,
                                 add: Option<seq<AclEngine.Ace>>, remove: Option<seq<AclEngine.Ace>>,
                                 id1: string, id2: string)
    requires Valid(st) && IsStoredFolder(st, Some(folder)) && IsFreshId(st, id1) && IsFreshId(st, id2) && id1 != id2
    requires CreateDocument(st, props, Some(folder), policies, add, remove, id1).Success?
    ensures var st1 := CreateDocument(st, props, Some(folder), policies, add, remove, id1).value.0;
            IsStoredFolder(st1, Some(folder)) && IsFreshId(st1, id2) &&
            CreateDocument(st1, props, Some(folder), policies, add, remove, id2) == Failure(NameConstraintViolation)
  {
    var (st1, d) := CreateDocument(st, props, Some(folder), policies, add, remove, id1).value;
    assert folder.id in st1.heap && st1.heap[folder.id] == folder;
    assert id2 !in st1.heap;
    assert HasChild(st1, folder.id, NameOf(props).value);
  }

  /** The versioned document's record once its first version is attached. */
  function FirstVersionDoc(name: string, props: Properties, folder: Option<Obj>, policies: Option<seq<string>>,
                           h: int, docId: string, versionId: string): Obj {
    Obj(docId, name, h, props, policies.GetOr([]), VersionedDocument(ParentsIn(folder), [versionId], None))
  }

  /** The first version: it shares the document's name and handle. */
  function FirstVersion(name: string, props: Properties, h: int, docId: string, versionId: string): Obj {
    Obj(versionId, name, h, props, [], Version(docId))
  }

  /** The stored shell after its handle and first version are set: the shell
      was entered (under its id and path) before these were known, and the
      record all its keys reach is updated in place. */
  function CompleteShell(st1: Store, doc: Obj, t: AclEngine.AclTable): (r: Store)
    requires Valid(st1) && doc.id in st1.heap && doc.id in st1.index
    requires st1.heap[doc.id].kind.VersionedDocument? && doc.kind.VersionedDocument?
    requires st1.heap[doc.id].kind.parents == doc.kind.parents && doc.id == st1.heap[doc.id].id
    requires AclEngine.Valid(t) && AclEngine.Seeded(t)
    ensures Valid(r) && r.index == st1.index && r.heap == st1.heap[doc.id := doc] && r.acls == t
    ensures Lookup(r, doc.id) == Some(doc)
  {
    assert ParentIds(doc.kind) == ParentIds(st1.heap[doc.id].kind);
    st1.(acls := t, heap := st1.heap[doc.id := doc])
  }

  /** The shell of a versioned document, stored before its handle and
      versions are known. */
  function StoreShell(st: Store, name: string, props: Properties, folder: Option<Obj>, docId: string): (r: Store)
    requires Valid(st) && IsStoredFolder(st, folder) && IsFreshId(st, docId)
    ensures Valid(r) && r.acls == st.acls && docId in r.heap && docId in r.index
    ensures r.heap == st.heap[docId := Obj(docId, name, 0, props, [], VersionedDocument(ParentsIn(folder), [], None))]
    ensures Enters(st, r, EntryKeys(st, Obj(docId, name, 0, props, [], VersionedDocument(ParentsIn(folder), [], None))))
  {
    StoreObjectEnters(st, st.acls, Obj(docId, name, 0, props, [], VersionedDocument(ParentsIn(folder), [], None)));
    assert st.(acls := st.acls) == st;
    StoreObject(st, Obj(docId, name, 0, props, [], VersionedDocument(ParentsIn(folder), [], None)))
  }

  /** The shell completed and its first version stored. */
  function AttachFirstVersion(st1: Store, doc: Obj, t: AclEngine.AclTable, v: Obj): (r: Store)
    requires Valid(st1) && doc.id in st1.heap && doc.id in st1.index
    requires st1.heap[doc.id].kind.VersionedDocument? && doc.kind.VersionedDocument?
    requires st1.heap[doc.id].kind.parents == doc.kind.parents && doc.id == st1.heap[doc.id].id
    requires AclEngine.Valid(t) && AclEngine.Seeded(t)
    requires v.kind.Version? && !IsPathKey(v.id) && v.id != doc.id
    ensures Valid(r) && r.acls == t && Lookup(r, doc.id) == Some(doc) && Lookup(r, v.id) == Some(v)
    ensures r.index == st1.index[v.id := v.id]
  {
    var st2 := CompleteShell(st1, doc, t);
    StoreUnfiled(st2, v);
    StoreObject(st2, v)
  }

  /** The shell is entered under the keys the completed document would have
      been stored under: its path reads only its name and folder. */
  lemma ShellKeysAreDocKeys(st: Store, shell: Obj, doc: Obj)
    requires Valid(st) && !IsPathKey(doc.id) && NoPathParents(doc.kind) && NoPathParents(shell.kind)
    requires shell.id == doc.id
    requires shell.kind.VersionedDocument? && doc.kind.VersionedDocument?
    requires shell.kind.parents == doc.kind.parents && shell.name == doc.name
    ensures EntryKeys(st, shell) == EntryKeys(st, doc)
  {
    var a := PutById(st, shell);
    var b := PutById(st, doc);
    SameFolderRecords(a, b);
    PathOfSameFolders(a, b, shell, doc);
  }

  /** Entering one more id after `keys` enters both. */
  lemma EntersOneMore(st: Store, st1: Store, keys: set<string>, st2: Store, id: string)
    requires Enters(st, st1, keys) && id !in st.index && id !in keys
    requires st2.index == st1.index[id := id]
    ensures Enters(st, st2, keys + {id})
  {
  }

  /** Storing the shell, completing it and storing its first version enters
      the keys the completed document would have been stored under, and the
      version's id. */
  lemma ShellEntersDocKeys(st: Store, name: string, props: Properties, folder: Option<Obj>, doc: Obj,
                           t: AclEngine.AclTable, v: Obj)
    requires Valid(st) && IsStoredFolder(st, folder) && IsFreshId(st, doc.id) && IsFreshId(st, v.id)
    requires doc.kind.VersionedDocument? && doc.kind.parents == ParentsIn(folder) && doc.name == name
    requires AclEngine.Valid(t) && AclEngine.Seeded(t)
    requires v.kind.Version? && v.id != doc.id
    ensures var st1 := StoreShell(st, name, props, folder, doc.id);
            Enters(st, AttachFirstVersion(st1, doc, t, v), EntryKeys(st, doc) + {v.id})
  {
    var shell := Obj(doc.id, name, 0, props, [], VersionedDocument(ParentsIn(folder), [], None));
    ShellKeysAreDocKeys(st, shell, doc);
    var st1 := StoreShell(st, name, props, folder, doc.id);
    assert v.id !in st.index;
    EntersOneMore(st, st1, EntryKeys(st, doc), AttachFirstVersion(st1, doc, t, v), v.id);
  }

  /** The success path of createVersionedDocument. */
  function StoreVersioned(st: Store, name: string, props: Properties, folder: Option<Obj>,
                          policies: Option<seq<string>>, add: Option<seq<AclEngine.Ace>>,
                          remove: Option<seq<AclEngine.Ace>>, docId: string, versionId: string): (r: Store)
    requires Valid(st) && IsStoredFolder(st, folder) && IsFreshId(st, docId) && IsFreshId(st, versionId)
    requires docId != versionId
    ensures var h := AclEngine.GetAclId(st.acls, FolderAcl(folder), add, remove).1;
            && Valid(r)
            && Lookup(r, docId) == Some(FirstVersionDoc(name, props, folder, policies, h, docId, versionId))
            && Lookup(r, versionId) == Some(FirstVersion(name, props, h, docId, versionId))
    ensures r.acls == AclEngine.GetAclId(st.acls, FolderAcl(folder), add, remove).0
    ensures var h := AclEngine.GetAclId(st.acls, FolderAcl(folder), add, remove).1;
            Enters(st, r, EntryKeys(st, FirstVersionDoc(name, props, folder, policies, h, docId, versionId)) + {versionId})
  {
    var st1 := StoreShell(st, name, props, folder, docId);
    var (t, h) := AclEngine.GetAclId(st.acls, FolderAcl(folder), add, remove);
    var doc := FirstVersionDoc(name, props, folder, policies, h, docId, versionId);
    var st2 := AttachFirstVersion(st1, doc, t, FirstVersion(name, props, h, docId, versionId));
    ShellEntersDocKeys(st, name, props, folder, doc, t, FirstVersion(name, props, h, docId, versionId));
    assert st2.heap[docId] == doc;
    ApplyAclAgainIsNoOp(st2, docId, st.acls, FolderAcl(folder), add, remove);
    ApplyAcl(st2, docId, add, remove)
  }

  /** createVersionedDocument: the versioned document is stored first, then its
      first version; the result is the version, which shares the document's
      name and handle. */
  function CreateVersionedDocument(st: Store, name: string, props: Properties, folder: Option<Obj>,
                                   policies: Option<seq<string>>, add: Option<seq<AclEngine.Ace>>,
                                   remove: Option<seq<AclEngine.Ace>>, docId: string, versionId: string)
    : (r: Result<(Store, Obj), CmisError>)
    requires Valid(st) && IsStoredFolder(st, folder) && IsFreshId(st, docId) && IsFreshId(st, versionId)
    requires docId != versionId
    ensures r.Failure? <==> folder.Some? && HasChild(st, folder.value.id, name)
    ensures r.Failure? ==> r.error == NameConstraintViolation
    ensures r.Success? ==>
      var (st', v) := r.value;
      && Valid(st') && v.id == versionId && v.kind == Version(docId) && v.name == name
      && Lookup(st', versionId) == Some(v)
      && Lookup(st', docId).Some?
      && Lookup(st', docId).value.kind == VersionedDocument(ParentsIn(folder), [versionId], None)
      && Lookup(st', docId).value.aclId == v.aclId == AclEngine.GetAclId(st.acls, FolderAcl(folder), add, remove).1
      && st'.acls == AclEngine.GetAclId(st.acls, FolderAcl(folder), add, remove).0
      && Enters(st, st', EntryKeys(st, Lookup(st', docId).value) + {versionId})
  {
    if folder.Some? && HasChild(st, folder.value.id, name) then Failure(NameConstraintViolation)
    else
      var h := AclEngine.GetAclId(st.acls, FolderAcl(folder), add, remove).1;
      var st' := StoreVersioned(st, name, props, folder, policies, add, remove, docId, versionId);
      Success((st', FirstVersion(name, props, h, docId, versionId)))
  }

  /** After createVersionedDocument the name is taken in the folder. */
  lemma CreateVersionedDocumentTakesName(st: Store, name: string, props: Properties, folder: Obj,
                                         policies: Option<seq<string>>, add: Option<seq<AclEngine.Ace>>,
                                         remove: Option<seq<AclEngine.Ace>>, docId: string, versionId: string,
                                         st1: Store, v: Obj)
    requires Valid(st) && IsStoredFolder(st, Some(folder)) && IsFreshId(st, docId) && IsFreshId(st, versionId)
    requires docId != versionId
    requires CreateVersionedDocument(st, name, props, Some(folder), policies, add, remove, docId, versionId)
             == Success((st1, v))
    ensures HasChild(st1, folder.id, name)
  {
    assert st1.heap[versionId] == v;
    VersionNameTaken(st1, Lookup(st1, docId).value, v, folder);
  }

  /** A live versioned document with a last version is listed under that
      version's name. */
  lemma VersionedDocumentIsChild(st: Store, doc: Obj, folderId: string)
    requires Lookup(st, doc.id) == Some(doc) && doc.kind.VersionedDocument? && folderId in doc.kind.parents
    requires doc.kind.pwc.None? && |doc.kind.versions| > 0
    requires doc.kind.versions[|doc.kind.versions| - 1] in st.heap
    ensures HasChild(st, folderId, st.heap[doc.kind.versions[|doc.kind.versions| - 1]].name)
  {
    assert Entry(st, doc.id, folderId, None, false) == Some(st.heap[doc.kind.versions[|doc.kind.versions| - 1]]);
    assert NamedEntry(st, doc.id, folderId, st.heap[doc.kind.versions[|doc.kind.versions| - 1]].name);
  }

  /** The path a child called `name` of `parent` has. */
  function ChildPath(st: Store, parent: Obj, name: string): Option<string> {
    InsertPathSegment(st, parent.id, PathSeparator + name, Fuel(st))
  }

  /** createFolder: a null parent is refused; when the parent already has a
      child of that name, the object at that child's path is returned (None
      when nothing is there, a failure when it is not a folder) and nothing is
      created; otherwise a new folder is stored. */
  function CreateFolder(st: Store, name: string, props: Option<Properties>, parent: Option<Obj>,
                        policies: Option<seq<string>>, add: Option<seq<AclEngine.Ace>>,
                        remove: Option<seq<AclEngine.Ace>>, newId: string)
    : (r: Result<(Store, Option<Obj>), CmisError>)
    requires Valid(st) && IsStoredFolder(st, parent) && IsFreshId(st, newId)
    ensures parent.None? ==> r == Failure(InvalidArgument)
    ensures parent.Some? && HasChild(st, parent.value.id, name) ==>
      match ChildPath(st, parent.value, name)
      case None => r == Failure(RuntimeFailure)
      case Some(p) =>
        match GetObjectByPath(st, p)
        case None => r == Success((st, None))
        case Some(o) => r == (if o.kind.Folder? then Success((st, Some(o))) else Failure(RuntimeFailure))
    ensures parent.Some? && !HasChild(st, parent.value.id, name) ==>
      r.Success? &&
      var (st', f) := r.value;
      && f.Some? && Valid(st') && f.value.id == newId && f.value.name == name
      && f.value.kind == Folder(Some(parent.value.id))
      && f.value.aclId == AclEngine.GetAclId(st.acls, Some(parent.value.aclId), add, remove).1
      && Lookup(st', newId) == f
      && st'.heap == st.heap[newId := f.value]
      && st'.acls == AclEngine.GetAclId(st.acls, Some(parent.value.aclId), add, remove).0
      && Enters(st, st', EntryKeys(st, f.value))
  {
    if parent.None? then Failure(InvalidArgument)
    else if HasChild(st, parent.value.id, name) then
      match ChildPath(st, parent.value, name)
      case None => Failure(RuntimeFailure)
      case Some(p) =>
        match GetObjectByPath(st, p)
        case None => Success((st, None))
        case Some(o) => if o.kind.Folder? then Success((st, Some(o))) else Failure(RuntimeFailure)
    else
      var h := AclEngine.GetAclId(st.acls, Some(parent.value.aclId), add, remove).1;
      var f := Obj(newId, name, h, props.GetOr(map[]), policies.GetOr([]), Folder(Some(parent.value.id)));
      var st' := StoreNew(st, f, parent, add, remove);
      Success((st', Some(f)))
  }

  /** A folder createFolder stores takes its name in the parent. */
  lemma CreateFolderTakesName(st: Store, name: string, props: Option<Properties>, parent: Obj,
                              policies: Option<seq<string>>, add: Option<seq<AclEngine.Ace>>,
                              remove: Option<seq<AclEngine.Ace>>, newId: string)
    requires Valid(st) && IsStoredFolder(st, Some(parent)) && IsFreshId(st, newId)
    ensures var r := CreateFolder(st, name, props, Some(parent), policies, add, remove, newId);
            r.Success? ==> HasChild(r.value.0, parent.id, name)
  {
    var r := CreateFolder(st, name, props, Some(parent), policies, add, remove, newId);
    if r.Success? {
      if HasChild(st, parent.id, name) {
        assert r.value.0 == st;
      } else {
        LiveObjectIsChild(r.value.0, r.value.1.value, parent.id);
      }
    }
  }

  /** A child with a name has a path other than the root's. */
  lemma ChildPathIsNotRoot(st: Store, parent: Obj, name: string)
    requires |name| > 0 && ChildPath(st, parent, name).Some?
    ensures ChildPath(st, parent, name).value != PathSeparator
  {
    var p := ChildPath(st, parent, name).value;
    assert p[|p| - |PathSeparator + name|..] == PathSeparator + name;
  }

  /** Storing a new object leaves the path a child would have unchanged. */
  lemma NewObjectKeepsChildPath(st: Store, t: AclEngine.AclTable, parent: Obj, o: Obj, name: string)
    requires Valid(st) && AclEngine.Valid(t) && AclEngine.Seeded(t) && IsStoredFolder(st, Some(parent))
    requires IsFreshId(st, o.id) && NoPathParents(o.kind)
    requires ChildPath(st, parent, name).Some?
    ensures ChildPath(StoreObject(st.(acls := t), o), parent, name) == ChildPath(st, parent, name)
  {
    StoreKeepsPaths(st, t, o, parent.id, PathSeparator + name);
  }

  /** The folder createFolder stores is reached under the path of a child of
      that name. */
  lemma NewFolderAtChildPath(st: Store, t: AclEngine.AclTable, parent: Obj, f: Obj)
    requires Valid(st) && AclEngine.Valid(t) && AclEngine.Seeded(t) && IsStoredFolder(st, Some(parent))
    requires IsFreshId(st, f.id) && f.kind == Folder(Some(parent.id))
    requires ChildPath(StoreObject(st.(acls := t), f), parent, f.name).Some?
    ensures Lookup(StoreObject(st.(acls := t), f), ChildPath(StoreObject(st.(acls := t), f), parent, f.name).value)
            == Some(f)
  {
    assert PathOf(StoreObject(st.(acls := t), f), f) == ChildPath(StoreObject(st.(acls := t), f), parent, f.name);
  }

  /** The folder createFolder stores takes its name in the parent. */
  lemma NewFolderTakesName(st: Store, t: AclEngine.AclTable, parent: Obj, f: Obj)
    requires Valid(st) && AclEngine.Valid(t) && AclEngine.Seeded(t) && IsStoredFolder(st, Some(parent))
    requires IsFreshId(st, f.id) && f.kind == Folder(Some(parent.id))
    ensures HasChild(StoreObject(st.(acls := t), f), parent.id, f.name)
  {
    LiveObjectIsChild(StoreObject(st.(acls := t), f), f, parent.id);
  }

  /** Storing a new object leaves a stored folder stored. */
  lemma NewObjectKeepsFolder(st: Store, t: AclEngine.AclTable, folder: Obj, o: Obj)
    requires Valid(st) && AclEngine.Valid(t) && AclEngine.Seeded(t) && IsStoredFolder(st, Some(folder))
    requires IsFreshId(st, o.id) && NoPathParents(o.kind)
    ensures IsStoredFolder(StoreObject(st.(acls := t), o), Some(folder))
  {
  }

  /** When the name is taken and its path reaches a folder, createFolder
      returns that folder and changes nothing. */
  lemma CreateFolderFindsFolder(st: Store, name: string, props: Option<Properties>, parent: Obj,
                                policies: Option<seq<string>>, add: Option<seq<AclEngine.Ace>>,
                                remove: Option<seq<AclEngine.Ace>>, newId: string, f: Obj)
    requires Valid(st) && IsStoredFolder(st, Some(parent)) && IsFreshId(st, newId)
    requires HasChild(st, parent.id, name) && ChildPath(st, parent, name).Some?
    requires ChildPath(st, parent, name).value != PathSeparator
    requires Lookup(st, ChildPath(st, parent, name).value) == Some(f) && f.kind.Folder?
    ensures CreateFolder(st, name, props, Some(parent), policies, add, remove, newId) == Success((st, Some(f)))
  {
  }

  /** createFolder is idempotent: asking again for a folder of the same
      (non-empty) name in the same parent returns the folder the first call
      created, and changes nothing. */
  lemma CreateFolderTwiceReturnsFirst(st: Store, name: string, props: Option<Properties>, parent: Obj,
                                      policies: Option<seq<string>>, add: Option<seq<AclEngine.Ace>>,
                                      remove: Option<seq<AclEngine.Ace>>, id1: string, id2: string,
                                      st1: Store, f1: Option<Obj>)
    requires Valid(st) && IsStoredFolder(st, Some(parent)) && IsFreshId(st, id1)
    requires !HasChild(st, parent.id, name) && |name| > 0
    requires ChildPath(st, parent, name).Some?
    requires CreateFolder(st, name, props, Some(parent), policies, add, remove, id1) == Success((st1, f1))
    requires IsFreshId(st1, id2)
    ensures Valid(st1) && IsStoredFolder(st1, Some(parent))
    ensures CreateFolder(st1, name, props, Some(parent), policies, add, remove, id2) == Success((st1, f1))
  {
    var t := AclEngine.GetAclId(st.acls, Some(parent.aclId), add, remove).0;
    assert st1 == StoreObject(st.(acls := t), f1.value);
    NewObjectKeepsChildPath(st, t, parent, f1.value, name);
    ChildPathIsNotRoot(st1, parent, name);
    NewFolderAtChildPath(st, t, parent, f1.value);
    NewFolderTakesName(st, t, parent, f1.value);
    NewObjectKeepsFolder(st, t, parent, f1.value);
    CreateFolderFindsFolder(st1, name, props, parent, policies, add, remove, id2, f1.value);
  }
}

=== FILE: store_update.dfy ===
/** updateObject: a map of new property values merged into an object's
    properties. A missing or empty value deletes the property, any other
    value replaces it, and the secondary-type list is never kept among the
    stored properties. */
module PropertyUpdate {
  import opened Wrappers
  import opened StoredObjects
  import opened ObjectStore
  import opened StoreOps

  /** A new value, as the caller hands it in: `None` stands for a null
      property or a property whose value list is null. */
  type NewValue = Option<seq<string>>

  /** A value that sets the property: present and with a first value. */
  predicate Sets(v: NewValue) {
    v.Some? && |v.value| > 0
  }

  /** The reference definition of the merge: every key but the secondary-type
      list that the update sets, with its new value; every key the update does
      not mention, with its old value. */
  function Merged(props: Properties, newProps: map<string, NewValue>): (r: Properties)
    ensures SecondaryTypesProperty !in r
    ensures forall k :: k in newProps && k != SecondaryTypesProperty ==>
              (k in r <==> Sets(newProps[k])) && (k in r ==> r[k] == newProps[k].value)
    ensures forall k :: k !in newProps && k != SecondaryTypesProperty ==>
              (k in r <==> k in props) && (k in r ==> r[k] == props[k])
  {
    map k | k in props.Keys + newProps.Keys && k != SecondaryTypesProperty
                && (k in newProps ==> Sets(newProps[k]))
          :: if k in newProps then newProps[k].value else props[k]
  }

  /** Two property maps that agree on every key are the same map. */
  lemma MergedByPoints(props: Properties, newProps: map<string, NewValue>, r: Properties)
    requires SecondaryTypesProperty !in r
    requires forall k :: k in newProps && k != SecondaryTypesProperty ==>
               (k in r <==> Sets(newProps[k])) && (k in r ==> r[k] == newProps[k].value)
    requires forall k :: k !in newProps && k != SecondaryTypesProperty ==>
               (k in r <==> k in props) && (k in r ==> r[k] == props[k])
    ensures r == Merged(props, newProps)
  {
    var m := Merged(props, newProps);
    assert r.Keys == m.Keys;
  }

  /** The loop of updateObject over the new properties, in whatever order the
      map yields them: the secondary-type list is put even when it is empty,
      a value without a first element deletes its key, any other value is
      put; at the end the secondary-type list is dropped. */
  method UpdateProperties(props: Properties, newProps: map<string, NewValue>) returns (r: Properties)
    ensures r == Merged(props, newProps)
  {
    var work := props;
    var todo := newProps.Keys;
    while todo != {}
      invariant todo <= newProps.Keys
      invariant forall k :: k in newProps && k !in todo && k != SecondaryTypesProperty ==>
                  (k in work <==> Sets(newProps[k])) && (k in work ==> work[k] == newProps[k].value)
      invariant forall k :: (k !in newProps || k in todo) && k != SecondaryTypesProperty ==>
                  (k in work <==> k in props) && (k in work ==> work[k] == props[k])
      decreases |todo|
    {
      var key :| key in todo;
      var value := newProps[key];
      if key == SecondaryTypesProperty {
        work := work[key := value.GetOr([])];
      } else if !Sets(value) {
        work := work - {key};
      } else {
        work := work[key := value.value];
      }
      todo := todo - {key};
    }
    r := work - {SecondaryTypesProperty};
    MergedByPoints(props, newProps, r);
  }

  /** updateObject on the store: the object's record gets the merged
      properties; no key of the map and no other record changes. */
  method UpdateObject(st: Store, so: Obj, newProps: map<string, NewValue>) returns (r: Store)
    requires Valid(st) && IsStored(st, so)
    ensures Valid(r) && r.index == st.index && r.acls == st.acls && r.rootId == st.rootId
    ensures r.heap == st.heap[so.id := so.(props := Merged(so.props, newProps))]
  {
    var props := UpdateProperties(so.props, newProps);
    r := st.(heap := st.heap[so.id := so.(props := props)]);
  }

  /** Applying the same update twice gives what applying it once gives. */
  lemma MergeIdempotent(props: Properties, newProps: map<string, NewValue>)
    ensures Merged(Merged(props, newProps), newProps) == Merged(props, newProps)
  {
    var once := Merged(props, newProps);
    assert Merged(once, newProps).Keys == once.Keys;
  }

  /** An update naming no property only drops the secondary-type list. */
  lemma EmptyUpdateDropsSecondaryTypes(props: Properties)
    ensures Merged(props, map[]) == props - {SecondaryTypesProperty}
  {
  }

  /** An update of one property either sets it or removes it and keeps every
      other property except the secondary-type list. */
  lemma SingleUpdate(props: Properties, key: string, v: NewValue)
    requires key != SecondaryTypesProperty
    ensures Sets(v) ==> Merged(props, map[key := v]) == (props - {SecondaryTypesProperty})[key := v.value]
    ensures !Sets(v) ==> Merged(props, map[key := v]) == props - {SecondaryTypesProperty, key}
  {
  }
}

=== FILE: stored_objects.dfy ===
/** The objects an in-memory repository holds. References to other objects
    (parents, versions, the working copy, relationship ends) are kept as ids,
    as the source keeps them in its parent-id lists. */
module StoredObjects {
  import opened Wrappers

  /** The object variants. A folder has at most one parent (the root has none);
      documents, items and versioned documents may be filed in several folders;
      a version record points back at its versioned document. */
  datatype Kind =
    | Folder(parentId: Option<string>)
    | Document(parents: seq<string>)
    | Item(parents: seq<string>)
    | VersionedDocument(parents: seq<string>, versions: seq<string>, pwc: Option<string>)
    | Version(docId: string)
    | Policy
    | Relationship(source: Option<string>, target: Option<string>)

  /** Property values by property id; a property with no value is absent. */
  type Properties = map<string, seq<string>>

  datatype Obj = Obj(id: string, name: string, aclId: int, props: Properties,
                     policies: seq<string>, kind: Kind)

  /** Objects that live in folders and so have a path. */
  predicate IsFileable(k: Kind) {
    k.Folder? || k.Document? || k.Item? || k.VersionedDocument?
  }

  /** Objects that may be filed in several folders at once. */
  predicate IsMultiFiling(k: Kind) {
    k.Document? || k.Item? || k.VersionedDocument?
  }

  /** The ids of the folders an object is filed in. */
  function ParentIds(k: Kind): seq<string> {
    match k
    case Folder(p) => if p.Some? then [p.value] else []
    case Document(ps) => ps
    case Item(ps) => ps
    case VersionedDocument(ps, _, _) => ps
    case _ => []
  }

  /** The same multi-filed object with another parent list. */
  function WithParents(k: Kind, parents: seq<string>): (r: Kind)
    requires IsMultiFiling(k)
    ensures IsMultiFiling(r) && ParentIds(r) == parents
  {
    match k
    case Document(_) => Document(parents)
    case Item(_) => Item(parents)
    case VersionedDocument(_, vs, pwc) => VersionedDocument(parents, vs, pwc)
  }

  /** Removal of the first occurrence of `x`, as a list's remove-by-value does. */
  function RemoveFirst<T(==)>(s: seq<T>, x: T): (r: seq<T>)
    ensures x !in s ==> r == s
    ensures multiset(r) == multiset(s) - multiset{x}
  {
    if |s| == 0 then []
    else
      assert s == [s[0]] + s[1..];
      if s[0] == x then s[1..] else [s[0]] + RemoveFirst(s[1..], x)
  }

  /** The position of the first occurrence of `x`. */
  function FirstIndex<T(==)>(s: seq<T>, x: T): (i: nat)
    requires x in s
    ensures i < |s| && s[i] == x && x !in s[..i]
  {
    if s[0] == x then 0
    else
      var j := FirstIndex(s[1..], x);
      assert s[..j+1] == [s[0]] + s[1..][..j];
      j + 1
  }

  /** Cutting position `j` out of the tail of `s` cuts position `j + 1` out of `s`. */
  lemma ConsCut<T>(s: seq<T>, j: nat)
    requires j + 1 < |s|
    ensures [s[0]] + (s[1..][..j] + s[1..][j+1..]) == s[..j+1] + s[j+2..]
  {
    assert s[..j+1] == [s[0]] + s[1..][..j];
    assert s[j+2..] == s[1..][j+1..];
  }

  /** What is removed is the first occurrence: the part before it is kept and
      the part after it closes up. */
  lemma {:induction false} RemoveFirstCutsFirstOccurrence<T>(s: seq<T>, x: T)
    requires x in s
    ensures RemoveFirst(s, x) == s[..FirstIndex(s, x)] + s[FirstIndex(s, x) + 1..]
  {
    if s[0] != x {
      RemoveFirstCutsFirstOccurrence(s[1..], x);
      ConsCut(s, FirstIndex(s[1..], x));
    }
  }
}

=== FILE: type_checks.dfy ===
/** The rules a type definition must follow when it is created or updated:
    which property types may be created, which type attributes may change,
    how an existing property definition may change, and which policies may be
    applied. */
module TypeChecks {
  import opened Wrappers
  import opened CmisErrors

  datatype PropertyType = BooleanType | IdType | IntegerType | DateTimeType | DecimalType | HtmlType | StringType | UriType

  datatype Cardinality = Single | Multi

  datatype BaseType = DocumentBase | FolderBase | RelationshipBase | PolicyBase | ItemBase | SecondaryBase

  /** One entry of a choice list: its values (nested choices are not looked at). */
  datatype Choice = Choice(values: seq<string>)

  /** A property definition. The bounds are read according to the property
      type: `minValue`/`maxValue` for decimal and integer properties (an
      integer bound is a whole number), `maxLength` for string properties. */
  datatype PropDef = PropDef(
    id: string, propertyType: PropertyType, cardinality: Cardinality,
    inherited: bool, required: bool, openChoice: bool, choices: Option<seq<Choice>>,
    minValue: Option<real>, maxValue: Option<real>, maxLength: Option<int>,
    defaultValue: Option<seq<string>>)

  // ---------------------------------------------------------------------
  // Creatable property types

  /** A definition a new type may carry: a creatable property type, and a
      default value when the property is required. */
  predicate IsCreatable(creatable: set<PropertyType>, d: PropDef) {
    d.propertyType in creatable && (d.required ==> d.defaultValue.Some?)
  }

  /** checkCreatablePropertyTypes: the definitions in turn; the first one that
      is not creatable is a constraint violation. */
  function CheckCreatablePropertyTypes(creatable: set<PropertyType>, defs: seq<PropDef>): (r: Outcome<CmisError>)
    ensures r.Pass? <==> forall i :: 0 <= i < |defs| ==> IsCreatable(creatable, defs[i])
    ensures r.Fail? ==> r.error == ConstraintViolation
  {
    if |defs| == 0 then Pass
    else if defs[0].propertyType !in creatable then Fail(ConstraintViolation)
    else if defs[0].required && defs[0].defaultValue.None? then Fail(ConstraintViolation)
    else
      var r := CheckCreatablePropertyTypes(creatable, defs[1..]);
      assert forall i :: 1 <= i < |defs| ==> defs[i] == defs[1..][i - 1];
      r
  }

  /** The order in which the definitions come does not matter. */
  lemma CreatableOrderIrrelevant(creatable: set<PropertyType>, a: seq<PropDef>, b: seq<PropDef>)
    requires multiset(a) == multiset(b)
    ensures CheckCreatablePropertyTypes(creatable, a) == CheckCreatablePropertyTypes(creatable, b)
  {
    forall i | 0 <= i < |a| ensures a[i] in b {
      assert a[i] in multiset(a);
    }
    forall i | 0 <= i < |b| ensures b[i] in a {
      assert b[i] in multiset(b);
    }
  }

  // ---------------------------------------------------------------------
  // Settable type attributes

  /** A type definition, reduced to what the update checks compare. */
  datatype TypeDef = TypeDef(
    id: string, baseTypeId: BaseType,
    controllableAcl: bool, controllablePolicy: bool, creatable: bool,
    description: Option<string>, displayName: Option<string>,
    fileable: bool, fulltextIndexed: bool, includedInSupertypeQuery: bool,
    localName: Option<string>, localNamespace: Option<string>,
    queryable: bool, queryName: Option<string>)

  /** The type attributes a repository may let a client set. */
  datatype Attribute =
    | ControllableAcl | ControllablePolicy | Creatable | Description | DisplayName
    | Fileable | FulltextIndexed | Id | IncludedInSupertypeQuery | LocalName
    | LocalNamespace | Queryable | QueryName

  /** The repository capability: one flag per attribute. */
  datatype Settable = Settable(
    controllableAcl: bool, controllablePolicy: bool, creatable: bool,
    description: bool, displayName: bool, fileable: bool, fulltextIndexed: bool,
    id: bool, includedInSupertypeQuery: bool, localName: bool,
    localNamespace: bool, queryable: bool, queryName: bool)

  function CanSet(s: Settable, a: Attribute): bool {
    match a
    case ControllableAcl => s.controllableAcl
    case ControllablePolicy => s.controllablePolicy
    case Creatable => s.creatable
    case Description => s.description
    case DisplayName => s.displayName
    case Fileable => s.fileable
    case FulltextIndexed => s.fulltextIndexed
    case Id => s.id
    case IncludedInSupertypeQuery => s.includedInSupertypeQuery
    case LocalName => s.localName
    case LocalNamespace => s.localNamespace
    case Queryable => s.queryable
    case QueryName => s.queryName
  }

  /** The two definitions differ in the attribute. */
  function Differs(o: TypeDef, n: TypeDef, a: Attribute): bool {
    match a
    case ControllableAcl => o.controllableAcl != n.controllableAcl
    case ControllablePolicy => o.controllablePolicy != n.controllablePolicy
    case Creatable => o.creatable != n.creatable
    case Description => o.description != n.description
    case DisplayName => o.displayName != n.displayName
    case Fileable => o.fileable != n.fileable
    case FulltextIndexed => o.fulltextIndexed != n.fulltextIndexed
    case Id => o.id != n.id
    case IncludedInSupertypeQuery => o.includedInSupertypeQuery != n.includedInSupertypeQuery
    case LocalName => o.localName != n.localName
    case LocalNamespace => o.localNamespace != n.localNamespace
    case Queryable => o.queryable != n.queryable
    case QueryName => o.queryName != n.queryName
  }

  /** The attributes in the order checkSettableAttributes goes through them. */
  const AttributeOrder: seq<Attribute> :=
    [ControllableAcl, ControllablePolicy, Creatable, Description, DisplayName, Fileable,
     FulltextIndexed, Id, IncludedInSupertypeQuery, LocalName, LocalNamespace, Queryable, QueryName]

  lemma AttributeOrderComplete(a: Attribute)
    ensures a in AttributeOrder
  {
  }

  /** Every attribute the update changes may be set. */
  predicate ChangesAreSettable(s: Settable, o: TypeDef, n: TypeDef) {
    forall a: Attribute :: Differs(o, n, a) ==> CanSet(s, a)
  }

  /** The attributes in `attrs`, in turn: the first one that may not be set but
      differs is a constraint violation. */
  function CheckAttributes(s: Settable, o: TypeDef, n: TypeDef, attrs: seq<Attribute>): (r: Outcome<CmisError>)
    ensures r.Pass? <==> forall i :: 0 <= i < |attrs| ==> (Differs(o, n, attrs[i]) ==> CanSet(s, attrs[i]))
    ensures r.Fail? ==> r.error == ConstraintViolation
  {
    if |attrs| == 0 then Pass
    else if !CanSet(s, attrs[0]) && Differs(o, n, attrs[0]) then Fail(ConstraintViolation)
    else
      var r := CheckAttributes(s, o, n, attrs[1..]);
      assert forall i :: 1 <= i < |attrs| ==> attrs[i] == attrs[1..][i - 1];
      r
  }

  /** Going through the attributes in the source's order checks them all. */
  lemma OrderedCheckIsRule(s: Settable, o: TypeDef, n: TypeDef)
    ensures CheckAttributes(s, o, n, AttributeOrder).Pass? <==> ChangesAreSettable(s, o, n)
  {
    if CheckAttributes(s, o, n, AttributeOrder).Pass? {
      forall a: Attribute | Differs(o, n, a) ensures CanSet(s, a) {
        AttributeOrderComplete(a);
        var i :| 0 <= i < |AttributeOrder| && AttributeOrder[i] == a;
      }
    }
  }

  /** Every flag set: nothing is restricted. */
  predicate AllSettable(s: Settable) {
    forall a: Attribute :: CanSet(s, a)
  }

  /** checkSettableAttributes: no capability or every flag set means no
      restriction; otherwise each attribute that may not be set must be the
      same in the old and the new definition. */
  function CheckSettableAttributes(settable: Option<Settable>, o: TypeDef, n: TypeDef): (r: Outcome<CmisError>)
    ensures r.Pass? <==> settable.None? || ChangesAreSettable(settable.value, o, n)
    ensures r.Fail? ==> r.error == ConstraintViolation
  {
    if settable.None? then Pass
    else
      var s := settable.value;
      if AllSettable(s) then Pass
      else
        OrderedCheckIsRule(s, o, n);
        CheckAttributes(s, o, n, AttributeOrder)
  }

  /** Leaving a type as it is never breaks the settable-attribute rule. */
  lemma UnchangedTypeAlwaysSettable(settable: Option<Settable>, t: TypeDef)
    ensures CheckSettableAttributes(settable, t, t) == Pass
  {
  }

  // ---------------------------------------------------------------------
  // Updating a type: the type itself

  /** checkUpdateType: the type to update must keep its id and base type. */
  function CheckUpdateType(updateType: TypeDef, t: TypeDef): (r: Outcome<CmisError>)
    ensures r.Fail? ==> r.error == ConstraintViolation
    ensures r.Pass? ==> updateType.id == t.id && updateType.baseTypeId == t.baseTypeId
  {
    if updateType.id != t.id then Fail(ConstraintViolation)
    else if updateType.baseTypeId != t.baseTypeId then Fail(ConstraintViolation)
    else Pass
  }

  /** checkUpdateType is symmetric, and passes for a type against any update that
      keeps its id and base type, whatever else changes. */
  lemma CheckUpdateTypeSymmetric(a: TypeDef, b: TypeDef)
    ensures CheckUpdateType(a, b) == CheckUpdateType(b, a)
    ensures a.id == b.id && a.baseTypeId == b.baseTypeId ==> CheckUpdateType(a, b) == Pass
  {
  }

  // ---------------------------------------------------------------------
  // Updating a type: its property definitions

  /** Each value of the old choice is among the new choice's values. */
  predicate ChoiceWidens(a: Choice, b: Choice) {
    forall v :: v in a.values ==> v in b.values
  }

  /** The new choice list keeps every old choice at its position, with at
      least the old values. */
  predicate ChoicesWiden(olds: seq<Choice>, news: seq<Choice>) {
    |olds| <= |news| && forall i :: 0 <= i < |olds| ==> ChoiceWidens(olds[i], news[i])
  }

  /** The choice comparison: the old choices in turn, each against the next
      new one; running out of new choices is an iterator failure, an old value
      missing from its new choice a constraint violation. */
  function CheckChoices(olds: seq<Choice>, news: seq<Choice>): (r: Outcome<CmisError>)
    ensures r.Pass? <==> ChoicesWiden(olds, news)
    ensures r == Fail(RuntimeFailure) ==> |news| < |olds|
    ensures r.Fail? ==> r.error == RuntimeFailure || r.error == ConstraintViolation
  {
    if |olds| == 0 then Pass
    else if |news| == 0 then Fail(RuntimeFailure)
    else if !ChoiceWidens(olds[0], news[0]) then Fail(ConstraintViolation)
    else
      var r := CheckChoices(olds[1..], news[1..]);
      assert forall i :: 1 <= i < |olds| ==> olds[i] == olds[1..][i - 1];
      assert forall i :: 1 <= i < |news| ==> news[i] == news[1..][i - 1];
      r
  }

  /** Properties whose definitions carry numeric bounds. */
  predicate IsNumeric(t: PropertyType) {
    t == DecimalType || t == IntegerType
  }

  /** A lower bound may only go down, and only if there was one. */
  predicate MinWidens(o: Option<real>, n: Option<real>) {
    n.Some? ==> o.Some? && n.value <= o.value
  }

  /** An upper bound may only go up, and only if there was one. */
  predicate MaxWidens(o: Option<real>, n: Option<real>) {
    n.Some? ==> o.Some? && n.value >= o.value
  }

  predicate LengthWidens(o: Option<int>, n: Option<int>) {
    n.Some? ==> o.Some? && n.value >= o.value
  }

  /** The bounds the old definition's kind carries may only widen. */
  predicate BoundsWiden(o: PropDef, n: PropDef) {
    && (IsNumeric(o.propertyType) ==> MinWidens(o.minValue, n.minValue) && MaxWidens(o.maxValue, n.maxValue))
    && (o.propertyType == StringType ==> LengthWidens(o.maxLength, n.maxLength))
  }

  /** The reference rule for changing one property definition. */
  predicate UpdateAllowed(o: PropDef, n: PropDef) {
    && !o.inherited
    && (n.required ==> o.required)
    && o.propertyType == n.propertyType
    && o.cardinality == n.cardinality
    && (o.openChoice ==> n.openChoice)
    && (!o.openChoice ==> o.choices.Some? && n.choices.Some? && ChoicesWiden(o.choices.value, n.choices.value))
    && BoundsWiden(o, n)
  }

  /** The checks on the restrictions, by the kind of the old definition. */
  function CheckBounds(o: PropDef, n: PropDef): (r: Outcome<CmisError>)
    ensures r.Pass? <==> BoundsWiden(o, n)
    ensures r.Fail? ==> r.error == ConstraintViolation
  {
    if IsNumeric(o.propertyType) && n.minValue.Some? && (o.minValue.None? || n.minValue.value > o.minValue.value) then
      Fail(ConstraintViolation)
    else if IsNumeric(o.propertyType) && n.maxValue.Some? && (o.maxValue.None? || n.maxValue.value < o.maxValue.value) then
      Fail(ConstraintViolation)
    else if o.propertyType == StringType && n.maxLength.Some? && (o.maxLength.None? || n.maxLength.value < o.maxLength.value) then
      Fail(ConstraintViolation)
    else Pass
  }

  /** The checks on one property that has an old definition, in the order
      the source makes them. */
  function CheckPropertyUpdate(o: PropDef, n: PropDef): (r: Outcome<CmisError>)
    ensures r.Pass? <==> UpdateAllowed(o, n)
    ensures r.Fail? ==> r.error == ConstraintViolation || r.error == RuntimeFailure
    ensures r == Fail(RuntimeFailure) ==>
              && !o.openChoice && o.choices.Some? && n.choices.Some?
              && |n.choices.value| < |o.choices.value|
  {
    if o.inherited then Fail(ConstraintViolation)
    else if !o.required && n.required then Fail(ConstraintViolation)
    else if o.propertyType != n.propertyType then Fail(ConstraintViolation)
    else if o.cardinality != n.cardinality then Fail(ConstraintViolation)
    else if o.openChoice && !n.openChoice then Fail(ConstraintViolation)
    else if !o.openChoice && o.choices.None? then Fail(ConstraintViolation)
    else if !o.openChoice && n.choices.None? then Fail(ConstraintViolation)
    else if !o.openChoice && CheckChoices(o.choices.value, n.choices.value).Fail? then
      CheckChoices(o.choices.value, n.choices.value)
    else CheckBounds(o, n)
  }

  /** A definition updated to itself passes exactly when it is not inherited
      and, if its choice is closed, it has choices. */
  lemma UpdateToSelf(d: PropDef)
    ensures UpdateAllowed(d, d) <==> !d.inherited && (d.openChoice || d.choices.Some?)
  {
  }

  /** The check of one new definition as the source writes it: the old
      definition under the new one's id is dereferenced whether or not it
      exists, so a property that is new to the type fails. */
  function CheckNewDefinitionAsWritten(oldDefs: map<string, PropDef>, n: PropDef): (r: Outcome<CmisError>)
    ensures n.id !in oldDefs ==> r == Fail(RuntimeFailure)
    ensures n.id in oldDefs ==> r == CheckPropertyUpdate(oldDefs[n.id], n)
  {
    if n.id !in oldDefs then Fail(RuntimeFailure) else CheckPropertyUpdate(oldDefs[n.id], n)
  }

  /** The check of one new definition as intended: a property the type did
      not have before is an addition, which none of the change rules
      concern. */
  function CheckNewDefinition(oldDefs: map<string, PropDef>, n: PropDef): (r: Outcome<CmisError>)
    ensures r.Pass? <==> NewDefinitionAllowed(oldDefs, n)
    ensures r.Fail? ==> r.error == ConstraintViolation || r.error == RuntimeFailure
  {
    if n.id !in oldDefs then Pass else CheckPropertyUpdate(oldDefs[n.id], n)
  }

  predicate NewDefinitionAllowed(oldDefs: map<string, PropDef>, n: PropDef) {
    n.id in oldDefs ==> UpdateAllowed(oldDefs[n.id], n)
  }

  /** The reference rule for a whole update: every new definition allowed,
      and no old property dropped. */
  predicate DefinitionsUpdateAllowed(oldDefs: map<string, PropDef>, newDefs: map<string, PropDef>) {
    && (forall k :: k in newDefs ==> NewDefinitionAllowed(oldDefs, newDefs[k]))
    && (forall k :: k in oldDefs ==> oldDefs[k].id in newDefs)
  }

  /** checkUpdatePropertyDefinitions: every new definition against its old
      one, in whatever order the map yields them, then every old definition
      must still be there; the first failure is the outcome. */
  method CheckUpdatePropertyDefinitions(oldDefs: map<string, PropDef>, newDefs: map<string, PropDef>)
    returns (r: Outcome<CmisError>)
    ensures r.Pass? <==> DefinitionsUpdateAllowed(oldDefs, newDefs)
    ensures r.Fail? ==> r.error == ConstraintViolation || r.error == RuntimeFailure
  {
    var todo := newDefs.Keys;
    while todo != {}
      invariant todo <= newDefs.Keys
      invariant forall k :: k in newDefs && k !in todo ==> NewDefinitionAllowed(oldDefs, newDefs[k])
      decreases |todo|
    {
      var k :| k in todo;
      var outcome := CheckNewDefinition(oldDefs, newDefs[k]);
      if outcome.Fail? {
        return outcome;
      }
      todo := todo - {k};
    }
    var olds := oldDefs.Keys;
    while olds != {}
      invariant olds <= oldDefs.Keys
      invariant forall k :: k in oldDefs && k !in olds ==> oldDefs[k].id in newDefs
      decreases |olds|
    {
      var k :| k in olds;
      if oldDefs[k].id !in newDefs {
        return Fail(ConstraintViolation);
      }
      olds := olds - {k};
    }
    return Pass;
  }

  /** Definitions entered under their own ids. */
  predicate KeyedById(defs: map<string, PropDef>) {
    forall k :: k in defs ==> defs[k].id == k
  }

  /** Dropping a property is always refused. */
  lemma RemovedPropertyRefused(oldDefs: map<string, PropDef>, newDefs: map<string, PropDef>, k: string)
    requires KeyedById(oldDefs) && k in oldDefs && k !in newDefs
    ensures !DefinitionsUpdateAllowed(oldDefs, newDefs)
  {
    assert oldDefs[k].id !in newDefs;
  }

  /** Adding a property to definitions that may be kept as they are is
      allowed. */
  lemma AddedPropertyAllowed(oldDefs: map<string, PropDef>, d: PropDef)
    requires KeyedById(oldDefs) && d.id !in oldDefs
    requires DefinitionsUpdateAllowed(oldDefs, oldDefs)
    ensures DefinitionsUpdateAllowed(oldDefs, oldDefs[d.id := d])
  {
    var newDefs := oldDefs[d.id := d];
    forall k | k in newDefs ensures NewDefinitionAllowed(oldDefs, newDefs[k]) {
      if k != d.id {
        assert newDefs[k] == oldDefs[k];
        assert NewDefinitionAllowed(oldDefs, oldDefs[k]);
      }
    }
  }

  /** As written, the same addition is a failure: a type that gains a
      property fails with a null dereference before any rule is applied. */
  lemma AddedPropertyFailsAsWritten(oldDefs: map<string, PropDef>, d: PropDef)
    requires d.id !in oldDefs
    ensures CheckNewDefinitionAsWritten(oldDefs, d) == Fail(RuntimeFailure)
    ensures CheckNewDefinition(oldDefs, d) == Pass
  {
  }

  /** A concrete instance: a type without properties gaining one. */
  lemma EmptyTypeGainsPropertyAsWritten()
    ensures var d := PropDef("p", StringType, Single, false, false, true, None, None, None, None, None);
            && CheckNewDefinitionAsWritten(map[], d) == Fail(RuntimeFailure)
            && DefinitionsUpdateAllowed(map[], map["p" := d])
  {
  }

  // ---------------------------------------------------------------------
  // Policies

  /** checkPolicies: each policy id must name a known type whose base type is
      policy; a null or empty list is not checked. */
  function CheckPolicies(types: map<string, TypeDef>, policyIds: Option<seq<string>>): (r: Outcome<CmisError>)
    ensures r.Pass? <==> policyIds.None? ||
                         forall i :: 0 <= i < |policyIds.value| ==>
                           policyIds.value[i] in types && types[policyIds.value[i]].baseTypeId == PolicyBase
    ensures r.Fail? ==> r.error == InvalidArgument
  {
    if policyIds.None? then Pass else CheckPolicyList(types, policyIds.value)
  }

  function CheckPolicyList(types: map<string, TypeDef>, ids: seq<string>): (r: Outcome<CmisError>)
    ensures r.Pass? <==> forall i :: 0 <= i < |ids| ==> ids[i] in types && types[ids[i]].baseTypeId == PolicyBase
    ensures r.Fail? ==> r.error == InvalidArgument
  {
    if |ids| == 0 then Pass
    else if ids[0] !in types then Fail(InvalidArgument)
    else if types[ids[0]].baseTypeId != PolicyBase then Fail(InvalidArgument)
    else
      var r := CheckPolicyList(types, ids[1..]);
      assert forall i :: 1 <= i < |ids| ==> ids[i] == ids[1..][i - 1];
      r
  }

  /** A list of policies passes exactly when each of its halves does. */
  lemma PoliciesSplit(types: map<string, TypeDef>, a: seq<string>, b: seq<string>)
    ensures CheckPolicyList(types, a + b).Pass? <==>
            CheckPolicyList(types, a).Pass? && CheckPolicyList(types, b).Pass?
  {
    var ab := a + b;
    assert forall i :: 0 <= i < |a| ==> ab[i] == a[i];
    assert forall i :: 0 <= i < |b| ==> ab[|a| + i] == b[i];
  }
}

=== FILE: user_manager.dfy ===
/** The login table of the basic user manager: user names, trimmed when they
    are added, mapped to passwords, and the check a caller's credentials go
    through. */
module UserManager {
  import opened Wrappers
  import opened CmisErrors

  type Logins = map<string, string>

  /** Characters the string trim removes: every code point up to the space. */
  predicate IsTrimmed(c: char) {
    c <= ' '
  }

  /** The string with its leading trimmed characters removed. */
  function TrimStart(s: string): (r: string)
    ensures |r| <= |s| && r == s[|s| - |r|..]
    ensures forall i :: 0 <= i < |s| - |r| ==> IsTrimmed(s[i])
    ensures |r| > 0 ==> !IsTrimmed(r[0])
    decreases |s|
  {
    if |s| > 0 && IsTrimmed(s[0]) then TrimStart(s[1..]) else s
  }

  /** The string with its trailing trimmed characters removed. */
  function TrimEnd(s: string): (r: string)
    ensures |r| <= |s| && r == s[..|r|]
    ensures forall i :: |r| <= i < |s| ==> IsTrimmed(s[i])
    ensures |r| > 0 ==> !IsTrimmed(r[|r| - 1])
    decreases |s|
  {
    if |s| > 0 && IsTrimmed(s[|s| - 1]) then TrimEnd(s[..|s| - 1]) else s
  }

  /** String trim: a slice of the input with no trimmed character at either
      end, everything cut off on both sides being trimmed characters. */
  function Trim(s: string): (r: string)
    ensures exists i, j :: 0 <= i <= j <= |s| && r == s[i..j]
                           && (forall k :: 0 <= k < i ==> IsTrimmed(s[k]))
                           && (forall k :: j <= k < |s| ==> IsTrimmed(s[k]))
    ensures |r| > 0 ==> !IsTrimmed(r[0]) && !IsTrimmed(r[|r| - 1])
  {
    var t := TrimStart(s);
    var r := TrimEnd(t);
    var i := |s| - |t|;
    assert r == s[i..i + |r|];
    r
  }

  /** Trimming a trimmed string changes nothing. */
  lemma TrimIdempotent(s: string)
    ensures Trim(Trim(s)) == Trim(s)
  {
    var t := Trim(s);
    assert TrimStart(t) == t;
    assert TrimEnd(t) == t;
  }

  /** addLogin: a missing name or password leaves the table alone; otherwise
      the trimmed name is entered with the password, replacing any earlier
      entry for it. */
  function AddLogin(logins: Logins, username: Option<string>, password: Option<string>): (r: Logins)
    ensures username.None? || password.None? ==> r == logins
    ensures username.Some? && password.Some? ==>
              Trim(username.value) in r && r[Trim(username.value)] == password.value
              && r.Keys == logins.Keys + {Trim(username.value)}
              && forall u :: u in logins && u != Trim(username.value) ==> r[u] == logins[u]
  {
    if username.None? || password.None? then logins
    else logins[Trim(username.value) := password.value]
  }

  /** The authentication mode a call context carries: absent, "basic", or any
      other mode (a bearer token, say). */
  predicate IsBasicMode(authMode: Option<string>) {
    authMode.None? || authMode.value == "basic"
  }

  /** The private credential check: the name as given (not trimmed) must be
      entered; in basic mode the password must equal the entered one, in any
      other mode a known name suffices. */
  function CheckCredentials(logins: Logins, username: Option<string>, password: Option<string>,
                            authMode: Option<string>): (r: bool)
    ensures r ==> username.Some? && username.value in logins
    ensures r && IsBasicMode(authMode) ==> password == Some(logins[username.value])
    ensures username.Some? && username.value in logins && !IsBasicMode(authMode) ==> r
    ensures username.Some? && username.value in logins && password == Some(logins[username.value]) ==> r
  {
    if username.None? || username.value !in logins then false
    else if IsBasicMode(authMode) then password == Some(logins[username.value])
    else true
  }

  /** The public authenticate: the caller's name back on success, a
      permission denial otherwise. */
  function Authenticate(logins: Logins, username: Option<string>, password: Option<string>,
                        authMode: Option<string>): (r: Result<Option<string>, CmisError>)
    ensures r.Success? <==> CheckCredentials(logins, username, password, authMode)
    ensures r.Success? ==> r.value == username
    ensures r.Failure? ==> r.error == PermissionDenied
  {
    if !CheckCredentials(logins, username, password, authMode) then Failure(PermissionDenied)
    else Success(username)
  }

  /** A login just added authenticates under its trimmed name: with its
      password in basic mode, with any password in other modes. */
  lemma AddedLoginAuthenticates(logins: Logins, username: string, password: string,
                                given: Option<string>, authMode: Option<string>)
    requires IsBasicMode(authMode) ==> given == Some(password)
    ensures Authenticate(AddLogin(logins, Some(username), Some(password)), Some(Trim(username)), given, authMode)
            == Success(Some(Trim(username)))
  {
  }

  /** In basic mode a wrong password is refused, even for a name just added. */
  lemma WrongPasswordRefused(logins: Logins, username: string, password: string, given: string)
    requires given != password
    ensures Authenticate(AddLogin(logins, Some(username), Some(password)), Some(Trim(username)), Some(given), None)
            == Failure(PermissionDenied)
  {
  }

  /** The name is trimmed when it is added but not when it is checked: a login
      added as " bob" cannot be used under " bob" unless "bob" is entered. */
  lemma UntrimmedNameNotFound()
    ensures Authenticate(AddLogin(map[], Some(" bob"), Some("pw")), Some(" bob"), Some("pw"), None)
            == Failure(PermissionDenied)
  {
    var t := Trim(" bob");
    assert TrimStart(" bob") == "bob" by {
      assert " bob"[1..] == "bob";
    }
    assert TrimEnd("bob") == "bob";
    assert t == "bob";
    assert " bob" != "bob" by { assert " bob"[0] != "bob"[0]; }
  }

  /** Adding a login with a missing part changes nothing, so the outcome of
      every later check is unchanged. */
  lemma IgnoredLoginChangesNothing(logins: Logins, username: Option<string>, password: Option<string>,
                                   u: Option<string>, p: Option<string>, authMode: Option<string>)
    requires username.None? || password.None?
    ensures Authenticate(AddLogin(logins, username, password), u, p, authMode) == Authenticate(logins, u, p, authMode)
  {
  }
}

=== FILE: wrappers.dfy ===
/** Failure-compatible wrappers used throughout the model: `Option` stands for a
    Java reference that may be null, `Result` for a call that returns a value or
    raises, `Outcome` for a check that returns normally or raises. */
module Wrappers {

  datatype Option<+T> = None | Some(value: T) {
    /** The wrapped value, or `default` when absent. */
    function GetOr(default: T): T {
      match this
      case Some(v) => v
      case None => default
    }
  }

  datatype Result<+T, +E> = Success(value: T) | Failure(error: E) {
    predicate IsFailure() { Failure? }

    function PropagateFailure<U>(): Result<U, E>
      requires Failure?
    {
      Failure(error)
    }

    function Extract(): T
      requires Success?
    {
      value
    }
  }

  datatype Outcome<+E> = Pass | Fail(error: E)
}

/** The exception kinds the repository raises, named after the CMIS exceptions. */
module CmisErrors {

  datatype CmisError =
    | ObjectNotFound           // unknown id, path or repository
    | InvalidArgument          // missing parameter, wrong object kind, root mutation
    | NameConstraintViolation  // duplicate child name
    | ConstraintViolation      // non-empty folder delete, forbidden type change
    | PermissionDenied         // authentication or ACL failure
    | RuntimeFailure           // a Java runtime exception (null dereference, bad cast, index)
}
